=== FILE: README.md ===
# Ship configuration engine, in Dafny

A model of the configuration engine behind the browser ship-configuration
editor (`js/ship-config-editor.js`). The engine works on one JSON document,
the ship configuration. Its parts:

- **Defaulting.** `DEFAULT_CONFIG` is laid under every loaded document by
  `mergeDeep` and `ensureStructure`.
- **Dotted paths.** `getValueAtPath` and `setValueAtPath` read and write
  `a.b.c` paths.
- **Field handlers.** The "Auto" (`compute*`) and "Rec" (`recommend*`)
  buttons derive a value, or fill a field from the preset tables. Each one
  returns an error or a patch.
- **Applying actions.** `applyFieldAction` and `applyPatch` apply a patch.
  `FIELD_METADATA` attaches the handlers to fields.
- **Validation.** `validateConfig` produces ordered errors and warnings.
- **Saving.** `prepareForSave` normalises a document before it is saved.
- **Tags.** `addTag` and `removeTag` edit the tag list.
- **Sprite lookup.** `resolveSpriteCandidates` and `loadSpriteFromCandidates`
  find the sprite. `inferPreferredSpritePath` suggests a sprite path.
  `setRemoteConfigSource` computes a directory hint.

## How the model represents the program

- **Values.** A document value is `Js.Value`: null, a boolean, a finite
  number (an exact `real`), NaN, a string, an array, or a plain object (a
  map).
- **Undefined.** `undefined` is `None` of `Js.Option`.
- **Exceptions.** Code that can throw a `TypeError` returns `Js.Result`.
  Examples are reading a property of `null`, or calling `trim` on a number.
  The editor's class bodies are strict code, so assigning a property of a
  primitive throws too.
- **Handler outcomes.** A handler's outcome is `Handlers.Outcome`: `Failed`
  (`{ error }`), `Patched` (`{ patch, message }`), or `Raised` (the handler
  threw).
- **Browser functions.** These are fields of a `Js.Platform` value, and are
  deliberately left abstract:
  - the String-to-Number conversion and `Number::toString`;
  - `Math.sqrt`;
  - URL resolution (`new URL(ref, base).href`, section 5.2 of RFC 3986);
  - `decodeURIComponent`;
  - `window.location.href`.
- **Image loading.** `loadSpriteFromCandidates` takes a per-candidate load
  oracle.
- **Rounding.** `round(value, p)` is modelled exactly on reals, as
  `Math.round((value + 2^-52) * 10^p) / 10^p`.
- **Numeric guards.** The compute handlers test `!Number(x)`, which
  refuses zero and NaN. A negative value passes that guard, and the model
  follows the code in this.
- **The `all` g-limit scope.** `recommendGLimits(editor, 'all')` patches
  ten fields, because `blackout_model` is part of the behaviour block.
- **Saving is not idempotent.** `prepareForSave` is not idempotent as a
  whole: an empty `meta.version` is deleted, and a second save restores it
  to `'0.5.3'` from the defaults. The normalisation after the merge is
  idempotent (`Saving.NormalizeIdempotent`).

Modules:
- `Strings`, `Numeric` and `Js` hold the language pieces.
- `Paths` holds the path accessors.
- `Document` holds the defaults and the merge.
- `Presets` holds the tables.
- `Sprites` holds `joinPath`, candidates, loading and the sprite path.
- `Patching` holds `applyPatch`.
- `Handlers` holds the handlers, `FIELD_METADATA` and `applyFieldAction`.
- `HandlerLaws` holds the laws about the handlers.
- `Validation` holds `validateConfig` and its rules.
- `ValidationLaws` holds the fit between the g-limit presets and the
  validator.
- `Saving` holds `prepareForSave`, `addTag` and `removeTag`.

## Model

| member | source | states |
|---|---|---|
| Strings.Split | js/ship-config-editor.js:107 | `path.split('.')` yields at least one piece, and no piece contains the separator |
| Strings.JoinSplit | js/ship-config-editor.js:107 | joining the pieces of a split with the separator gives the string back |
| Strings.SplitJoin | js/ship-config-editor.js:107 | splitting the join of separator-free pieces gives the pieces back |
| Strings.LastIndexOf | js/ship-config-editor.js:1575 | `lastIndexOf` is -1 exactly when the character is absent; otherwise it is an occurrence with no occurrence after it |
| Strings.LastSegmentIsSuffix | js/ship-config-editor.js:1373 | `split('/').pop()` is the suffix after the last `/` |
| Strings.ReplaceAll | js/ship-config-editor.js:1119 | `replace(/\\/g, '/')` keeps the length, replaces every backslash and keeps every other character |
| Strings.TrimStart | js/ship-config-editor.js:939 | the leading part of `trim` removes exactly a prefix of white space, and the result does not start with white space |
| Strings.TrimEnd | js/ship-config-editor.js:939 | the trailing part of `trim` removes exactly a suffix of white space, and the result does not end with white space |
| Strings.TrimEmpty | js/ship-config-editor.js:1120 | `s.trim()` is empty if and only if every character of `s` is ECMAScript white space |
| Strings.LowerAscii | js/ship-config-editor.js:438 | the ASCII part of `toLowerCase`: the length is kept, each ASCII capital becomes its small letter, and every other character is kept (full Unicode case mapping is left out) |
| Strings.LastSegmentWhole | js/ship-config-editor.js:1573 | a string without the separator is its own last piece of `split(sep).pop()` |
| Strings.ReplaceAllAbsent | js/ship-config-editor.js:1573 | `replace` of a character the string does not hold gives the string back |
| Strings.CollapseSlashes | js/ship-config-editor.js:169 | `replace(/\/{2,}/g, '/')` leaves no two adjacent slashes and never lengthens the string; every other character survives in order, a slash survives exactly when there was one, and a string without a doubled slash comes back unchanged |
| Strings.WithoutCharAppend | js/ship-config-editor.js:169 | dropping one character from a concatenation drops it from each part |
| Numeric.MathRound | js/ship-config-editor.js:125 | `Math.round(x)` is the integer within half of `x`, with halves rounded up |
| Numeric.MathRoundMonotone | js/ship-config-editor.js:125 | `Math.round` preserves order |
| Numeric.RoundTwoDecimals | js/ship-config-editor.js:123-126 | `round(x, 2)` is a whole number of hundredths within half a hundredth of `x + EPSILON`, which fixes its value |
| Numeric.RoundThreeDecimals | js/ship-config-editor.js:123-126 | `round(x, 3)` is a whole number of thousandths within half a thousandth of `x + EPSILON`, which fixes its value |
| Numeric.RoundTwoDecimalsWithin | js/ship-config-editor.js:123-126 | `round(x, 2)` stays between two whole hundredths that enclose `x` |
| Numeric.RoundThreeDecimalsWithin | js/ship-config-editor.js:123-126 | `round(x, 3)` stays between two whole thousandths that enclose `x` |
| Numeric.RoundNumber | js/ship-config-editor.js:123-126 | rounding keeps NaN as NaN and a finite number finite |
| Numeric.Mul | js/ship-config-editor.js:318 | a product is NaN if and only if a factor is NaN |
| Numeric.OrZero | js/ship-config-editor.js:481 | `x \|\| 0` is 0 for zero and NaN, and the number itself otherwise |
| Numeric.Clamp | js/ship-config-editor.js:482 | `Math.max(lo, Math.min(hi, x))` lies in `[lo, hi]`, and is `x` when `x` already does |
| Js.Coalesce | js/ship-config-editor.js:1170 | `a ?? b` is `b` exactly when `a` is null or undefined, and `a` otherwise |
| Js.Or | js/ship-config-editor.js:365 | `a \|\| b` is `a` when `a` is truthy and `b` otherwise |
| Js.NatToString | js/ship-config-editor.js:85 | an array index key is a non-empty decimal numeral without a leading zero |
| Js.DigitsOfNatToString | js/ship-config-editor.js:85 | reading back the decimal text of `n` gives `n` |
| Js.IndexKeyRoundTrip | js/ship-config-editor.js:85 | the key of index `n` is recognised as the array index `n` |
| Js.ArrayIndex | js/ship-config-editor.js:107 | a key recognised as an array index is the canonical numeral of that index |
| Js.GetProp | js/ship-config-editor.js:107 | `v[key]` on an object is defined exactly for its own keys, with the stored value; only objects, arrays and strings answer a key |
| Js.Member | js/ship-config-editor.js:107 | `v?.[key]` is undefined on null and undefined, and a property read otherwise |
| Js.Strict | js/ship-config-editor.js:1411 | `v.key` throws exactly on null and undefined, and otherwise reads like `v?.[key]` |
| Js.ToNumber | js/ship-config-editor.js:299 | `Number(v)` is NaN for undefined, 0 for null, and the number itself for a number |
| Js.ToPrimitive | js/ship-config-editor.js:1170 | conversion to a primitive leaves no array or object, and changes no primitive |
| Js.Compare | js/ship-config-editor.js:1215 | `a < b` on two numbers is the order of the reals, and is undefined when NaN takes part |
| Js.LessEqNumbers | js/ship-config-editor.js:1212 | on numbers, `<=` and `<` are the order of the reals |
| Paths.Keys | js/ship-config-editor.js:111 | a path has at least one key |
| Paths.WalkAppend | js/ship-config-editor.js:107 | reading along `a + b` is reading along `a` and then along `b` |
| Paths.ChildFields | js/ship-config-editor.js:115-118 | writing descends into an existing plain object and replaces anything else by `{}` |
| Paths.SetIn | js/ship-config-editor.js:110-121 | after the write, the path reads back the written value and every proper prefix is a plain object; the top-level keys gain only the first key, and every other top-level entry is unchanged |
| Paths.SetPath | js/ship-config-editor.js:110-121 | `getValueAtPath(doc, p)` after `setValueAtPath(doc, p, v)` is `v` |
| Paths.DivergesIffNoPrefix | js/ship-config-editor.js:110-121 | two key lists part ways if and only if neither is a prefix of the other |
| Paths.DivergesSymmetric | js/ship-config-editor.js:110-121 | parting ways is symmetric |
| Paths.SetInFrame | js/ship-config-editor.js:110-121 | a write leaves every path that parts ways with it readable as before, when one of the two object chains already exists |
| Paths.SetInKeepsPrefixes | js/ship-config-editor.js:110-121 | a write never breaks the object chain of a path that parts ways with it |
| Paths.ReadBelowWritten | js/ship-config-editor.js:106-121 | below a written path, the document reads like the written value |
| Paths.SetPathFrame | js/ship-config-editor.js:106-121 | when every proper prefix of `p` is a plain object, no path that neither extends `p` nor is a prefix of it changes |
| Paths.KeysOfPath | js/ship-config-editor.js:111 | splitting the dotted path of dot-free keys gives the keys back |
| Paths.GetPathOf | js/ship-config-editor.js:106-108 | reading a dotted path is walking its keys |
| Paths.WalkNone | js/ship-config-editor.js:107 | once a read is undefined, it stays undefined |
| Paths.FoundThroughObjects | js/ship-config-editor.js:107 | a value found along non-index keys was reached through plain objects |
| Paths.SetInFramePlain | js/ship-config-editor.js:110-121 | a write leaves every path that parts ways with it through plain keys readable as before, whatever the document holds |
| Document.MergeDeep | js/ship-config-editor.js:81-96 | the keys are the union; a key only in the target keeps its value; a non-object source value is taken as is, arrays included; an object source value gives an object |
| Document.MergeEntry | js/ship-config-editor.js:84-93 | a source value is merged into an object exactly when it is a plain object |
| Document.MergeSelf | js/ship-config-editor.js:81-96 | merging a document into itself changes nothing |
| Document.MergeIdempotent | js/ship-config-editor.js:81-96 | merging the same source twice is merging it once |
| Document.MergeKeepsSourceLeaves | js/ship-config-editor.js:81-96 | every non-object value of the source, at any path, is what the merge holds there |
| Document.MergeKeepsTargetBelowAbsent | js/ship-config-editor.js:81-96 | where the source lacks a path whose containers are objects in the target and objects (or absent) in the source, the merge reads what the target reads, at any depth |
| Document.IndexFields | js/ship-config-editor.js:82-83 | `Object.keys` of an array are exactly its index keys, each naming its element |
| Document.EnsureStructure | js/ship-config-editor.js:98-104 | the result has every default key; a non-object input gives the defaults; a key absent from the source keeps its default; every top-level non-object source value, arrays included, is taken |
| Document.EnsureStructureIdempotent | js/ship-config-editor.js:98-104 | `ensureStructure(ensureStructure(x)) == ensureStructure(x)` |
| Document.EnsureStructureKeepsLeaves | js/ship-config-editor.js:98-104 | every non-object value the loaded document holds, at any path, survives `ensureStructure` |
| Document.EnsureStructureKeepsDefaults | js/ship-config-editor.js:98-104 | a default the loaded document does not set keeps its default value, however deep it sits |
| Document.EnsureStructureKeepsVersion | js/ship-config-editor.js:98-104 | a document whose `meta` has no `version` comes out with `meta.version` equal to `'0.5.3'` |
| Document.MergeKeepsVersion | js/ship-config-editor.js:81-96 | merging a `meta` without `version` keeps the target's `meta.version` |
| Presets.CreateGLimitPreset | js/ship-config-editor.js:175-196 | a profile keeps the limits and burst durations it was given, with blackout model `none`; each cooldown is the whole number of hundredths within half a hundredth of 2.5 burst durations (plus `EPSILON`), and the smoothing constant the whole number of thousandths within half a thousandth of its argument |
| Presets.Cooldown | js/ship-config-editor.js:176-177 | the recovery cooldown `round(duration * 2.5, 2)` is the whole number of hundredths within half a hundredth of 2.5 durations plus `EPSILON` |
| Presets.RoundedSmoothing | js/ship-config-editor.js:191 | the smoothing constant `round(smoothing, 3)` is the whole number of thousandths within half a thousandth of the argument plus `EPSILON` |
| Presets.GLimitPresetFor | js/ship-config-editor.js:198-208 | the table has an entry exactly for the classes listed in it |
| Presets.GLimitPresetKeys | js/ship-config-editor.js:198-208 | the g-limit table has an entry if and only if the key is one of the nine classes |
| Presets.CreateGLimitPresetSound | js/ship-config-editor.js:175-196 | arguments with positive sustained limits, bursts at least the sustained limits, burst durations of at least 0.01 s and smoothing of at least 0.001 give a profile the validator accepts, rounding included |
| Presets.GLimitPresetsSound | js/ship-config-editor.js:198-208 | every entry of `GLIMIT_PROFILE_PRESETS` passes every g-limit check of `validateConfig` |
| Presets.AssistPresetKeys | js/ship-config-editor.js:210-283 | `ASSIST_PRESETS` covers exactly the classes that the g-limit table covers |
| Presets.AssistEntries | js/ship-config-editor.js:210-283 | an assist preset has six entries |
| Sprites.LetterRun | js/ship-config-editor.js:154 | the leading run of ASCII letters is maximal |
| Sprites.JoinFallback | js/ship-config-editor.js:167-169 | the fallback join never holds two adjacent slashes; its non-slash characters are those of the base followed by those of the addition, in order; it holds a slash exactly when the base is non-empty or the addition has one; and parts that need no collapsing are joined as `base + '/' + addition` |
| Sprites.JoinSeam | js/ship-config-editor.js:168-169 | the base with its `/` added when needed, followed by the addition, keeps both parts' other characters in order and holds a slash exactly when the base is non-empty or the addition has one |
| Sprites.NoDoubleSlashJoin | js/ship-config-editor.js:168-169 | a `/` between two parts that have no doubled slash and no slash at the seam doubles none |
| Sprites.JoinPath | js/ship-config-editor.js:150-170 | `joinPath` returns the base for an empty addition, and an addition with a scheme (or `//`) unchanged |
| Sprites.Collect | js/ship-config-editor.js:1347-1355 | the `add` helper keeps exactly the non-empty values offered, without empty strings or repeats |
| Sprites.CollectPrefix | js/ship-config-editor.js:1347-1355 | a later offer only ever appends: the candidates of a prefix of the offers are a prefix of the candidates |
| Sprites.CollectKeepsOrder | js/ship-config-editor.js:1347-1355 | a value offered before the first offer of another comes before it among the candidates |
| Sprites.CollectFirst | js/ship-config-editor.js:1347-1360 | the first value offered, when non-empty, is the first candidate |
| Sprites.ResolveSpriteCandidates | js/ship-config-editor.js:1346-1396 | a `data:`/`http(s):`/`//` path is the only candidate; otherwise the raw path comes first; no candidate is empty or repeated |
| Sprites.CandidatesAreTheAttempts | js/ship-config-editor.js:1346-1396 | a string is a candidate if and only if some attempted resolution produced it and it is not empty |
| Sprites.LoadFrom | js/ship-config-editor.js:1398-1425 | loading stops at the first candidate from `index` on that loads, after every earlier one failed; nothing loads exactly when every remaining candidate fails |
| Sprites.FillSpriteSizeFills | js/ship-config-editor.js:1409-1418 | the `onload` update throws exactly when `sprite` or `sprite.size_px` is null or missing (`.w` and `.h` are read without `?.`); otherwise both dimensions end up set, and a document whose dimensions are both set is unchanged |
| Sprites.FillWidth | js/ship-config-editor.js:1411-1413 | filling the width leaves it set, reached through plain objects, with `size_px` still readable |
| Sprites.FillHeight | js/ship-config-editor.js:1415-1417 | filling the height keeps the width filled and leaves the height set |
| Sprites.SizeNodeReads | js/ship-config-editor.js:1411 | `config.sprite.size_px.<dim>` is the walk along its keys; a truthy dimension means `size_px` is readable |
| Sprites.DirHint | js/ship-config-editor.js:1585-1592 | the hint is absent exactly when the normalised path has no `/`; otherwise it ends with `/` and, followed by the last segment, rebuilds the normalised path |
| Sprites.ReplaceSpaceRuns | js/ship-config-editor.js:1581 | `replace(/\s+/g, '_')` leaves no white space, returns a string without white space unchanged, and keeps every other character in order (the result with the separators removed is the input with its white space removed) |
| Sprites.DropSpaces | js/ship-config-editor.js:1581 | a run of white space is consumed as a whole: what is left is a suffix of the input that starts with a non-space, and no non-space character is lost |
| Sprites.ShipFolder | js/ship-config-editor.js:1581 | `(meta.class \|\| 'ship').replace(/\s+/g, '_')` throws exactly when `meta` is null or missing or the class is truthy but not a string; otherwise it is `ship` for a falsy class and the class with each run of white space turned into `_` for a string class |
| Sprites.FolderName | js/ship-config-editor.js:1581 | `(cls \|\| 'ship')` throws on a truthy non-string class, gives `ship` for a falsy one and the class with its white-space runs replaced for a string |
| Sprites.ShipIsPlain | js/ship-config-editor.js:1581 | the default folder `ship` passes through the replacement unchanged |
| Sprites.InferPreferredSpritePath | js/ship-config-editor.js:1569-1583 | each of the five branches: an empty file name gives the previous path (or `''`); a truthy previous path that is neither string nor array throws; a previous path with a folder keeps that folder and ends in the safe name; otherwise a directory hint is joined with the safe name; otherwise the path is `ships/<class>/<safe name>`, throwing exactly when the class cannot be read |
| Sprites.SafeName | js/ship-config-editor.js:1573 | the safe name of a file holds no `/` |
| Sprites.SafeNameOfPlain | js/ship-config-editor.js:1573 | a name with neither `/` nor `\` is its own safe name |
| Sprites.DirPart | js/ship-config-editor.js:1575-1576 | the directory part is a prefix of the path, ends with `/`, and followed by the last segment rebuilds the path |
| Sprites.LastSegmentAfterSlash | js/ship-config-editor.js:1576 | the last segment of a directory plus a name is the name |
| Sprites.LastIndexOfValue | js/ship-config-editor.js:1575 | `lastIndexOf` on an array is -1 exactly when the value is absent, and otherwise names an occurrence with none after it |
| Patching.ApplyPatch | js/ship-config-editor.js:1545-1567 | the entries are written in order; the sprite is refreshed exactly when some path starts with `sprite.`, reloaded exactly when `sprite.path` is a key, and the inertia toggle updated exactly when some path starts with `mass.inertia_override` |
| Patching.PatchReadBack | js/ship-config-editor.js:1545-1557 | when no path of the patch is a prefix of another, every entry reads back after the patch |
| Patching.PatchFrame | js/ship-config-editor.js:1545-1557 | a patch leaves every path that parts ways with all of its paths as it was |
| Patching.PatchFramePlain | js/ship-config-editor.js:1545-1557 | the same frame, for paths that part ways through plain keys, whatever the document holds |
| Handlers.ComputeHullRadius | js/ship-config-editor.js:298-309 | the error is returned exactly when the width or the length is zero or NaN; otherwise one numeric entry at `geometry.hull_radius_m` |
| Handlers.ComputeInertiaOverride | js/ship-config-editor.js:311-323 | the error is returned exactly when the mass, the width or the length is zero or NaN; otherwise one numeric entry at `mass.inertia_override.Izz_kg_m2` |
| Handlers.ComputeSpriteSize | js/ship-config-editor.js:325-338 | the error is returned exactly when no image is loaded; otherwise the patch is the image's natural width at `sprite.size_px.w` and natural height at `.h` |
| Handlers.ComputeSpritePivot | js/ship-config-editor.js:340-355 | the error is returned exactly when the width or height is zero or NaN; otherwise entries at `sprite.pivot_px.x` and `.y` |
| Handlers.Scales | js/ship-config-editor.js:365-390 | there are no scales exactly when neither axis has a positive length and a positive pixel size under the orientation's pairing |
| Handlers.ComputeSpriteScale | js/ship-config-editor.js:357-396 | the error is returned exactly when an input is zero or NaN or no axis yields a scale, with "Unable to derive…" in the second case; otherwise one numeric entry at `sprite.m_per_px` |
| Handlers.ScaleFrom | js/ship-config-editor.js:387-395 | no scale gives the "Unable to derive…" error; otherwise one numeric entry at `sprite.m_per_px` |
| Handlers.ComputeMainThrust | js/ship-config-editor.js:398-409 | the error is returned exactly when the mass or the longitudinal sustained g is zero or NaN; otherwise the rounded `mass * GRAVITY * g` at `propulsion.main_engine_thrust_max_N` |
| Handlers.ComputeStrafeThrust | js/ship-config-editor.js:411-422 | the error is returned exactly when the mass or the lateral sustained g is zero or NaN; otherwise the rounded thrust at `rcs.strafe_thrust_N` |
| Handlers.LowerKey | js/ship-config-editor.js:438 | `toLowerCase` succeeds exactly on strings |
| Handlers.FallbackName | js/ship-config-editor.js:425-426 | the picked file's name when there is one; otherwise the last segment of `sprite.path \|\| ''`, which throws exactly when that is not a string |
| Handlers.RecommendSpritePath | js/ship-config-editor.js:424-435 | the error is returned exactly when the fallback name is empty; it throws exactly when the name or the inferred path throws; otherwise one entry at `sprite.path` holding `inferPreferredSpritePath(name, sprite.path)` |
| Handlers.RecommendSpriteAlpha | js/ship-config-editor.js:437-446 | never an error; throws exactly when `meta.class \|\| ''` is not a string; ships over 150000 kg get 24, every other ship the class's `SPRITE_ALPHA_DEFAULTS` entry, or 16 |
| Handlers.ClassAlpha | js/ship-config-editor.js:439 | the class's table entry when there is one, and the default 16 otherwise |
| Handlers.AlphaFor | js/ship-config-editor.js:438-445 | the threshold throws exactly when the class key does; otherwise one entry at `sprite.alpha_thr`, 24 for a heavy ship and the class's value otherwise |
| Handlers.GLimitsPatch | js/ship-config-editor.js:454-469 | scope `all` gives 10 entries, an axis 4, `behavior` 2, and any other scope none |
| Handlers.RecommendGLimits | js/ship-config-editor.js:448-474 | throws exactly when the profile key cannot be lower-cased; the error is returned exactly when the key names no preset; otherwise the scope's entries of that preset |
| Handlers.Agility | js/ship-config-editor.js:482 | agility lies in `[0, 1]` |
| Handlers.FallbackAssist | js/ship-config-editor.js:479-500 | the derived preset enables coupled flight |
| Handlers.AssistPatch | js/ship-config-editor.js:501-504 | an assist patch has six entries |
| Handlers.RecommendAssist | js/ship-config-editor.js:476-509 | never an error; throws exactly when the class key cannot be lower-cased; a class with an `ASSIST_PRESETS` entry gets that preset's six entries, any other class the preset derived from the ship |
| Handlers.RecommendSpawnGrace | js/ship-config-editor.js:511-519 | always one entry at `spawn.spawn_grace_seconds`: 3.5 s above 100000 kg, 2.5 s above 50000 kg and 2 s otherwise, with a missing or non-numeric mass read as 0 |
| Handlers.Actions | js/ship-config-editor.js:521-672 | no field has both an "Auto" and a "Rec" handler; "Auto" handlers are the `compute*` ones and "Rec" handlers the `recommend*` ones; a button sits only on one of its handler's own fields; conversely, every field a handler lists gets that handler's button, "Auto" for a `compute*` handler and "Rec" for a `recommend*` one |
| Handlers.LookupFindsOwner | js/ship-config-editor.js:521-672 | whichever handler lists a path among its fields is the one whose button the path gets |
| Handlers.OwnerOf | js/ship-config-editor.js:521-672 | a field's keys name at most one owning handler, which has buttons and lists the field |
| Handlers.OwnsFields | js/ship-config-editor.js:521-672 | every field a handler lists maps back to that handler and is made of non-empty, dot-free keys |
| Handlers.UniqueOwner | js/ship-config-editor.js:521-672 | no dotted path belongs to two different handlers in `FIELD_METADATA` |
| Handlers.Lookup | js/ship-config-editor.js:521-672 | the buttons found for a path belong to a handler of the list that names the path among its fields, and some button is found whenever a handler of the list names the path |
| Handlers.HasFieldWitness | js/ship-config-editor.js:521-672 | a field named in a list has a key list in it whose dotted path it is |
| Handlers.ApplyFieldAction | js/ship-config-editor.js:1523-1566 | no handler leaves everything alone; a throwing handler propagates; an error is a warning status with the document unchanged; a patch is applied, and then either `refreshOutputs` throws and no message is shown, or the message is shown |
| Handlers.Settle | js/ship-config-editor.js:1531-1542 | after the handler: an exception changes nothing, an error is a warning, a patch is applied and its message shown unless the refresh throws |
| Handlers.RefreshThrowsMeans | js/ship-config-editor.js:876-880 | `refreshOutputs` throws exactly when `prepareForSave`, `validateConfig` or the sprite summary does |
| Handlers.SaveThrowsMeans | js/ship-config-editor.js:1102-1121 | the JSON preview throws exactly when `prepareForSave` does: a container merged over the defaults is missing, or the sprite or the tags cannot be normalised |
| Handlers.ValidateThrowsMeans | js/ship-config-editor.js:1153-1169 | validation throws exactly when a container is missing or `meta.id`/`meta.class` is neither nullish nor a string |
| HandlerLaws.ButtonWritesItsField | js/ship-config-editor.js:521-672 | the handler that a field's "Auto" or "Rec" button runs writes that field whenever it proposes a patch |
| HandlerLaws.RunWritesFields | js/ship-config-editor.js:298-519 | every handler's patch writes every field the handler is attached to |
| HandlerLaws.GLimitsWritesFields | js/ship-config-editor.js:448-474 | a g-limit recommendation writes every field of its scope |
| HandlerLaws.AssistWritesFields | js/ship-config-editor.js:476-509 | an assist recommendation writes all six assist fields |
| HandlerLaws.SpriteSizeSettlesOnload | js/ship-config-editor.js:1409-1418 | once the "Auto" sprite size is applied, the `onload` update of the same image changes nothing |
| HandlerLaws.RecommendSpritePathKeepsFiledPath | js/ship-config-editor.js:424-435 | with no file picked, a sprite path that already has a folder and ends in a plain file name is recommended unchanged |
| HandlerLaws.KeepsRead | js/ship-config-editor.js:1548-1549 | a patch whose paths all part ways with a field leaves that field's read unchanged |
| HandlerLaws.ComputeHullRadiusReads | js/ship-config-editor.js:298-300 | `computeHullRadius` depends only on the bounding box |
| HandlerLaws.ComputeHullRadiusIgnoresOwnFields | js/ship-config-editor.js:298-306 | writing the hull radius does not change what `computeHullRadius` proposes |
| HandlerLaws.ComputeHullRadiusIdempotent | js/ship-config-editor.js:298-309 | pressing the button a second time proposes the same patch |
| HandlerLaws.ComputeInertiaOverrideReads | js/ship-config-editor.js:311-314 | `computeInertiaOverride` depends only on the mass and the bounding box |
| HandlerLaws.ComputeInertiaOverrideIgnoresOwnFields | js/ship-config-editor.js:311-320 | writing `Izz_kg_m2` does not change what the handler proposes |
| HandlerLaws.ComputeInertiaOverrideIdempotent | js/ship-config-editor.js:311-323 | pressing the button a second time proposes the same patch |
| HandlerLaws.ComputeSpritePivotReads | js/ship-config-editor.js:340-342 | `computeSpritePivot` depends only on the sprite size |
| HandlerLaws.ComputeSpritePivotIgnoresOwnFields | js/ship-config-editor.js:340-352 | writing the pivot does not change what the handler proposes |
| HandlerLaws.ComputeSpritePivotIdempotent | js/ship-config-editor.js:340-355 | pressing the button a second time proposes the same patch |
| HandlerLaws.ComputeSpriteScaleReads | js/ship-config-editor.js:357-365 | `computeSpriteScale` depends only on the bounding box, the sprite size and the orientation |
| HandlerLaws.ComputeSpriteScaleIgnoresOwnFields | js/ship-config-editor.js:357-393 | writing `m_per_px` does not change what the handler proposes |
| HandlerLaws.ComputeSpriteScaleIdempotent | js/ship-config-editor.js:357-396 | pressing the button a second time proposes the same patch |
| HandlerLaws.ComputeMainThrustReads | js/ship-config-editor.js:398-400 | `computeMainThrust` depends only on the mass and the longitudinal sustained g |
| HandlerLaws.ComputeMainThrustIgnoresOwnFields | js/ship-config-editor.js:398-406 | writing the main thrust does not change what the handler proposes |
| HandlerLaws.ComputeMainThrustIdempotent | js/ship-config-editor.js:398-409 | pressing the button a second time proposes the same patch |
| HandlerLaws.ComputeStrafeThrustReads | js/ship-config-editor.js:411-413 | `computeStrafeThrust` depends only on the mass and the lateral sustained g |
| HandlerLaws.ComputeStrafeThrustIgnoresOwnFields | js/ship-config-editor.js:411-419 | writing the strafe thrust does not change what the handler proposes |
| HandlerLaws.ComputeStrafeThrustIdempotent | js/ship-config-editor.js:411-422 | pressing the button a second time proposes the same patch |
| HandlerLaws.RecommendSpriteAlphaReads | js/ship-config-editor.js:437-441 | `recommendSpriteAlpha` depends only on the class and the mass |
| HandlerLaws.RecommendSpriteAlphaIgnoresOwnField | js/ship-config-editor.js:437-443 | writing the alpha threshold does not change the recommendation |
| HandlerLaws.RecommendSpriteAlphaIdempotent | js/ship-config-editor.js:437-446 | pressing "Rec" a second time proposes the same patch |
| HandlerLaws.RecommendSpawnGraceIdempotent | js/ship-config-editor.js:511-519 | pressing "Rec" a second time proposes the same patch |
| HandlerLaws.GLimitsPatchKeys | js/ship-config-editor.js:454-469 | every path of a g-limit patch is a field of a section that its scope names |
| HandlerLaws.RecommendGLimitsReads | js/ship-config-editor.js:449-450 | `recommendGLimits` depends only on the profile and the class |
| HandlerLaws.RecommendGLimitsIdempotent | js/ship-config-editor.js:448-474 | applying a g-limit recommendation and asking again proposes the same patch |
| HandlerLaws.RecommendGLimitsStaysInScope | js/ship-config-editor.js:455-469 | a scoped recommendation changes nothing outside the sections its scope names |
| HandlerLaws.AssistPatchKeys | js/ship-config-editor.js:501-504 | the six paths of an assist patch are `assist.<key>` for the preset's keys |
| HandlerLaws.RecommendAssistReads | js/ship-config-editor.js:476-481 | `recommendAssist` depends only on the class, the profile, `rcs` and the lateral sustained g |
| HandlerLaws.RecommendAssistIdempotent | js/ship-config-editor.js:476-509 | pressing "Rec" a second time proposes the same patch |
| HandlerLaws.FallbackAssistBounds | js/ship-config-editor.js:479-500 | the derived preset enables coupled flight; its deadzone is a whole number in `[2, 4]`, its align gain in `[0.55, 0.8]`, its autobrake in `[0.08, 0.13]`, and its default omega and alpha caps in `[1, 1.6]` and `[0.6, 1.2]` |
| HandlerLaws.DeadzoneShrinksWithAgility | js/ship-config-editor.js:490 | a more agile ship never gets a wider deadzone |
| Handlers.GraceForValues | js/ship-config-editor.js:513-514 | the spawn grace is 2 s up to 50000 kg, 2.5 s up to 100000 kg and 3.5 s above |
| HandlerLaws.RecommendSpawnGraceMonotone | js/ship-config-editor.js:511-519 | a heavier ship never gets a shorter spawn grace |
| Validation.Blank | js/ship-config-editor.js:1164-1169 | `!v?.trim()` is true for null, undefined and all-white-space strings, false for other strings, and throws on anything else |
| Validation.Check | js/ship-config-editor.js:1164-1234 | a check contributes its one diagnostic exactly when its condition holds |
| Validation.SectionWarnings | js/ship-config-editor.js:1221-1223 | an axis gives at most one warning |
| Validation.GLimitWarnings | js/ship-config-editor.js:1201-1230 | the g-limit block gives at most two warnings |
| Validation.LeadingWarnings | js/ship-config-editor.js:1182-1199 | the checks before the g-limit block give at most six warnings |
| Validation.Validate | js/ship-config-editor.js:1159-1237 | `validateConfig` throws exactly when a container it reads without optional chaining is missing, or `meta.id`/`meta.class` is neither nullish nor a string; otherwise it gives the report of the document |
| Validation.Diagnose | js/ship-config-editor.js:1160-1236 | a report has at most eight warnings |
| Validation.FlagsAppend | js/ship-config-editor.js:1160-1161 | a path is flagged by two lists of diagnostics together exactly when one of them flags it |
| Validation.FlagsCheck | js/ship-config-editor.js:1164-1234 | a check flags a path exactly when its condition holds and the path is its own |
| Validation.SectionBurstRule | js/ship-config-editor.js:1215-1217 | an axis reports `<section>.burst_g` exactly when it is present and its burst is below its sustained limit |
| Validation.SectionRecoveryIsWarning | js/ship-config-editor.js:1221-1223 | a short recovery cooldown is never an axis error, and is a warning exactly when the axis is present and the cooldown is below the burst duration |
| Validation.LeadingErrorsOutside | js/ship-config-editor.js:1164-1181 | no error before the g-limit block is under `g_limits` |
| Validation.LeadingWarningsOutside | js/ship-config-editor.js:1182-1199 | no warning before the g-limit block is under `g_limits` |
| Validation.SectionPaths | js/ship-config-editor.js:1207-1223 | every diagnostic of an axis is at the axis or at one of its four fields |
| Validation.DiagnoseFlagsGLimits | js/ship-config-editor.js:1159-1237 | the report flags a path under `g_limits` exactly when the g-limit block does |
| Validation.GLimitFlagsSplit | js/ship-config-editor.js:1201-1227 | a present block flags a path exactly when one of its axes or the smoothing check does |
| Validation.GLimitBurstRule | js/ship-config-editor.js:1201-1217 | the block reports an axis's `burst_g` exactly when the block is present and that axis's burst is below its sustained limit |
| Validation.GLimitRecoveryRule | js/ship-config-editor.js:1201-1223 | a short recovery cooldown is never an error of the block; it is a warning exactly when the block and axis are present and the cooldown is short |
| Validation.GLimitMissingRule | js/ship-config-editor.js:1201-1230 | the block reports `g_limits` exactly when it is missing, and then that is its only diagnostic |
| Validation.BurstRule | js/ship-config-editor.js:1159-1237 | `validateConfig` reports `<section>.burst_g` as an error exactly when `g_limits` and that section are present and burst is below sustained |
| Validation.RecoveryCooldownOnlyWarns | js/ship-config-editor.js:1159-1237 | `validateConfig` never reports a short cooldown as an error, and warns about it exactly when it is short |
| Validation.DiagnoseMissingGLimits | js/ship-config-editor.js:1159-1237 | a report flags `g_limits` exactly when the block is missing, and then nothing below it |
| Validation.MissingGLimitsRule | js/ship-config-editor.js:1159-1237 | `validateConfig` gives one error at `g_limits` exactly when the block is missing, and then nothing below `g_limits` is flagged |
| ValidationLaws.SectionClean | js/ship-config-editor.js:1207-1223 | an axis holding sound limits gives no error and no warning |
| ValidationLaws.BlockClean | js/ship-config-editor.js:1201-1227 | a block holding a sound profile gives no error and no warning |
| ValidationLaws.AllPatchKeys | js/ship-config-editor.js:455-469 | the ten paths of scope `all` are the four axis fields of each axis and the two behaviour fields |
| ValidationLaws.AllPatchDiverges | js/ship-config-editor.js:455-469 | no path of the `all` patch is a prefix of another |
| ValidationLaws.AllPatchLandsBlock | js/ship-config-editor.js:455-469 | applying the `all` patch leaves a `g_limits` block holding the whole profile, whatever the document held |
| ValidationLaws.RecommendAllClearsGLimits | js/ship-config-editor.js:1201-1230 | after applying `recommendGLimits(editor, 'all')`, the g-limit block gives no error and no warning |
| Saving.DropBlankMeta | js/ship-config-editor.js:1104-1109 | an optional `meta` key survives exactly when its value is neither `''` nor `null`; nothing else changes |
| Saving.ClearInertia | js/ship-config-editor.js:1110-1115 | a truthy override without a usable `Izz_kg_m2` becomes `null`; a settled one is left alone |
| Saving.DropBlankRadius | js/ship-config-editor.js:1116-1118 | `hull_radius_m` survives exactly when it is not blank; nothing else in `geometry` changes |
| Saving.NormalizeSpritePath | js/ship-config-editor.js:1119 | throws exactly when the sprite cannot take the assignment; otherwise the path has no backslash, keeps its length and keeps its other characters, and no other sprite key changes |
| Saving.KeepTags | js/ship-config-editor.js:1120 | the filter throws exactly when some tag is truthy but not a string; otherwise it keeps exactly the tags with something besides white space, each as many times as it occurs |
| Saving.FilterTags | js/ship-config-editor.js:1120 | the kept tags are exactly the tags that pass the test, each as many times as it occurs, and only those |
| Saving.FilterCounts | js/ship-config-editor.js:1120 | `filter` keeps each passing element as many times as it occurs and drops every other |
| Saving.FilterAppend | js/ship-config-editor.js:1120 | filtering a concatenation is concatenating the filtered parts, so survivors keep their order |
| Saving.FilterOne | js/ship-config-editor.js:1120 | a one-element list is kept exactly when its element passes |
| Saving.FilterMembers | js/ship-config-editor.js:1120 | `filter` keeps exactly the elements that pass its test |
| Saving.CleanTags | js/ship-config-editor.js:1120 | the tag step throws exactly when `tags \|\| []` is not an array or holds an untestable tag; otherwise the result is the filtered `tags \|\| []`, in order, each kept tag as many times as it occurs |
| Saving.Normalize | js/ship-config-editor.js:1104-1121 | throws exactly when a container is null or undefined, the sprite fails, or the tags fail; otherwise each part is its step's result and no other key changes |
| Saving.NormalizeSaveable | js/ship-config-editor.js:1104-1121 | every normalised document keeps the promises of a saved one |
| Saving.PrepareForSave | js/ship-config-editor.js:1102-1122 | a saved document has no blank optional `meta` key, no blank `hull_radius_m`, no backslash in `sprite.path` and only tags with something besides white space; it has every default key |
| Saving.NormalizeIdempotent | js/ship-config-editor.js:1104-1121 | normalising a normalised document changes nothing |
| Saving.FilterKeepsKept | js/ship-config-editor.js:1120 | a filter whose test holds throughout keeps everything |
| Saving.AddTag | js/ship-config-editor.js:938-952 | a blank input changes nothing; otherwise the trimmed tag is pushed |
| Saving.PushTag | js/ship-config-editor.js:943-948 | the tag is in the list afterwards; the old list is a prefix and at most one tag is added; no repeats are introduced; nothing but `tags` changes |
| Saving.AddTagIdempotent | js/ship-config-editor.js:938-952 | adding the same tag twice adds it once |
| Saving.PushTagIdempotent | js/ship-config-editor.js:943-948 | pushing a tag already present changes nothing |
| Saving.Without | js/ship-config-editor.js:955 | the filtered list holds exactly the other elements, each as many times as before, and is the list itself when the value is absent |
| Saving.WithoutIsFilter | js/ship-config-editor.js:955 | dropping a value is `filter((t) => t !== tag)`, so the other tags keep their order |
| Saving.RemoveTag | js/ship-config-editor.js:954-958 | throws exactly when `tags \|\| []` is not an array; otherwise the list is `tags.filter((t) => t !== tag)`: the other tags, in order and as often as before; nothing else changes |
| Saving.RemoveUndoesAdd | js/ship-config-editor.js:938-958 | removing a tag that was just added restores the document |
| Saving.WithoutLast | js/ship-config-editor.js:955 | dropping a value from a list that gained it only at the end gives the old list |

## Left out

- DOM, canvas, events and status display: forms, help pop-ups, tag
  rendering, messages, invalid-field marking, sprite drawing and clicks.
  These are presentation, not configuration logic. `updateSpriteFromConfig`
  is not modelled beyond the refresh and reload flags that `applyPatch`
  passes to it.
- File, network and clipboard I/O (`loadFromAppConfig`, `openFile`,
  `handleFileInput`, `save`, `downloadFile`, `copyJson`,
  `handleSpriteInput`). These are asynchronous browser plumbing. Image
  loading is an oracle parameter.
- `tryParseNumber` and `clone`. The form's string-to-number coercion is a
  platform parameter, and cloning is implicit in immutable values.
- `setRemoteConfigSource` is modelled only in its directory-hint part. The
  `configSource` URL object is a `ConfigSource` value built by the caller.
- Property insertion order of objects. Objects are maps, and
  `Object.entries` order is modelled only for patches (ordered entry lists).
- Named properties of arrays. An array `sprite` takes the `sprite.path`
  assignment as a named property, which the model does not represent; the
  array is kept as it is.
- Inherited `Object.prototype` names such as `constructor`, used as keys of
  the preset tables, are treated as absent. An own `__proto__` key of a
  loaded document is an ordinary key to `Document.MergeDeep` and
  `Paths.SetIn`, whereas `mergeDeep` and `setValueAtPath` reach the
  prototype through it.
- `removeTag` compares tags by identity. It is modelled for string tags only
  (the tags the list displays), compared by value.
- Handlers.ComputeSpriteScale: its contract states the guard, the refusal
  when no scale exists and the patch key, not the averaged value
  `round(sum / count, 5)`.
- Handlers.ComputeHullRadius: the radius is `round(sqrt(...), 3)` with
  `Math.sqrt` a platform parameter, so the contract states the guard and the
  key, not the value.
- Sprites.JoinPath: URL resolution and `decodeURIComponent` are platform
  parameters, so only the two branches before them are stated exactly.
- Handlers.ComputeInertiaOverride: its contract states the guard and the
  key, not the value `round(mass * (w^2 + l^2) / 12, 3)`.
- Handlers.ComputeSpritePivot: its contract states the guard and the two
  keys, not the halved, rounded values.
- Strings.LowerAscii: `toLowerCase` applies the full Unicode case mapping,
  so `İ` (U+0130) becomes two code units and the Kelvin sign (U+212A)
  becomes `k`. The model folds the ASCII capitals only. The table keys are
  ASCII, so a class key whose non-ASCII capitals fold to ASCII letters
  finds a preset in the program and none in the model.
- Strings.LexLess: strings are sequences of code points, and `LexLess`
  orders them by code point. JavaScript's `<` compares UTF-16 code units,
  so the two disagree when a character above U+FFFF meets one from U+E000
  to U+FFFF: `"\u{FFFF}" < "\u{10000}"` is false in JavaScript and true in
  the model.
- Js.GetProp: a string's `length` and its indices count code points, where
  JavaScript counts UTF-16 code units; they differ on characters above
  U+FFFF.
- Js.Compare: compares two strings with `LexLess`, so it inherits the
  code-point order described for `Strings.LexLess`.
- Handlers.ApplyFieldAction: after a `sprite.*` patch, `applyPatch` calls
  `updateSpriteFromConfig` and `drawSprite` before `refreshOutputs`. These
  reload and draw the picture; they are not modelled, and neither are their
  exceptions. Only the exceptions of `refreshOutputs` are.
- Sprites.FillSpriteSizeFills: the `onload` handler also calls
  `setSpriteImage` before the fill and `refreshOutputs` after it. Both are
  display updates and are not modelled.
- IEEE-754 double arithmetic is not modelled. Numbers are exact reals, and
  `round` and `Math.round` are exact on them.

=== FILE: document.dfy ===
/** The ship document: the default configuration, the deep merge that lays a
    loaded document over it, and `ensureStructure`, which every document goes
    through before the editor keeps it. */
module Document {
  import opened Js
  import opened Paths

  /** A document: the editor's configuration is always a plain object. */
  type Config = map<string, Value>

  /** `DEFAULT_CONFIG`. */
  const DefaultConfig: Config := map[
    "meta" := Obj(map[
      "id" := Str(""),
      "class" := Str(""),
      "name" := Str(""),
      "version" := Str("0.5.3"),
      "author" := Str(""),
      "notes" := Str("")]),
    "mass" := Obj(map[
      "mass_kg" := Num(0.0),
      "inertia_override" := Null]),
    "geometry" := Obj(map[
      "bbox_m" := Obj(map["width" := Num(0.0), "length" := Num(0.0)]),
      "hull_radius_m" := Null]),
    "sprite" := Obj(map[
      "path" := Str(""),
      "size_px" := Obj(map["w" := Num(0.0), "h" := Num(0.0)]),
      "pivot_px" := Obj(map["x" := Num(0.0), "y" := Num(0.0)]),
      "orientation" := Str("nose_right"),
      "alpha_thr" := Num(0.0),
      "m_per_px" := Num(0.0)]),
    "propulsion" := Obj(map["main_engine_thrust_max_N" := Num(0.0)]),
    "rcs" := Obj(map[
      "strafe_thrust_N" := Num(0.0),
      "turn_alpha_max_radps2" := Num(0.0),
      "turn_omega_max_radps" := Num(0.0)]),
    "g_limits" := Obj(map[
      "profile" := Str("custom"),
      "longitudinal" := Obj(map[
        "sustained_g" := Num(0.0),
        "burst_g" := Num(0.0),
        "burst_duration_s" := Num(1.0),
        "recovery_cooldown_s" := Num(1.0)]),
      "lateral" := Obj(map[
        "sustained_g" := Num(0.0),
        "burst_g" := Num(0.0),
        "burst_duration_s" := Num(1.0),
        "recovery_cooldown_s" := Num(1.0)]),
      "behavior" := Obj(map[
        "smoothing_tau_s" := Num(0.1),
        "blackout_model" := Str("none")])]),
    "assist" := Obj(map[
      "coupled_enabled" := Bool(true),
      "coupled_omega_cap_radps" := Num(1.0),
      "coupled_alpha_cap_radps2" := Num(1.0),
      "coupled_align_gain" := Num(0.5),
      "coupled_deadzone_deg" := Num(2.0),
      "autobrake_eps_mps" := Num(0.05)]),
    "spawn" := Obj(map["spawn_grace_seconds" := Num(1.0)]),
    "tags" := Arr([])]

  /** `mergeDeep(target, source)`: every key of the source is laid over the
      target; arrays and other non-objects overwrite, plain objects recurse
      into the target's plain object at that key (or into a fresh `{}`). */
  function MergeDeep(target: map<string, Value>, source: map<string, Value>): (r: map<string, Value>)
    ensures r.Keys == target.Keys + source.Keys
    ensures forall k :: k in target && k !in source ==> r[k] == target[k]
    ensures forall k :: k in source && !source[k].Obj? ==> r[k] == source[k]
    ensures forall k :: k in source && source[k].Obj? ==> r[k].Obj?
    decreases Obj(source), 0
  {
    map k | k in target.Keys + source.Keys ::
      if k in source then MergeEntry(ChildFields(target, k), source[k]) else target[k]
  }

  /** The merged value of one source entry, given what the target holds there. */
  function MergeEntry(child: map<string, Value>, src: Value): (r: Value)
    ensures src.Obj? <==> r.Obj?
    ensures !src.Obj? ==> r == src
    decreases src, 1
  {
    if src.Obj? then Obj(MergeDeep(child, src.fields)) else src
  }

  /** Merging a document into itself changes nothing. */
  lemma {:induction false} MergeSelf(m: map<string, Value>)
    ensures MergeDeep(m, m) == m
    decreases Obj(m)
  {
    forall k | k in m
      ensures MergeDeep(m, m)[k] == m[k]
    {
      if m[k].Obj? {
        MergeSelf(m[k].fields);
      }
    }
  }

  /** Merging the same source twice is merging it once. */
  lemma {:induction false} MergeIdempotent(t: map<string, Value>, s: map<string, Value>)
    ensures MergeDeep(t, MergeDeep(t, s)) == MergeDeep(t, s)
    decreases Obj(s)
  {
    var r := MergeDeep(t, s);
    var rr := MergeDeep(t, r);
    assert rr.Keys == r.Keys;
    forall k | k in r
      ensures rr[k] == r[k]
    {
      var c := ChildFields(t, k);
      assert rr[k] == MergeEntry(c, r[k]);
      if k in s {
        assert r[k] == MergeEntry(c, s[k]);
        if s[k].Obj? {
          MergeIdempotent(c, s[k].fields);
        }
      } else if r[k].Obj? {
        assert r[k] == t[k] && c == t[k].fields;
        MergeSelf(t[k].fields);
      }
    }
  }

  /** Every non-object value the source holds at some path is what the merge
      holds there: the source wins, down to the leaves. */
  lemma {:induction false} MergeKeepsSourceLeaves(t: map<string, Value>, s: map<string, Value>, keys: seq<string>, x: Value)
    requires |keys| >= 1
    requires Walk(Some(Obj(s)), keys) == Some(x) && !x.Obj?
    ensures Walk(Some(Obj(MergeDeep(t, s))), keys) == Some(x)
    decreases |keys|
  {
    var k := keys[0];
    if k !in s {
      WalkNone(keys[1..]);
    } else if s[k].Obj? && |keys| > 1 {
      MergeKeepsSourceLeaves(ChildFields(t, k), s[k].fields, keys[1..], x);
    }
  }

  /** The source lacks the path, and every key it does hold on the way
      there is a plain object: the merge never overwrites the path's
      containers with a non-object. */
  predicate AbsentBelowObjects(s: map<string, Value>, keys: seq<string>)
    decreases |keys|
  {
    |keys| >= 1 &&
    (keys[0] !in s || (s[keys[0]].Obj? && AbsentBelowObjects(s[keys[0]].fields, keys[1..])))
  }

  /** Where the source lacks a path whose containers are plain objects in the
      target, the merge holds what the target holds: nested objects are
      merged key by key, not replaced. */
  lemma {:induction false} MergeKeepsTargetBelowAbsent(t: map<string, Value>, s: map<string, Value>, keys: seq<string>)
    requires PrefixesAreObjects(t, keys)
    requires AbsentBelowObjects(s, keys)
    ensures Walk(Some(Obj(MergeDeep(t, s))), keys) == Walk(Some(Obj(t)), keys)
    decreases |keys|
  {
    var k := keys[0];
    var m := MergeDeep(t, s);
    if k in s {
      assert |keys| >= 2;
      var c := ChildFields(t, k);
      assert m[k] == MergeEntry(c, s[k]);
      assert c == t[k].fields;
      MergeKeepsTargetBelowAbsent(c, s[k].fields, keys[1..]);
    } else {
      assert k in t ==> m[k] == t[k];
    }
  }

  /** The own keys of an array as an object: the decimal index keys, each
      naming the element `GetProp` reads at it. */
  function IndexFields(a: seq<Value>): (r: map<string, Value>)
    ensures forall i :: 0 <= i < |a| ==> NatToString(i) in r && r[NatToString(i)] == a[i]
    ensures forall k :: k in r ==> ArrayIndex(k).Some? && ArrayIndex(k).value < |a|
    decreases |a|
  {
    if |a| == 0 then map[]
    else
      var n := |a| - 1;
      var prev := IndexFields(a[..n]);
      IndexFieldsStep(a, prev);
      prev[NatToString(n) := a[n]]
  }

  /** Adding the key of the last element to the keys of the others gives
      the keys of the whole array. */
  lemma IndexFieldsStep(a: seq<Value>, prev: map<string, Value>)
    requires |a| >= 1
    requires forall i :: 0 <= i < |a| - 1 ==> NatToString(i) in prev && prev[NatToString(i)] == a[i]
    requires forall k :: k in prev ==> ArrayIndex(k).Some? && ArrayIndex(k).value < |a| - 1
    ensures var r := prev[NatToString(|a| - 1) := a[|a| - 1]];
      (forall i :: 0 <= i < |a| ==> NatToString(i) in r && r[NatToString(i)] == a[i])
      && (forall k :: k in r ==> ArrayIndex(k).Some? && ArrayIndex(k).value < |a|)
  {
    var n := |a| - 1;
    IndexKeysDistinct(n);
    IndexKeyRoundTrip(n);
    AddLastKey(a, prev, NatToString(n));
    AddLastIndex(n, prev, NatToString(n), a[n]);
  }

  /** The same step with the new key held abstract: every index names its
      element. */
  lemma AddLastKey(a: seq<Value>, prev: map<string, Value>, key: string)
    requires |a| >= 1
    requires forall i :: 0 <= i < |a| - 1 ==> NatToString(i) in prev && prev[NatToString(i)] == a[i]
    requires key == NatToString(|a| - 1)
    requires forall i :: 0 <= i < |a| - 1 ==> NatToString(i) != key
    ensures var r := prev[key := a[|a| - 1]];
      forall i :: 0 <= i < |a| ==> NatToString(i) in r && r[NatToString(i)] == a[i]
  {
    var n := |a| - 1;
    var r := prev[key := a[n]];
    forall i | 0 <= i < |a|
      ensures NatToString(i) in r && r[NatToString(i)] == a[i]
    {
      if i < n {
        assert NatToString(i) != key && NatToString(i) in prev;
      }
    }
  }

  /** The same step with the new key held abstract: every key is an index
      below the new length. */
  lemma AddLastIndex(n: nat, prev: map<string, Value>, key: string, v: Value)
    requires forall k :: k in prev ==> ArrayIndex(k).Some? && ArrayIndex(k).value < n
    requires ArrayIndex(key) == Some(n)
    ensures forall k :: k in prev[key := v] ==> ArrayIndex(k).Some? && ArrayIndex(k).value < n + 1
  {
  }

  lemma IndexKeysDistinct(n: nat)
    ensures forall i :: 0 <= i < n ==> NatToString(i) != NatToString(n)
  {
    forall i | 0 <= i < n
      ensures NatToString(i) != NatToString(n)
    {
      DigitsOfNatToString(i);
      DigitsOfNatToString(n);
    }
  }

  /** `Object.keys(config)` with the values it names, for the configurations
      `ensureStructure` merges: plain objects and arrays. */
  function SourceFields(config: Value): map<string, Value> {
    match config
    case Obj(m) => m
    case Arr(a) => IndexFields(a)
    case _ => map[]
  }

  /** `ensureStructure(config)`: a fresh default document with `config`
      merged over it when `config` is an object (arrays included). */
  function EnsureStructure(config: Value): (r: Config)
    ensures DefaultConfig.Keys <= r.Keys
    ensures !config.Obj? && !config.Arr? ==> r == DefaultConfig
    ensures forall k :: k in DefaultConfig && k !in SourceFields(config) ==> r[k] == DefaultConfig[k]
    ensures config.Obj? ==> forall k :: k in config.fields && !config.fields[k].Obj? ==> k in r && r[k] == config.fields[k]
  {
    MergeOver(DefaultConfig, config)
  }

  /** `defaults` with `config` merged over it when `config` is an object. */
  function MergeOver(defaults: Config, config: Value): (r: Config)
    ensures config.Obj? ==> r == MergeDeep(defaults, config.fields)
  {
    if config.Obj? || config.Arr? then MergeDeep(defaults, SourceFields(config)) else defaults
  }

  /** `ensureStructure` is idempotent. */
  lemma EnsureStructureIdempotent(config: Value)
    ensures EnsureStructure(Obj(EnsureStructure(config))) == EnsureStructure(config)
  {
    if config.Obj? || config.Arr? {
      MergeIdempotent(DefaultConfig, SourceFields(config));
    } else {
      MergeSelf(DefaultConfig);
    }
  }

  /** Every path the source document holds a non-object value at survives
      `ensureStructure` unchanged. */
  lemma EnsureStructureKeepsLeaves(config: map<string, Value>, keys: seq<string>, x: Value)
    requires |keys| >= 1
    requires Walk(Some(Obj(config)), keys) == Some(x) && !x.Obj?
    ensures Walk(Some(Obj(EnsureStructure(Obj(config)))), keys) == Some(x)
  {
    MergeOverKeepsLeaves(DefaultConfig, config, keys, x);
  }

  lemma MergeOverKeepsLeaves(defaults: Config, config: map<string, Value>, keys: seq<string>, x: Value)
    requires |keys| >= 1
    requires Walk(Some(Obj(config)), keys) == Some(x) && !x.Obj?
    ensures Walk(Some(Obj(MergeOver(defaults, Obj(config)))), keys) == Some(x)
  {
    MergeKeepsSourceLeaves(defaults, config, keys, x);
  }

  /** A default the document does not set survives `ensureStructure`, however
      deep it sits: the defaults' nested objects are merged, not replaced. */
  lemma EnsureStructureKeepsDefaults(config: map<string, Value>, keys: seq<string>)
    requires PrefixesAreObjects(DefaultConfig, keys)
    requires AbsentBelowObjects(config, keys)
    ensures Walk(Some(Obj(EnsureStructure(Obj(config)))), keys) == Walk(Some(Obj(DefaultConfig)), keys)
  {
    MergeKeepsTargetBelowAbsent(DefaultConfig, config, keys);
  }

  lemma DefaultVersion()
    ensures "meta" in DefaultConfig && DefaultConfig["meta"].Obj?
    ensures "version" in DefaultConfig["meta"].fields && DefaultConfig["meta"].fields["version"] == Str("0.5.3")
  {
  }

  /** For instance, a document whose `meta` has no `version` comes out with
      the default `0.5.3`. */
  lemma EnsureStructureKeepsVersion(config: map<string, Value>)
    requires "meta" in config && config["meta"].Obj? && "version" !in config["meta"].fields
    ensures var r := EnsureStructure(Obj(config));
      r["meta"].Obj? && "version" in r["meta"].fields && r["meta"].fields["version"] == Str("0.5.3")
  {
    DefaultVersion();
    MergeKeepsVersion(DefaultConfig, config);
  }

  /** The same with the defaults held abstract. */
  lemma MergeKeepsVersion(d: Config, config: map<string, Value>)
    requires "meta" in d && d["meta"].Obj? && "version" in d["meta"].fields
    requires "meta" in config && config["meta"].Obj? && "version" !in config["meta"].fields
    ensures var r := MergeDeep(d, config);
      r["meta"].Obj? && "version" in r["meta"].fields && r["meta"].fields["version"] == d["meta"].fields["version"]
  {
    var keys := ["meta", "version"];
    assert AbsentBelowObjects(config["meta"].fields, keys[1..]);
    MergeKeepsTargetBelowAbsent(d, config, keys);
  }
}

=== FILE: handlerlaws.dfy ===
/** Laws of the field handlers: pressing a button twice proposes nothing new,
    every registered button writes its own field, and the recommended values
    stay within the ranges their formulas promise. */
module HandlerLaws {
  import opened Strings
  import opened Numeric
  import opened Js
  import opened Paths
  import opened Presets
  import opened Patching
  import opened Handlers
  import opened Sprites

  /** The editor once a patch has been applied to its document. */
  function After(e: Editor, patch: Patch): Editor {
    e.(config := ApplyEntries(e.config, patch))
  }

  /** A two-entry patch whose paths both part ways plainly with `keys`
      leaves the value read at `keys` as it was. */
  lemma KeepsReadPair(config: map<string, Value>, patch: Patch, keys: seq<string>)
    requires |patch| == 2
    requires DivergesPlainly(Keys(patch[0].0), keys) && DivergesPlainly(Keys(patch[1].0), keys)
    ensures Read(ApplyEntries(config, patch), keys) == Read(config, keys)
  {
    KeepsRead(config, patch, keys);
  }

  /** A patch all of whose paths part ways plainly with `keys` leaves the
      value read at `keys` as it was. */
  lemma KeepsRead(config: map<string, Value>, patch: Patch, keys: seq<string>)
    requires forall i :: 0 <= i < |patch| ==> DivergesPlainly(Keys(patch[i].0), keys)
    ensures Read(ApplyEntries(config, patch), keys) == Read(config, keys)
  {
    PatchFramePlain(config, patch, keys);
  }

  /** `computeHullRadius` depends on the document only through the fields it
      reads. */
  lemma ComputeHullRadiusReads(p: Platform, e: Editor, e2: Editor)
    requires Read(e.config, BboxWidth) == Read(e2.config, BboxWidth)
    requires Read(e.config, BboxLength) == Read(e2.config, BboxLength)
    ensures ComputeHullRadius(p, e) == ComputeHullRadius(p, e2)
  {
  }

  /** Whatever is written to the fields `computeHullRadius` fills in, its outcome
      stays the same: the radius is not one of its own inputs. */
  lemma ComputeHullRadiusIgnoresOwnFields(p: Platform, e: Editor, patch: Patch)
    requires |patch| == 1 && Keys(patch[0].0) == HullRadius
    ensures ComputeHullRadius(p, After(e, patch)) == ComputeHullRadius(p, e)
  {
    KeepsRead(e.config, patch, BboxWidth);
    KeepsRead(e.config, patch, BboxLength);
    ComputeHullRadiusReads(p, e, After(e, patch));
  }

  /** Pressing the button of the hull radius a second time proposes the same patch. */
  lemma ComputeHullRadiusIdempotent(p: Platform, e: Editor)
    requires ComputeHullRadius(p, e).Patched?
    ensures ComputeHullRadius(p, After(e, ComputeHullRadius(p, e).patch)) == ComputeHullRadius(p, e)
  {
    var patch := ComputeHullRadius(p, e).patch;
    assert |patch| == 1 && Keys(patch[0].0) == HullRadius by {
      KeysOfPath(HullRadius);
    }
    ComputeHullRadiusIgnoresOwnFields(p, e, patch);
  }

  /** `computeInertiaOverride` depends on the document only through the fields it
      reads. */
  lemma ComputeInertiaOverrideReads(p: Platform, e: Editor, e2: Editor)
    requires Read(e.config, MassKg) == Read(e2.config, MassKg)
    requires Read(e.config, BboxWidth) == Read(e2.config, BboxWidth)
    requires Read(e.config, BboxLength) == Read(e2.config, BboxLength)
    ensures ComputeInertiaOverride(p, e) == ComputeInertiaOverride(p, e2)
  {
  }

  /** Whatever is written to the fields `computeInertiaOverride` fills in, its outcome
      stays the same: the override is not one of its own inputs. */
  lemma ComputeInertiaOverrideIgnoresOwnFields(p: Platform, e: Editor, patch: Patch)
    requires |patch| == 1 && Keys(patch[0].0) == InertiaIzz
    ensures ComputeInertiaOverride(p, After(e, patch)) == ComputeInertiaOverride(p, e)
  {
    KeepsRead(e.config, patch, MassKg);
    KeepsRead(e.config, patch, BboxWidth);
    KeepsRead(e.config, patch, BboxLength);
    ComputeInertiaOverrideReads(p, e, After(e, patch));
  }

  /** Pressing the button of the inertia override a second time proposes the same patch. */
  lemma ComputeInertiaOverrideIdempotent(p: Platform, e: Editor)
    requires ComputeInertiaOverride(p, e).Patched?
    ensures ComputeInertiaOverride(p, After(e, ComputeInertiaOverride(p, e).patch)) == ComputeInertiaOverride(p, e)
  {
    var patch := ComputeInertiaOverride(p, e).patch;
    assert |patch| == 1 && Keys(patch[0].0) == InertiaIzz by {
      KeysOfPath(InertiaIzz);
    }
    ComputeInertiaOverrideIgnoresOwnFields(p, e, patch);
  }

  /** `computeSpritePivot` depends on the document only through the fields it
      reads. */
  lemma ComputeSpritePivotReads(p: Platform, e: Editor, e2: Editor)
    requires Read(e.config, SpriteW) == Read(e2.config, SpriteW)
    requires Read(e.config, SpriteH) == Read(e2.config, SpriteH)
    ensures ComputeSpritePivot(p, e) == ComputeSpritePivot(p, e2)
  {
  }

  /** The pivot fields part ways with the size fields below `sprite`. */
  lemma PivotAwayFromSize()
    ensures DivergesPlainly(PivotX, SpriteW) && DivergesPlainly(PivotY, SpriteW)
    ensures DivergesPlainly(PivotX, SpriteH) && DivergesPlainly(PivotY, SpriteH)
  {
    assert PlainKey("size_px") && "pivot_px" != "size_px";
  }

  /** Whatever is written to the fields `computeSpritePivot` fills in, its outcome
      stays the same: the pivot is not one of its own inputs. */
  lemma ComputeSpritePivotIgnoresOwnFields(p: Platform, e: Editor, patch: Patch)
    requires |patch| == 2 && Keys(patch[0].0) == PivotX && Keys(patch[1].0) == PivotY
    ensures ComputeSpritePivot(p, After(e, patch)) == ComputeSpritePivot(p, e)
  {
    PivotAwayFromSize();
    KeepsReadPair(e.config, patch, SpriteW);
    KeepsReadPair(e.config, patch, SpriteH);
    ComputeSpritePivotReads(p, e, After(e, patch));
  }

  /** Pressing the button of the sprite pivot a second time proposes the same patch. */
  lemma ComputeSpritePivotIdempotent(p: Platform, e: Editor)
    requires ComputeSpritePivot(p, e).Patched?
    ensures ComputeSpritePivot(p, After(e, ComputeSpritePivot(p, e).patch)) == ComputeSpritePivot(p, e)
  {
    var patch := ComputeSpritePivot(p, e).patch;
    assert |patch| == 2 && Keys(patch[0].0) == PivotX && Keys(patch[1].0) == PivotY by {
      KeysOfPath(PivotX);
      KeysOfPath(PivotY);
    }
    ComputeSpritePivotIgnoresOwnFields(p, e, patch);
  }

  /** `computeSpriteScale` depends on the document only through the fields it
      reads. */
  lemma ComputeSpriteScaleReads(p: Platform, e: Editor, e2: Editor)
    requires Read(e.config, BboxLength) == Read(e2.config, BboxLength)
    requires Read(e.config, BboxWidth) == Read(e2.config, BboxWidth)
    requires Read(e.config, SpriteW) == Read(e2.config, SpriteW)
    requires Read(e.config, SpriteH) == Read(e2.config, SpriteH)
    requires Read(e.config, Orientation) == Read(e2.config, Orientation)
    ensures ComputeSpriteScale(p, e) == ComputeSpriteScale(p, e2)
  {
  }

  /** Whatever is written to the fields `computeSpriteScale` fills in, its outcome
      stays the same: the scale is not one of its own inputs. */
  lemma ComputeSpriteScaleIgnoresOwnFields(p: Platform, e: Editor, patch: Patch)
    requires |patch| == 1 && Keys(patch[0].0) == MetersPerPixel
    ensures ComputeSpriteScale(p, After(e, patch)) == ComputeSpriteScale(p, e)
  {
    KeepsRead(e.config, patch, BboxLength);
    KeepsRead(e.config, patch, BboxWidth);
    KeepsRead(e.config, patch, SpriteW);
    KeepsRead(e.config, patch, SpriteH);
    KeepsRead(e.config, patch, Orientation);
    ComputeSpriteScaleReads(p, e, After(e, patch));
  }

  /** Pressing the button of the sprite scale a second time proposes the same patch. */
  lemma ComputeSpriteScaleIdempotent(p: Platform, e: Editor)
    requires ComputeSpriteScale(p, e).Patched?
    ensures ComputeSpriteScale(p, After(e, ComputeSpriteScale(p, e).patch)) == ComputeSpriteScale(p, e)
  {
    var patch := ComputeSpriteScale(p, e).patch;
    assert |patch| == 1 && Keys(patch[0].0) == MetersPerPixel by {
      KeysOfPath(MetersPerPixel);
    }
    ComputeSpriteScaleIgnoresOwnFields(p, e, patch);
  }

  /** `computeMainThrust` depends on the document only through the fields it
      reads. */
  lemma ComputeMainThrustReads(p: Platform, e: Editor, e2: Editor)
    requires Read(e.config, MassKg) == Read(e2.config, MassKg)
    requires Read(e.config, LongSustained) == Read(e2.config, LongSustained)
    ensures ComputeMainThrust(p, e) == ComputeMainThrust(p, e2)
  {
  }

  /** Whatever is written to the fields `computeMainThrust` fills in, its outcome
      stays the same: the thrust is not one of its own inputs. */
  lemma ComputeMainThrustIgnoresOwnFields(p: Platform, e: Editor, patch: Patch)
    requires |patch| == 1 && Keys(patch[0].0) == MainThrust
    ensures ComputeMainThrust(p, After(e, patch)) == ComputeMainThrust(p, e)
  {
    KeepsRead(e.config, patch, MassKg);
    KeepsRead(e.config, patch, LongSustained);
    ComputeMainThrustReads(p, e, After(e, patch));
  }

  /** Pressing the button of the main thrust a second time proposes the same patch. */
  lemma ComputeMainThrustIdempotent(p: Platform, e: Editor)
    requires ComputeMainThrust(p, e).Patched?
    ensures ComputeMainThrust(p, After(e, ComputeMainThrust(p, e).patch)) == ComputeMainThrust(p, e)
  {
    var patch := ComputeMainThrust(p, e).patch;
    assert |patch| == 1 && Keys(patch[0].0) == MainThrust by {
      KeysOfPath(MainThrust);
    }
    ComputeMainThrustIgnoresOwnFields(p, e, patch);
  }

  /** `computeStrafeThrust` depends on the document only through the fields it
      reads. */
  lemma ComputeStrafeThrustReads(p: Platform, e: Editor, e2: Editor)
    requires Read(e.config, MassKg) == Read(e2.config, MassKg)
    requires Read(e.config, LatSustained) == Read(e2.config, LatSustained)
    ensures ComputeStrafeThrust(p, e) == ComputeStrafeThrust(p, e2)
  {
  }

  /** Whatever is written to the fields `computeStrafeThrust` fills in, its outcome
      stays the same: the thrust is not one of its own inputs. */
  lemma ComputeStrafeThrustIgnoresOwnFields(p: Platform, e: Editor, patch: Patch)
    requires |patch| == 1 && Keys(patch[0].0) == StrafeThrust
    ensures ComputeStrafeThrust(p, After(e, patch)) == ComputeStrafeThrust(p, e)
  {
    KeepsRead(e.config, patch, MassKg);
    KeepsRead(e.config, patch, LatSustained);
    ComputeStrafeThrustReads(p, e, After(e, patch));
  }

  /** Pressing the button of the strafe thrust a second time proposes the same patch. */
  lemma ComputeStrafeThrustIdempotent(p: Platform, e: Editor)
    requires ComputeStrafeThrust(p, e).Patched?
    ensures ComputeStrafeThrust(p, After(e, ComputeStrafeThrust(p, e).patch)) == ComputeStrafeThrust(p, e)
  {
    var patch := ComputeStrafeThrust(p, e).patch;
    assert |patch| == 1 && Keys(patch[0].0) == StrafeThrust by {
      KeysOfPath(StrafeThrust);
    }
    ComputeStrafeThrustIgnoresOwnFields(p, e, patch);
  }

  /** `recommendSpriteAlpha` depends on the document only through the class
      and the mass. */
  lemma RecommendSpriteAlphaReads(p: Platform, e: Editor, e2: Editor)
    requires Read(e.config, MetaClass) == Read(e2.config, MetaClass)
    requires Read(e.config, MassKg) == Read(e2.config, MassKg)
    ensures RecommendSpriteAlpha(p, e) == RecommendSpriteAlpha(p, e2)
  {
  }

  /** Pressing "Rec" on the alpha threshold a second time proposes the same
      patch. */
  lemma RecommendSpriteAlphaIdempotent(p: Platform, e: Editor)
    requires RecommendSpriteAlpha(p, e).Patched?
    ensures RecommendSpriteAlpha(p, After(e, RecommendSpriteAlpha(p, e).patch)) == RecommendSpriteAlpha(p, e)
  {
    var patch := RecommendSpriteAlpha(p, e).patch;
    assert |patch| == 1 && Keys(patch[0].0) == AlphaThreshold by {
      KeysOfPath(AlphaThreshold);
    }
    RecommendSpriteAlphaIgnoresOwnField(p, e, patch);
  }

  /** Whatever is written to the alpha threshold, the recommendation for it
      stays the same: the threshold is not one of its own inputs. */
  lemma RecommendSpriteAlphaIgnoresOwnField(p: Platform, e: Editor, patch: Patch)
    requires |patch| == 1 && Keys(patch[0].0) == AlphaThreshold
    ensures RecommendSpriteAlpha(p, After(e, patch)) == RecommendSpriteAlpha(p, e)
  {
    AlphaAwayFromInputs();
    KeepsRead(e.config, patch, MetaClass);
    KeepsRead(e.config, patch, MassKg);
    RecommendSpriteAlphaReads(p, e, After(e, patch));
  }

  lemma AlphaAwayFromInputs()
    ensures DivergesPlainly(AlphaThreshold, MetaClass) && DivergesPlainly(AlphaThreshold, MassKg)
  {
    assert |AlphaThreshold[0]| != |MetaClass[0]| && |AlphaThreshold[0]| != |MassKg[0]|;
  }

  /** Pressing "Rec" on the spawn grace a second time proposes the same
      patch. */
  lemma RecommendSpawnGraceIdempotent(p: Platform, e: Editor)
    ensures RecommendSpawnGrace(p, After(e, RecommendSpawnGrace(p, e).patch)) == RecommendSpawnGrace(p, e)
  {
    var patch := RecommendSpawnGrace(p, e).patch;
    assert |patch| == 1 && Keys(patch[0].0) == SpawnGrace by {
      KeysOfPath(SpawnGrace);
    }
    KeepsRead(e.config, patch, MassKg);
  }

  const AxisFields: seq<string> := ["sustained_g", "burst_g", "burst_duration_s", "recovery_cooldown_s"]
  const BehaviorFields: seq<string> := ["smoothing_tau_s", "blackout_model"]

  lemma AxisEntriesKeys(section: string, a: AxisLimits)
    requires '.' !in section
    ensures forall i :: 0 <= i < 4 ==> Keys(AxisEntries(section, a)[i].0) == ["g_limits", section, AxisFields[i]]
  {
    KeysOfPath(["g_limits", section, "sustained_g"]);
    KeysOfPath(["g_limits", section, "burst_g"]);
    KeysOfPath(["g_limits", section, "burst_duration_s"]);
    KeysOfPath(["g_limits", section, "recovery_cooldown_s"]);
  }

  lemma BehaviorEntriesKeys(g: GLimitPreset)
    ensures forall i :: 0 <= i < 2 ==> Keys(BehaviorEntries(g)[i].0) == ["g_limits", "behavior", BehaviorFields[i]]
  {
    KeysOfPath(["g_limits", "behavior", "smoothing_tau_s"]);
    KeysOfPath(["g_limits", "behavior", "blackout_model"]);
  }

  /** The sections of the g-limit block a scope names. */
  function ScopeSections(scope: string): seq<string> {
    if scope == "all" then ["longitudinal", "lateral", "behavior"]
    else if scope in ["longitudinal", "lateral", "behavior"] then [scope]
    else []
  }

  /** Every path of a g-limit patch is a field of a section its scope names:
      `g_limits.<section>.<field>`. */
  lemma GLimitsPatchKeys(g: GLimitPreset, scope: string)
    ensures forall i :: 0 <= i < |GLimitsPatch(g, scope)| ==>
      |Keys(GLimitsPatch(g, scope)[i].0)| == 3 && Keys(GLimitsPatch(g, scope)[i].0)[0] == "g_limits"
      && Keys(GLimitsPatch(g, scope)[i].0)[1] in ScopeSections(scope)
  {
    var long := if scope == "longitudinal" || scope == "all" then AxisEntries("longitudinal", g.longitudinal) else [];
    var lat := if scope == "lateral" || scope == "all" then AxisEntries("lateral", g.lateral) else [];
    var behavior := if scope == "behavior" || scope == "all" then BehaviorEntries(g) else [];
    assert GLimitsPatch(g, scope) == long + lat + behavior;
    SectionNamesPlain();
    AxisRun("longitudinal", g.longitudinal);
    AxisRun("lateral", g.lateral);
    BehaviorRun(g);
    ScopeSectionsCover(scope);
    PartsInSections(long, lat, behavior, "longitudinal", "lateral", "behavior", ScopeSections(scope));
  }

  lemma SectionNamesPlain()
    ensures '.' !in "longitudinal" && '.' !in "lateral"
  {
  }

  lemma ScopeSectionsCover(scope: string)
    ensures scope == "longitudinal" || scope == "all" ==> "longitudinal" in ScopeSections(scope)
    ensures scope == "lateral" || scope == "all" ==> "lateral" in ScopeSections(scope)
    ensures scope == "behavior" || scope == "all" ==> "behavior" in ScopeSections(scope)
  {
  }

  /** Every entry of one axis sits under `g_limits.<section>`. */
  lemma AxisRun(section: string, a: AxisLimits)
    requires '.' !in section
    ensures forall i :: 0 <= i < |AxisEntries(section, a)| ==>
      |Keys(AxisEntries(section, a)[i].0)| == 3
      && Keys(AxisEntries(section, a)[i].0)[0] == "g_limits" && Keys(AxisEntries(section, a)[i].0)[1] == section
  {
    AxisEntriesKeys(section, a);
  }

  /** Every entry of the behaviour block sits under `g_limits.behavior`. */
  lemma BehaviorRun(g: GLimitPreset)
    ensures forall i :: 0 <= i < |BehaviorEntries(g)| ==>
      |Keys(BehaviorEntries(g)[i].0)| == 3
      && Keys(BehaviorEntries(g)[i].0)[0] == "g_limits" && Keys(BehaviorEntries(g)[i].0)[1] == "behavior"
  {
    BehaviorEntriesKeys(g);
  }

  /** Three runs of entries, each under one section of `g_limits`, are
      under the allowed sections when every non-empty run's section is. */
  lemma PartsInSections(a: Patch, b: Patch, c: Patch, sa: string, sb: string, sc: string, allowed: seq<string>)
    requires forall i :: 0 <= i < |a| ==> |Keys(a[i].0)| == 3 && Keys(a[i].0)[0] == "g_limits" && Keys(a[i].0)[1] == sa
    requires forall i :: 0 <= i < |b| ==> |Keys(b[i].0)| == 3 && Keys(b[i].0)[0] == "g_limits" && Keys(b[i].0)[1] == sb
    requires forall i :: 0 <= i < |c| ==> |Keys(c[i].0)| == 3 && Keys(c[i].0)[0] == "g_limits" && Keys(c[i].0)[1] == sc
    requires (|a| > 0 ==> sa in allowed) && (|b| > 0 ==> sb in allowed) && (|c| > 0 ==> sc in allowed)
    ensures forall i :: 0 <= i < |a + b + c| ==>
      |Keys((a + b + c)[i].0)| == 3 && Keys((a + b + c)[i].0)[0] == "g_limits" && Keys((a + b + c)[i].0)[1] in allowed
  {
    var es := a + b + c;
    forall i | 0 <= i < |es|
      ensures |Keys(es[i].0)| == 3 && Keys(es[i].0)[0] == "g_limits" && Keys(es[i].0)[1] in allowed
    {
      if i < |a| {
        assert es[i] == a[i];
      } else if i < |a| + |b| {
        assert es[i] == b[i - |a|];
      } else {
        assert es[i] == c[i - |a| - |b|];
      }
    }
  }

  /** `recommendGLimits` depends on the document only through the profile
      and the class. */
  lemma RecommendGLimitsReads(p: Platform, e: Editor, e2: Editor, scope: string)
    requires Read(e.config, Profile) == Read(e2.config, Profile)
    requires Read(e.config, MetaClass) == Read(e2.config, MetaClass)
    ensures RecommendGLimits(p, e, scope) == RecommendGLimits(p, e2, scope)
  {
  }

  /** Applying a recommended g-limit profile keeps the profile key it was
      chosen by, so pressing "Rec" again proposes the same patch. */
  lemma RecommendGLimitsIdempotent(p: Platform, e: Editor, scope: string)
    requires RecommendGLimits(p, e, scope).Patched?
    ensures RecommendGLimits(p, After(e, RecommendGLimits(p, e, scope).patch), scope) == RecommendGLimits(p, e, scope)
  {
    var g := GLimitPresetFor(ProfileKey(e.config).value).value;
    var patch := GLimitsPatch(g, scope);
    assert RecommendGLimits(p, e, scope).patch == patch;
    GLimitsPatchKeys(g, scope);
    SectionsAvoidKeys(scope);
    InSectionsKeepsRead(e.config, patch, ScopeSections(scope), Profile);
    InSectionsKeepsRead(e.config, patch, ScopeSections(scope), MetaClass);
    RecommendGLimitsReads(p, e, After(e, patch), scope);
  }

  /** No section a scope names holds the profile key, and none is `meta`. */
  lemma SectionsAvoidKeys(scope: string)
    ensures forall s :: s in ScopeSections(scope) ==>
      DivergesPlainly(["g_limits", s], Profile) && DivergesPlainly(["g_limits", s], MetaClass)
  {
    forall s | s in ScopeSections(scope)
      ensures DivergesPlainly(["g_limits", s], Profile) && DivergesPlainly(["g_limits", s], MetaClass)
    {
      assert ["g_limits", s][1..] == [s] && Profile[1..] == ["profile"];
    }
  }

  /** A scoped g-limit recommendation changes nothing outside the sections
      its scope names. */
  lemma RecommendGLimitsStaysInScope(p: Platform, e: Editor, scope: string, other: seq<string>)
    requires RecommendGLimits(p, e, scope).Patched?
    requires forall s :: s in ScopeSections(scope) ==> DivergesPlainly(["g_limits", s], other)
    ensures Read(After(e, RecommendGLimits(p, e, scope).patch).config, other) == Read(e.config, other)
  {
    var g := GLimitPresetFor(ProfileKey(e.config).value).value;
    assert RecommendGLimits(p, e, scope).patch == GLimitsPatch(g, scope);
    GLimitsPatchKeys(g, scope);
    InSectionsKeepsRead(e.config, GLimitsPatch(g, scope), ScopeSections(scope), other);
  }

  /** A patch whose paths all lie in sections of `g_limits` that part ways
      plainly with `other` leaves the read at `other` as it was. */
  lemma InSectionsKeepsRead(config: map<string, Value>, patch: Patch, sections: seq<string>, other: seq<string>)
    requires forall i :: 0 <= i < |patch| ==>
      |Keys(patch[i].0)| == 3 && Keys(patch[i].0)[0] == "g_limits" && Keys(patch[i].0)[1] in sections
    requires forall s :: s in sections ==> DivergesPlainly(["g_limits", s], other)
    ensures Read(ApplyEntries(config, patch), other) == Read(config, other)
  {
    forall i | 0 <= i < |patch|
      ensures DivergesPlainly(Keys(patch[i].0), other)
    {
      var k := Keys(patch[i].0);
      DivergesPlainlyExtend(["g_limits", k[1]], k, other);
    }
    KeepsRead(config, patch, other);
  }

  lemma AssistPatchKeys(a: AssistPreset)
    ensures forall i :: 0 <= i < 6 ==> Keys(AssistPatch(a)[i].0) == ["assist", AssistEntries(a)[i].0]
  {
    forall i | 0 <= i < 6
      ensures Keys(AssistPatch(a)[i].0) == ["assist", AssistEntries(a)[i].0]
    {
      var field := AssistEntries(a)[i].0;
      assert '.' !in field by {
        assert field in ["coupled_enabled", "coupled_omega_cap_radps", "coupled_alpha_cap_radps2",
          "coupled_align_gain", "coupled_deadzone_deg", "autobrake_eps_mps"];
      }
      KeysOfPath(["assist", field]);
    }
  }

  /** `recommendAssist` depends on the document only through the class, the
      profile, the RCS block and the lateral sustained g. */
  lemma RecommendAssistReads(p: Platform, e: Editor, e2: Editor)
    requires Read(e.config, MetaClass) == Read(e2.config, MetaClass)
    requires Read(e.config, Profile) == Read(e2.config, Profile)
    requires Read(e.config, ["rcs"]) == Read(e2.config, ["rcs"])
    requires Read(e.config, LatSustained) == Read(e2.config, LatSustained)
    ensures RecommendAssist(p, e) == RecommendAssist(p, e2)
  {
    assert AssistKey(e.config) == AssistKey(e2.config);
    assert RcsOf(e.config) == RcsOf(e2.config);
    assert NumberAt(p, e.config, LatSustained) == NumberAt(p, e2.config, LatSustained);
  }

  /** Pressing "Rec" on an assist field a second time proposes the same
      patch. */
  lemma RecommendAssistIdempotent(p: Platform, e: Editor)
    requires RecommendAssist(p, e).Patched?
    ensures RecommendAssist(p, After(e, RecommendAssist(p, e).patch)) == RecommendAssist(p, e)
  {
    var patch := RecommendAssist(p, e).patch;
    var key := AssistKey(e.config).value;
    var preset := if AssistPresetFor(key).Some? then AssistPresetFor(key).value else FallbackAssist(p, e.config);
    assert patch == AssistPatch(preset);
    AssistPatchKeys(preset);
    KeepsRead(e.config, patch, MetaClass);
    KeepsRead(e.config, patch, Profile);
    KeepsRead(e.config, patch, ["rcs"]);
    KeepsRead(e.config, patch, LatSustained);
    RecommendAssistReads(p, e, After(e, patch));
  }

  /** The derived assist preset stays in the ranges of the preset table: it
      is enabled, its deadzone is 2 to 4 degrees, its align gain 0.55 to 0.8,
      its autobrake threshold 0.08 to 0.13 m/s, and without RCS limits its
      caps are 1 to 1.6 rad/s and 0.6 to 1.2 rad/s^2. */
  lemma FallbackAssistBounds(p: Platform, config: map<string, Value>)
    ensures FallbackAssist(p, config).enabled
    ensures 2 <= FallbackAssist(p, config).deadzone <= 4
    ensures 0.55 <= FallbackAssist(p, config).alignGain <= 0.8
    ensures 0.08 <= FallbackAssist(p, config).autobrake <= 0.13
    ensures !Truthy(GetProp(RcsOf(config), "turn_omega_max_radps")) ==>
      FallbackAssist(p, config).omegaCap.Finite? && 1.0 <= FallbackAssist(p, config).omegaCap.r <= 1.6
    ensures !Truthy(GetProp(RcsOf(config), "turn_alpha_max_radps2")) ==>
      FallbackAssist(p, config).alphaCap.Finite? && 0.6 <= FallbackAssist(p, config).alphaCap.r <= 1.2
  {
    var agility := Agility(OrZero(NumberAt(p, config, LatSustained)));
    RoundTwoDecimalsWithin(0.55 + 0.25 * (1.0 - agility), 55, 80);
    RoundThreeDecimalsWithin(0.08 + 0.05 * (1.0 - agility), 80, 130);
    RoundTwoDecimalsWithin(1.0 + 0.6 * agility, 100, 160);
    RoundTwoDecimalsWithin(0.6 + 0.6 * agility, 60, 120);
  }

  /** A more agile ship never gets a wider deadzone. */
  lemma DeadzoneShrinksWithAgility(a: real, b: real)
    requires a <= b
    ensures Deadzone(b) <= Deadzone(a)
  {
    MathRoundMonotone(2.0 + 2.0 * (1.0 - b), 2.0 + 2.0 * (1.0 - a));
  }

  /** A heavier ship never gets a shorter spawn grace period. */
  lemma RecommendSpawnGraceMonotone(p: Platform, e: Editor, e2: Editor)
    requires OrZero(NumberAt(p, e.config, MassKg)) <= OrZero(NumberAt(p, e2.config, MassKg))
    ensures RecommendSpawnGrace(p, e).patch[0].1.n <= RecommendSpawnGrace(p, e2).patch[0].1.n
  {
    GraceForValues(OrZero(NumberAt(p, e.config, MassKg)));
    GraceForValues(OrZero(NumberAt(p, e2.config, MassKg)));
  }

  /** The patch holds an entry for the field at `path`. */
  predicate Writes(patch: Patch, path: string) {
    exists i :: 0 <= i < |patch| && patch[i].0 == path
  }

  /** Every button `FIELD_METADATA` puts next to a field writes that field
      whenever its handler proposes a patch. */
  lemma ButtonWritesItsField(p: Platform, e: Editor, path: string, h: Handler)
    requires Actions(path).compute == Some(h) || Actions(path).recommend == Some(h)
    ensures Run(p, h, e).Patched? ==> Writes(Run(p, h, e).patch, path)
  {
    var keys := HasFieldWitness(FieldsOf(h), path);
    RunWritesFields(p, h, e);
    assert keys in FieldsOf(h);
  }

  /** A handler that proposes a patch writes each of its fields. */
  lemma RunWritesFields(p: Platform, h: Handler, e: Editor)
    ensures Run(p, h, e).Patched? ==> WritesAll(Run(p, h, e).patch, FieldsOf(h))
  {
    match h
    case InertiaOverrideHandler => InertiaWrites(p, e);
    case HullRadiusHandler => HullRadiusWrites(p, e);
    case SpritePathHandler => SpritePathWrites(p, e);
    case SpriteSizeHandler => SpriteSizeWrites(p, e);
    case SpritePivotHandler => PivotWrites(p, e);
    case SpriteAlphaHandler => AlphaWrites(p, e);
    case SpriteScaleHandler => ScaleWrites(p, e);
    case MainThrustHandler => MainThrustWrites(p, e);
    case StrafeThrustHandler => StrafeThrustWrites(p, e);
    case GLimitsHandler(scope) => GLimitsWritesFields(p, e, scope);
    case AssistHandler => AssistWritesFields(p, e);
    case SpawnGraceHandler => SpawnGraceWrites(p, e);
  }

  lemma InertiaWrites(p: Platform, e: Editor)
    ensures ComputeInertiaOverride(p, e).Patched? ==> WritesAll(ComputeInertiaOverride(p, e).patch, [InertiaIzz])
  {
    OneFieldWrites(ComputeInertiaOverride(p, e), InertiaIzz);
  }

  lemma HullRadiusWrites(p: Platform, e: Editor)
    ensures ComputeHullRadius(p, e).Patched? ==> WritesAll(ComputeHullRadius(p, e).patch, [HullRadius])
  {
    OneFieldWrites(ComputeHullRadius(p, e), HullRadius);
  }

  lemma SpritePathWrites(p: Platform, e: Editor)
    ensures RecommendSpritePath(p, e).Patched? ==> WritesAll(RecommendSpritePath(p, e).patch, [SpritePath])
  {
    OneFieldWrites(RecommendSpritePath(p, e), SpritePath);
  }

  lemma SpriteSizeWrites(p: Platform, e: Editor)
    ensures ComputeSpriteSize(p, e).Patched? ==> WritesAll(ComputeSpriteSize(p, e).patch, [SpriteW, SpriteH])
  {
    AlignedWrites(ComputeSpriteSize(p, e), [SpriteW, SpriteH]);
  }

  lemma PivotWrites(p: Platform, e: Editor)
    ensures ComputeSpritePivot(p, e).Patched? ==> WritesAll(ComputeSpritePivot(p, e).patch, [PivotX, PivotY])
  {
    AlignedWrites(ComputeSpritePivot(p, e), [PivotX, PivotY]);
  }

  lemma AlphaWrites(p: Platform, e: Editor)
    ensures RecommendSpriteAlpha(p, e).Patched? ==> WritesAll(RecommendSpriteAlpha(p, e).patch, [AlphaThreshold])
  {
    OneFieldWrites(RecommendSpriteAlpha(p, e), AlphaThreshold);
  }

  lemma ScaleWrites(p: Platform, e: Editor)
    ensures ComputeSpriteScale(p, e).Patched? ==> WritesAll(ComputeSpriteScale(p, e).patch, [MetersPerPixel])
  {
    OneFieldWrites(ComputeSpriteScale(p, e), MetersPerPixel);
  }

  lemma MainThrustWrites(p: Platform, e: Editor)
    ensures ComputeMainThrust(p, e).Patched? ==> WritesAll(ComputeMainThrust(p, e).patch, [MainThrust])
  {
    OneFieldWrites(ComputeMainThrust(p, e), MainThrust);
  }

  lemma StrafeThrustWrites(p: Platform, e: Editor)
    ensures ComputeStrafeThrust(p, e).Patched? ==> WritesAll(ComputeStrafeThrust(p, e).patch, [StrafeThrust])
  {
    OneFieldWrites(ComputeStrafeThrust(p, e), StrafeThrust);
  }

  lemma SpawnGraceWrites(p: Platform, e: Editor)
    ensures RecommendSpawnGrace(p, e).Patched? ==> WritesAll(RecommendSpawnGrace(p, e).patch, [SpawnGrace])
  {
    OneFieldWrites(RecommendSpawnGrace(p, e), SpawnGrace);
  }

  /** The patch writes every one of `fields`. */
  predicate WritesAll(patch: Patch, fields: seq<seq<string>>) {
    forall keys :: keys in fields ==> |keys| >= 1 && Writes(patch, PathOf(keys))
  }

  /** A patch whose leading entries are the fields, in order, writes them
      all. */
  lemma AlignedWrites(r: Outcome, fields: seq<seq<string>>)
    requires r.Patched? ==>
      |fields| <= |r.patch| && forall k :: 0 <= k < |fields| ==> |fields[k]| >= 1 && r.patch[k].0 == PathOf(fields[k])
    ensures r.Patched? ==> WritesAll(r.patch, fields)
  {
    if r.Patched? {
      forall keys | keys in fields
        ensures |keys| >= 1 && Writes(r.patch, PathOf(keys))
      {
        var k :| 0 <= k < |fields| && fields[k] == keys;
        assert r.patch[k].0 == PathOf(keys);
      }
    }
  }

  lemma OneFieldWrites(r: Outcome, keys: seq<string>)
    requires r.Patched? ==> |keys| >= 1 && |r.patch| >= 1 && r.patch[0].0 == PathOf(keys)
    ensures r.Patched? ==> WritesAll(r.patch, [keys])
  {
    AlignedWrites(r, [keys]);
  }

  lemma GLimitsWritesFields(p: Platform, e: Editor, scope: string)
    ensures RecommendGLimits(p, e, scope).Patched? ==> WritesAll(RecommendGLimits(p, e, scope).patch, GLimitFields(scope))
  {
    var r := RecommendGLimits(p, e, scope);
    if r.Patched? {
      GLimitsPatchWrites(GLimitPresetFor(ProfileKey(e.config).value).value, scope);
    }
  }

  /** The g-limit patch of a section writes that section's fields. */
  lemma GLimitsPatchWrites(g: GLimitPreset, scope: string)
    ensures WritesAll(GLimitsPatch(g, scope), GLimitFields(scope))
  {
    if scope == "behavior" {
      assert GLimitsPatch(g, scope) == BehaviorEntries(g);
      OneFieldWrites(Patched(BehaviorEntries(g), ""), ["g_limits", "behavior", "smoothing_tau_s"]);
    } else if scope == "longitudinal" {
      assert GLimitsPatch(g, scope) == AxisEntries(scope, g.longitudinal);
      AxisWrites(scope, g.longitudinal);
    } else if scope == "lateral" {
      assert GLimitsPatch(g, scope) == AxisEntries(scope, g.lateral);
      AxisWrites(scope, g.lateral);
    }
  }

  lemma AxisWrites(section: string, a: AxisLimits)
    requires section == "longitudinal" || section == "lateral"
    ensures WritesAll(AxisEntries(section, a), GLimitFields(section))
  {
    AlignedWrites(Patched(AxisEntries(section, a), ""), GLimitFields(section));
  }

  lemma AssistWritesFields(p: Platform, e: Editor)
    ensures RecommendAssist(p, e).Patched? ==> WritesAll(RecommendAssist(p, e).patch, AssistFields)
  {
    var r := RecommendAssist(p, e);
    if r.Patched? {
      var a := if AssistPresetFor(AssistKey(e.config).value).Some? then AssistPresetFor(AssistKey(e.config).value).value
               else FallbackAssist(p, e.config);
      assert r.patch == AssistPatch(a);
      AssistPatchAligned(a);
      AlignedWrites(r, AssistFields);
    }
  }

  /** The entries of an assist patch are the assist fields, in order. */
  lemma AssistPatchAligned(a: AssistPreset)
    ensures forall k :: 0 <= k < |AssistFields| ==> |AssistFields[k]| >= 1 && AssistPatch(a)[k].0 == PathOf(AssistFields[k])
  {
    forall k | 0 <= k < |AssistFields|
      ensures |AssistFields[k]| >= 1 && AssistPatch(a)[k].0 == PathOf(AssistFields[k])
    {
      assert AssistFields[k] == ["assist", AssistEntries(a)[k].0];
    }
  }

  /** Once "Auto" has copied the natural size of a picture with no empty
      side into the document, the fill the image's `onload` handler runs
      finds both dimensions set and leaves the document alone. */
  lemma SpriteSizeSettlesOnload(p: Platform, e: Editor)
    requires e.spriteImage.Some? && e.spriteImage.value.naturalWidth > 0 && e.spriteImage.value.naturalHeight > 0
    ensures var c := ApplyEntries(e.config, ComputeSpriteSize(p, e).patch);
      FillSpriteSize(c, e.spriteImage.value) == Ok(c)
  {
    var image := e.spriteImage.value;
    var w := image.naturalWidth as real;
    var h := image.naturalHeight as real;
    assert ComputeSpriteSize(p, e).patch == [Entry(SpriteW, Num(w)), Entry(SpriteH, Num(h))];
    SizePatchReads(e.config, w, h);
    FilledSizeSettles(ApplyEntries(e.config, [Entry(SpriteW, Num(w)), Entry(SpriteH, Num(h))]), image);
  }

  /** A document with both sizes truthy is left alone by the fill. */
  lemma FilledSizeSettles(c: map<string, Value>, image: Image)
    requires image.naturalWidth > 0 && image.naturalHeight > 0
    requires Walk(Some(Obj(c)), SizeKeys("w")) == Some(Num(image.naturalWidth as real))
    requires Walk(Some(Obj(c)), SizeKeys("h")) == Some(Num(image.naturalHeight as real))
    ensures FillSpriteSize(c, image) == Ok(c)
  {
    FillSpriteSizeFills(c, image);
  }

  /** The two entries of the size patch read back at the size fields. */
  lemma SizePatchReads(config: map<string, Value>, w: real, h: real)
    ensures var c := ApplyEntries(config, [Entry(SpriteW, Num(w)), Entry(SpriteH, Num(h))]);
      Walk(Some(Obj(c)), SizeKeys("w")) == Some(Num(w)) && Walk(Some(Obj(c)), SizeKeys("h")) == Some(Num(h))
  {
    var patch := [Entry(SpriteW, Num(w)), Entry(SpriteH, Num(h))];
    SizePatchDiverges(patch);
    PatchReadBack(config, patch);
    assert GetPath(Obj(ApplyEntries(config, patch)), patch[0].0) == Some(Num(w));
    assert GetPath(Obj(ApplyEntries(config, patch)), patch[1].0) == Some(Num(h));
  }

  lemma SizePatchDiverges(patch: Patch)
    requires |patch| == 2 && patch[0].0 == PathOf(SpriteW) && patch[1].0 == PathOf(SpriteH)
    ensures PathsDiverge(patch)
    ensures Keys(patch[0].0) == SizeKeys("w") && Keys(patch[1].0) == SizeKeys("h")
  {
    KeysOfPath(SpriteW);
    KeysOfPath(SpriteH);
    assert Diverges(SizeKeys("w"), SizeKeys("h")) && Diverges(SizeKeys("h"), SizeKeys("w"));
  }

  /** With no picked file, "Rec" on a sprite path that already names a file
      inside a folder proposes that same path: the recommendation is a fixed
      point of the paths it produces. */
  lemma RecommendSpritePathKeepsFiledPath(p: Platform, e: Editor, s: string)
    requires e.spriteSourceName.None? || e.spriteSourceName.value == ""
    requires Read(e.config, SpritePath) == Some(Str(s))
    requires '/' in s && '\\' !in s && s[|s| - 1] != '/'
    ensures RecommendSpritePath(p, e).Patched?
    ensures RecommendSpritePath(p, e).patch == [Entry(SpritePath, Str(s))]
  {
    var name := LastSegment(s, '/');
    assert FallbackName(e) == Ok(name);
    FiledPathName(s);
    assert HasFolder(Some(Str(s)));
    assert PreferredPath(p, e, name) == Ok(Str(DirPart(s) + name));
  }

  /** The file name of such a path is non-empty and already safe. */
  lemma FiledPathName(s: string)
    requires '/' in s && '\\' !in s && s[|s| - 1] != '/'
    ensures LastSegment(s, '/') != "" && SafeName(LastSegment(s, '/')) == LastSegment(s, '/')
  {
    var name := LastSegment(s, '/');
    LastSegmentIsSuffix(s, '/');
    assert name == s[LastIndexOf(s, '/') + 1..];
    SafeNameOfPlain(name);
  }
}

=== FILE: handlers.dfy ===
/** The field handlers behind the editor's "Auto" and "Rec" buttons. Each
    reads the document, and either refuses with an error message or proposes
    a patch with a status message; `FIELD_METADATA` attaches them to fields,
    and `applyFieldAction` runs one and applies its patch. */
module Handlers {
  import opened Strings
  import opened Numeric
  import opened Js
  import opened Paths
  import opened Presets
  import opened Sprites
  import opened Patching
  import Document
  import Saving
  import Validation

  /** The editor state the handlers see: the document, the loaded sprite
      image, the name of the sprite file picked by the user (if any), and the
      directory hint of the document's location. */
  datatype Editor = Editor(config: map<string, Value>, spriteImage: Option<Image>, spriteSourceName: Option<string>, dirHint: Option<string>)

  /** A handler's result: `{ error }`, `{ patch, message }`, or a `TypeError`
      thrown while reading the document. */
  datatype Outcome = Failed(error: string) | Patched(patch: Patch, message: string) | Raised

  const MassKg: seq<string> := ["mass", "mass_kg"]
  const BboxWidth: seq<string> := ["geometry", "bbox_m", "width"]
  const BboxLength: seq<string> := ["geometry", "bbox_m", "length"]
  const HullRadius: seq<string> := ["geometry", "hull_radius_m"]
  const InertiaIzz: seq<string> := ["mass", "inertia_override", "Izz_kg_m2"]
  const SpriteW: seq<string> := ["sprite", "size_px", "w"]
  const SpriteH: seq<string> := ["sprite", "size_px", "h"]
  const PivotX: seq<string> := ["sprite", "pivot_px", "x"]
  const PivotY: seq<string> := ["sprite", "pivot_px", "y"]
  const Orientation: seq<string> := ["sprite", "orientation"]
  const MetersPerPixel: seq<string> := ["sprite", "m_per_px"]
  const SpritePath: seq<string> := ["sprite", "path"]
  const AlphaThreshold: seq<string> := ["sprite", "alpha_thr"]
  const MainThrust: seq<string> := ["propulsion", "main_engine_thrust_max_N"]
  const StrafeThrust: seq<string> := ["rcs", "strafe_thrust_N"]
  const LongSustained: seq<string> := ["g_limits", "longitudinal", "sustained_g"]
  const LatSustained: seq<string> := ["g_limits", "lateral", "sustained_g"]
  const Profile: seq<string> := ["g_limits", "profile"]
  const MetaClass: seq<string> := ["meta", "class"]
  const SpawnGrace: seq<string> := ["spawn", "spawn_grace_seconds"]

  /** `config.a?.b?.c` for the keys `a`, `b`, `c`. */
  function Read(config: map<string, Value>, keys: seq<string>): Option<Value> {
    Walk(Some(Obj(config)), keys)
  }

  /** `Number(config.a?.b?.c)`. */
  function NumberAt(p: Platform, config: map<string, Value>, keys: seq<string>): Number {
    ToNumber(p, Read(config, keys))
  }

  /** One patch entry, keyed by the dotted path of `keys`. */
  function Entry(keys: seq<string>, v: Value): (string, Value)
    requires |keys| >= 1
  {
    (PathOf(keys), v)
  }

  /** `String(x)` for a finite number in a message. */
  function Show(p: Platform, x: real): string {
    p.showNumber(x)
  }

  function Square(x: real): real {
    x * x
  }

  /** `computeHullRadius`: the bounding circle of the bounding box. */
  function ComputeHullRadius(p: Platform, e: Editor): (r: Outcome)
    ensures r.Failed? <==> IsFalsyNumber(NumberAt(p, e.config, BboxWidth)) || IsFalsyNumber(NumberAt(p, e.config, BboxLength))
    ensures !r.Raised?
    ensures r.Patched? ==> |r.patch| == 1 && r.patch[0].0 == PathOf(HullRadius) && r.patch[0].1.Num?
  {
    var width := NumberAt(p, e.config, BboxWidth);
    var length := NumberAt(p, e.config, BboxLength);
    if IsFalsyNumber(width) || IsFalsyNumber(length) then Failed("Fill bounding box width and length first.")
    else
      var radius := Round(p.sqrt(Square(width.r / 2.0) + Square(length.r / 2.0)), 3);
      Patched([Entry(HullRadius, Num(radius))], "Hull radius set to " + Show(p, radius) + " m")
  }

  /** `computeInertiaOverride`: the moment of inertia of a uniform
      rectangular plate, `m (w^2 + l^2) / 12`. */
  function ComputeInertiaOverride(p: Platform, e: Editor): (r: Outcome)
    ensures r.Failed? <==> (IsFalsyNumber(NumberAt(p, e.config, MassKg))
      || IsFalsyNumber(NumberAt(p, e.config, BboxWidth)) || IsFalsyNumber(NumberAt(p, e.config, BboxLength)))
    ensures !r.Raised?
    ensures r.Patched? ==> |r.patch| == 1 && r.patch[0].0 == PathOf(InertiaIzz) && r.patch[0].1.Num?
  {
    InertiaFor(p, NumberAt(p, e.config, MassKg), NumberAt(p, e.config, BboxWidth), NumberAt(p, e.config, BboxLength))
  }

  /** The outcome of `computeInertiaOverride` for a mass and a bounding box. */
  function InertiaFor(p: Platform, mass: Number, width: Number, length: Number): Outcome {
    if IsFalsyNumber(mass) || IsFalsyNumber(width) || IsFalsyNumber(length) then
      Failed("Mass and bounding box are required for inertia override.")
    else
      var izz := Round((mass.r * (Square(width.r) + Square(length.r))) / 12.0, 3);
      Patched([Entry(InertiaIzz, Num(izz))], "Izz override set to " + Show(p, izz) + " kg*m^2")
  }

  /** `computeSpriteSize`: the natural size of the loaded image. */
  function ComputeSpriteSize(p: Platform, e: Editor): (r: Outcome)
    ensures r.Failed? <==> e.spriteImage.None?
    ensures !r.Raised?
    ensures r.Patched? ==> r.patch == [Entry(SpriteW, Num(e.spriteImage.value.naturalWidth as real)),
                                       Entry(SpriteH, Num(e.spriteImage.value.naturalHeight as real))]
  {
    match e.spriteImage
    case None => Failed("Load the sprite file first.")
    case Some(image) =>
      var w := image.naturalWidth as real;
      var h := image.naturalHeight as real;
      Patched([Entry(SpriteW, Num(w)), Entry(SpriteH, Num(h))],
        "Sprite size updated to " + Show(p, w) + "x" + Show(p, h) + " px")
  }

  /** `computeSpritePivot`: the centre of the sprite, to hundredths. */
  function ComputeSpritePivot(p: Platform, e: Editor): (r: Outcome)
    ensures r.Failed? <==> IsFalsyNumber(NumberAt(p, e.config, SpriteW)) || IsFalsyNumber(NumberAt(p, e.config, SpriteH))
    ensures !r.Raised?
    ensures r.Patched? ==> |r.patch| == 2 && r.patch[0].0 == PathOf(PivotX) && r.patch[1].0 == PathOf(PivotY)
  {
    PivotFor(p, NumberAt(p, e.config, SpriteW), NumberAt(p, e.config, SpriteH))
  }

  /** The outcome of `computeSpritePivot` for the sprite's width and height. */
  function PivotFor(p: Platform, w: Number, h: Number): Outcome {
    if IsFalsyNumber(w) || IsFalsyNumber(h) then Failed("Sprite width and height are required.")
    else
      var x := Round(w.r / 2.0, 2);
      var y := Round(h.r / 2.0, 2);
      Patched([Entry(PivotX, Num(x)), Entry(PivotY, Num(y))], "Pivot centered at " + Show(p, x) + ", " + Show(p, y) + " px")
  }

  /** The meters-per-pixel ratios `computeSpriteScale` averages: along the
      ship's length and across it, each only when both of its sides are
      positive. A sprite drawn nose up or down has its length along `h`. */
  function Scales(orientation: Value, length: real, width: real, w: real, h: real): (s: seq<real>)
    ensures |s| <= 2
    ensures |s| == 0 <==> (!(length > 0.0 && (if orientation == Str("nose_up") || orientation == Str("nose_down") then h else w) > 0.0)
      && !(width > 0.0 && (if orientation == Str("nose_up") || orientation == Str("nose_down") then w else h) > 0.0))
  {
    var vertical := orientation == Str("nose_up") || orientation == Str("nose_down");
    var primaryPixels := if vertical then h else w;
    var secondaryPixels := if vertical then w else h;
    (if length > 0.0 && primaryPixels > 0.0 then [length / primaryPixels] else [])
    + (if width > 0.0 && secondaryPixels > 0.0 then [width / secondaryPixels] else [])
  }

  function Sum(s: seq<real>): real {
    if |s| == 0 then 0.0 else s[0] + Sum(s[1..])
  }

  /** The guard of `computeSpriteScale`: a falsy length, width or sprite
      dimension. */
  predicate ScaleInputsMissing(p: Platform, config: map<string, Value>) {
    IsFalsyNumber(NumberAt(p, config, BboxLength)) || IsFalsyNumber(NumberAt(p, config, BboxWidth))
    || IsFalsyNumber(NumberAt(p, config, SpriteW)) || IsFalsyNumber(NumberAt(p, config, SpriteH))
  }

  /** The scales `computeSpriteScale` collects from a document that passed
      its guard, under the orientation `sprite.orientation || 'nose_right'`. */
  function ScalesOf(p: Platform, config: map<string, Value>): seq<real>
    requires !ScaleInputsMissing(p, config)
  {
    Scales(Or(Read(config, Orientation), Str("nose_right")),
      NumberAt(p, config, BboxLength).r, NumberAt(p, config, BboxWidth).r,
      NumberAt(p, config, SpriteW).r, NumberAt(p, config, SpriteH).r)
  }

  /** `computeSpriteScale`: meters per pixel, averaged over the usable axes
      and rounded to five decimals. */
  function ComputeSpriteScale(p: Platform, e: Editor): (r: Outcome)
    ensures !r.Raised?
    ensures r.Failed? <==> ScaleInputsMissing(p, e.config) || |ScalesOf(p, e.config)| == 0
    ensures r.Failed? && !ScaleInputsMissing(p, e.config) ==>
      r.error == "Unable to derive meters per pixel from provided values."
    ensures r.Patched? ==> |r.patch| == 1 && r.patch[0].0 == PathOf(MetersPerPixel) && r.patch[0].1.Num?
  {
    if ScaleInputsMissing(p, e.config) then Failed("Fill geometry and sprite size before computing scale.")
    else ScaleFrom(p, ScalesOf(p, e.config))
  }

  /** The rest of `computeSpriteScale` once the scales are collected: refuse
      when there is none, else propose their average. */
  function ScaleFrom(p: Platform, scales: seq<real>): (r: Outcome)
    ensures !r.Raised?
    ensures r.Failed? <==> |scales| == 0
    ensures r.Failed? ==> r.error == "Unable to derive meters per pixel from provided values."
    ensures r.Patched? ==> |r.patch| == 1 && r.patch[0].0 == PathOf(MetersPerPixel) && r.patch[0].1.Num?
  {
    if |scales| == 0 then Failed("Unable to derive meters per pixel from provided values.")
    else
      var average := Round(Sum(scales) / (|scales| as real), 5);
      Patched([Entry(MetersPerPixel, Num(average))], "Meters per pixel set to " + Show(p, average))
  }

  /** The thrust that holds `g` gravities for `mass`, to the newton. */
  function Thrust(mass: real, g: real): int {
    MathRound(mass * Gravity * g)
  }

  /** `computeMainThrust`. */
  function ComputeMainThrust(p: Platform, e: Editor): (r: Outcome)
    ensures r.Failed? <==> IsFalsyNumber(NumberAt(p, e.config, MassKg)) || IsFalsyNumber(NumberAt(p, e.config, LongSustained))
    ensures !r.Raised?
    ensures r.Patched? ==> (|r.patch| == 1 && r.patch[0].0 == PathOf(MainThrust)
      && r.patch[0].1 == Num(Thrust(NumberAt(p, e.config, MassKg).r, NumberAt(p, e.config, LongSustained).r) as real))
  {
    var mass := NumberAt(p, e.config, MassKg);
    var sustained := NumberAt(p, e.config, LongSustained);
    if IsFalsyNumber(mass) || IsFalsyNumber(sustained) then
      Failed("Mass and longitudinal sustained g are required for thrust estimation.")
    else
      var thrust := Thrust(mass.r, sustained.r) as real;
      Patched([Entry(MainThrust, Num(thrust))], "Main thrust set to " + Show(p, thrust) + " N")
  }

  /** `computeStrafeThrust`. */
  function ComputeStrafeThrust(p: Platform, e: Editor): (r: Outcome)
    ensures r.Failed? <==> IsFalsyNumber(NumberAt(p, e.config, MassKg)) || IsFalsyNumber(NumberAt(p, e.config, LatSustained))
    ensures !r.Raised?
    ensures r.Patched? ==> (|r.patch| == 1 && r.patch[0].0 == PathOf(StrafeThrust)
      && r.patch[0].1 == Num(Thrust(NumberAt(p, e.config, MassKg).r, NumberAt(p, e.config, LatSustained).r) as real))
  {
    var mass := NumberAt(p, e.config, MassKg);
    var sustained := NumberAt(p, e.config, LatSustained);
    if IsFalsyNumber(mass) || IsFalsyNumber(sustained) then
      Failed("Mass and lateral sustained g are required for strafe thrust.")
    else
      var thrust := Thrust(mass.r, sustained.r) as real;
      Patched([Entry(StrafeThrust, Num(thrust))], "Strafe thrust set to " + Show(p, thrust) + " N")
  }

  /** `v.toLowerCase()` for a value that is a string or throws. */
  function LowerKey(v: Value): (r: Result<string>)
    ensures r.Ok? <==> v.Str?
  {
    if v.Str? then Ok(LowerAscii(v.s)) else Threw
  }

  /** The file name `recommendSpritePath` starts from:
      `editor.spriteSource?.name || (editor.config.sprite?.path || '').split('/').pop()`,
      which throws when the sprite path is truthy but not a string. */
  function FallbackName(e: Editor): (r: Result<string>)
    ensures e.spriteSourceName.Some? && e.spriteSourceName.value != "" ==> r == Ok(e.spriteSourceName.value)
    ensures r.Threw? <==> !(e.spriteSourceName.Some? && e.spriteSourceName.value != "") && !Or(Read(e.config, SpritePath), Str("")).Str?
  {
    if e.spriteSourceName.Some? && e.spriteSourceName.value != "" then Ok(e.spriteSourceName.value)
    else
      var path := Or(Read(e.config, SpritePath), Str(""));
      if path.Str? then Ok(LastSegment(path.s, '/')) else Threw
  }

  /** The path `inferPreferredSpritePath` derives for the fallback name. */
  function PreferredPath(p: Platform, e: Editor, name: string): Result<Value> {
    InferPreferredSpritePath(p, e.config, e.dirHint, name, Read(e.config, SpritePath))
  }

  /** `recommendSpritePath`: the preferred path for the picked file, or for
      the last segment of the current path. */
  function RecommendSpritePath(p: Platform, e: Editor): (r: Outcome)
    ensures r.Failed? <==> FallbackName(e) == Ok("")
    ensures r.Raised? <==>
      FallbackName(e).Threw? || (FallbackName(e).Ok? && FallbackName(e).value != "" && PreferredPath(p, e, FallbackName(e).value).Threw?)
    ensures r.Patched? ==> r.patch == [Entry(SpritePath, PreferredPath(p, e, FallbackName(e).value).value)]
  {
    match FallbackName(e)
    case Threw => Raised
    case Ok(name) =>
      if name == "" then Failed("Load or specify a sprite to compute a path.")
      else
        match PreferredPath(p, e, name)
        case Threw => Raised
        case Ok(next) => Patched([Entry(SpritePath, next)], "Sprite path set to " + ToStr(p, next))
  }

  /** `recommendSpriteAlpha`: the class's alpha threshold, or 24 for ships
      over 150 t. */
  function RecommendSpriteAlpha(p: Platform, e: Editor): (r: Outcome)
    ensures !r.Failed?
    ensures r.Raised? <==> !Or(Read(e.config, MetaClass), Str("")).Str?
    ensures r.Patched? && Heavy(NumberAt(p, e.config, MassKg)) ==> r.patch == [Entry(AlphaThreshold, Num(24.0))]
    ensures r.Patched? && !Heavy(NumberAt(p, e.config, MassKg)) ==>
      r.patch == [Entry(AlphaThreshold, Num(ClassAlpha(LowerKey(Or(Read(e.config, MetaClass), Str(""))).value) as real))]
  {
    AlphaFor(p, LowerKey(Or(Read(e.config, MetaClass), Str(""))), NumberAt(p, e.config, MassKg))
  }

  /** `mass && mass > 150000`: a ship heavy enough for the fixed threshold. */
  predicate Heavy(mass: Number) {
    !IsFalsyNumber(mass) && mass.r > 150000.0
  }

  /** `SPRITE_ALPHA_DEFAULTS[key] ?? SPRITE_ALPHA_DEFAULTS.default`. */
  function ClassAlpha(key: string): (a: int)
    ensures SpriteAlphaFor(key).Some? ==> a == SpriteAlphaFor(key).value
    ensures SpriteAlphaFor(key).None? ==> a == 16
  {
    if SpriteAlphaFor(key).Some? then SpriteAlphaFor(key).value else SpriteAlphaFor("default").value
  }

  /** `recommendSpriteAlpha` once the class key and the mass are read. */
  function AlphaFor(p: Platform, key: Result<string>, mass: Number): (r: Outcome)
    ensures !r.Failed? && (r.Raised? <==> key.Threw?)
    ensures r.Patched? ==> r.patch == [Entry(AlphaThreshold, Num((if Heavy(mass) then 24 else ClassAlpha(key.value)) as real))]
  {
    match key
    case Threw => Raised
    case Ok(classKey) =>
      var value := if Heavy(mass) then 24 else ClassAlpha(classKey);
      Patched([Entry(AlphaThreshold, Num(value as real))], "Alpha threshold set to " + Show(p, value as real))
  }

  /** The four entries of one axis of a g-limit profile. */
  function AxisEntries(section: string, a: AxisLimits): (es: Patch)
    ensures |es| == 4
  {
    [Entry(["g_limits", section, "sustained_g"], Num(a.sustained)),
     Entry(["g_limits", section, "burst_g"], Num(a.burst)),
     Entry(["g_limits", section, "burst_duration_s"], Num(a.burstDuration)),
     Entry(["g_limits", section, "recovery_cooldown_s"], Num(a.recoveryCooldown))]
  }

  /** The two entries of the behaviour block of a g-limit profile. */
  function BehaviorEntries(g: GLimitPreset): (es: Patch)
    ensures |es| == 2
  {
    [Entry(["g_limits", "behavior", "smoothing_tau_s"], Num(g.smoothing)),
     Entry(["g_limits", "behavior", "blackout_model"], Str(g.blackout))]
  }

  /** The patch of `recommendGLimits` for a scope: the sections the scope
      names, in the order longitudinal, lateral, behaviour. */
  function GLimitsPatch(g: GLimitPreset, scope: string): (es: Patch)
    ensures scope == "all" ==> |es| == 10
    ensures scope == "longitudinal" || scope == "lateral" ==> |es| == 4
    ensures scope == "behavior" ==> |es| == 2
    ensures scope !in ["all", "longitudinal", "lateral", "behavior"] ==> es == []
  {
    (if scope == "longitudinal" || scope == "all" then AxisEntries("longitudinal", g.longitudinal) else [])
    + (if scope == "lateral" || scope == "all" then AxisEntries("lateral", g.lateral) else [])
    + (if scope == "behavior" || scope == "all" then BehaviorEntries(g) else [])
  }

  /** The lower-cased profile key of `recommendGLimits`: the profile, else the
      class, else empty. */
  function ProfileKey(config: map<string, Value>): Result<string> {
    LowerKey(Or(Read(config, Profile), Or(Read(config, MetaClass), Str(""))))
  }

  /** `recommendGLimits(editor, scope)`. */
  function RecommendGLimits(p: Platform, e: Editor, scope: string): (r: Outcome)
    ensures r.Raised? <==> ProfileKey(e.config).Threw?
    ensures r.Failed? <==> ProfileKey(e.config).Ok? && GLimitPresetFor(ProfileKey(e.config).value).None?
    ensures r.Patched? ==> r.patch == GLimitsPatch(GLimitPresetFor(ProfileKey(e.config).value).value, scope)
  {
    match ProfileKey(e.config)
    case Threw => Raised
    case Ok(key) =>
      match GLimitPresetFor(key)
      case None => Failed("Set g_limits.profile to a known preset before applying recommendations.")
      case Some(g) => Patched(GLimitsPatch(g, scope), "Applied " + (if key != "" then key else "profile") + " g-limit preset")
  }

  /** The agility of a ship from its lateral sustained g: 0 at 2 g, 1 at
      7 g and beyond. */
  function Agility(latG: real): (a: real)
    ensures 0.0 <= a <= 1.0
  {
    Clamp((latG - 2.0) / 5.0, 0.0, 1.0)
  }

  /** `Math.max(2, Math.round(2 + 2 * (1 - agility)))`. */
  function Deadzone(agility: real): int {
    var d := MathRound(2.0 + 2.0 * (1.0 - agility));
    if d > 2 then d else 2
  }

  /** `config.rcs || {}`. */
  function RcsOf(config: map<string, Value>): Value {
    Or(Read(config, ["rcs"]), Obj(map[]))
  }

  /** The assist preset `recommendAssist` derives when the class has none. */
  function FallbackAssist(p: Platform, config: map<string, Value>): (a: AssistPreset)
    ensures a.enabled
  {
    AssistFromShip(p, RcsOf(config), NumberAt(p, config, LatSustained))
  }

  /** The derived assist preset for an RCS block and a lateral sustained g. */
  function AssistFromShip(p: Platform, rcs: Value, latG: Number): AssistPreset {
    var agility := Agility(OrZero(latG));
    var omegaLimit := GetProp(rcs, "turn_omega_max_radps");
    var alphaLimit := GetProp(rcs, "turn_alpha_max_radps2");
    var omega :=
      if Truthy(omegaLimit) then RoundNumber(Mul(ToNumber(p, omegaLimit), Finite(0.75 + 0.2 * agility)), 2)
      else Finite(Round(1.0 + 0.6 * agility, 2));
    var alpha :=
      if Truthy(alphaLimit) then RoundNumber(Mul(ToNumber(p, alphaLimit), Finite(0.75 + 0.2 * agility)), 2)
      else Finite(Round(0.6 + 0.6 * agility, 2));
    AssistPreset(true, omega, alpha,
      Round(0.55 + 0.25 * (1.0 - agility), 2),
      Deadzone(agility),
      Round(0.08 + 0.05 * (1.0 - agility), 3))
  }

  /** The patch of an assist preset: each entry under `assist.`. */
  function AssistPatch(a: AssistPreset): (es: Patch)
    ensures |es| == 6
  {
    var entries := AssistEntries(a);
    seq(6, i requires 0 <= i < 6 => Entry(["assist", entries[i].0], entries[i].1))
  }

  /** The lower-cased class key of `recommendAssist`: the class, else the
      profile, else empty. */
  function AssistKey(config: map<string, Value>): Result<string> {
    LowerKey(Or(Read(config, MetaClass), Or(Read(config, Profile), Str(""))))
  }

  /** `recommendAssist`: the class's assist preset, or one derived from the
      ship's agility. */
  function RecommendAssist(p: Platform, e: Editor): (r: Outcome)
    ensures !r.Failed?
    ensures r.Raised? <==> AssistKey(e.config).Threw?
    ensures r.Patched? && AssistPresetFor(AssistKey(e.config).value).Some? ==>
      r.patch == AssistPatch(AssistPresetFor(AssistKey(e.config).value).value)
    ensures r.Patched? && AssistPresetFor(AssistKey(e.config).value).None? ==>
      r.patch == AssistPatch(FallbackAssist(p, e.config))
  {
    AssistOutcome(AssistKey(e.config), FallbackAssist(p, e.config))
  }

  /** The outcome of `recommendAssist` for a class key, `fallback` being the
      preset derived from the ship when the class has none. */
  function AssistOutcome(key: Result<string>, fallback: AssistPreset): Outcome {
    match key
    case Threw => Raised
    case Ok(k) =>
      var preset := if AssistPresetFor(k).Some? then AssistPresetFor(k).value else fallback;
      Patched(AssistPatch(preset), "Assist parameters updated from preset")
  }

  /** The spawn grace period for a mass: longer for heavier ships. */
  function GraceFor(mass: real): real {
    Round(if mass > 100000.0 then 3.5 else if mass > 50000.0 then 2.5 else 2.0, 2)
  }

  /** The spawn grace period is 2, 2.5 or 3.5 seconds. */
  lemma GraceForValues(mass: real)
    ensures mass <= 50000.0 ==> GraceFor(mass) == 2.0
    ensures 50000.0 < mass <= 100000.0 ==> GraceFor(mass) == 2.5
    ensures 100000.0 < mass ==> GraceFor(mass) == 3.5
  {
    assert Pow10(2) == 100;
  }

  /** `recommendSpawnGrace`: always one entry, the grace band of the mass
      (a missing or non-numeric mass counts as 0). */
  function RecommendSpawnGrace(p: Platform, e: Editor): (r: Outcome)
    ensures r.Patched?
    ensures var mass := OrZero(NumberAt(p, e.config, MassKg));
      r.patch == [Entry(SpawnGrace, Num(if mass > 100000.0 then 3.5 else if mass > 50000.0 then 2.5 else 2.0))]
  {
    GraceForValues(OrZero(NumberAt(p, e.config, MassKg)));
    var value := GraceFor(OrZero(NumberAt(p, e.config, MassKg)));
    Patched([Entry(SpawnGrace, Num(value))], "Spawn grace set to " + Show(p, value) + " s")
  }

  /** The handlers, as `FIELD_METADATA` refers to them. */
  datatype Handler =
    | HullRadiusHandler
    | InertiaOverrideHandler
    | SpriteSizeHandler
    | SpritePivotHandler
    | SpriteScaleHandler
    | MainThrustHandler
    | StrafeThrustHandler
    | SpritePathHandler
    | SpriteAlphaHandler
    | GLimitsHandler(scope: string)
    | AssistHandler
    | SpawnGraceHandler

  /** Calling a handler on the editor. */
  function Run(p: Platform, h: Handler, e: Editor): Outcome {
    match h
    case HullRadiusHandler => ComputeHullRadius(p, e)
    case InertiaOverrideHandler => ComputeInertiaOverride(p, e)
    case SpriteSizeHandler => ComputeSpriteSize(p, e)
    case SpritePivotHandler => ComputeSpritePivot(p, e)
    case SpriteScaleHandler => ComputeSpriteScale(p, e)
    case MainThrustHandler => ComputeMainThrust(p, e)
    case StrafeThrustHandler => ComputeStrafeThrust(p, e)
    case SpritePathHandler => RecommendSpritePath(p, e)
    case SpriteAlphaHandler => RecommendSpriteAlpha(p, e)
    case GLimitsHandler(scope) => RecommendGLimits(p, e, scope)
    case AssistHandler => RecommendAssist(p, e)
    case SpawnGraceHandler => RecommendSpawnGrace(p, e)
  }

  /** The `compute*` handlers, as opposed to the `recommend*` ones. */
  predicate IsCompute(h: Handler) {
    h.HullRadiusHandler? || h.InertiaOverrideHandler? || h.SpriteSizeHandler? || h.SpritePivotHandler?
    || h.SpriteScaleHandler? || h.MainThrustHandler? || h.StrafeThrustHandler?
  }

  /** The buttons of one field: "Auto" runs `compute`, "Rec" runs
      `recommend`. */
  datatype FieldActions = FieldActions(compute: Option<Handler>, recommend: Option<Handler>)

  /** The fields whose button runs `h` in `FIELD_METADATA`, as key lists. */
  function FieldsOf(h: Handler): seq<seq<string>> {
    match h
    case InertiaOverrideHandler => [InertiaIzz]
    case HullRadiusHandler => [HullRadius]
    case SpritePathHandler => [SpritePath]
    case SpriteSizeHandler => [SpriteW, SpriteH]
    case SpritePivotHandler => [PivotX, PivotY]
    case SpriteAlphaHandler => [AlphaThreshold]
    case SpriteScaleHandler => [MetersPerPixel]
    case MainThrustHandler => [MainThrust]
    case StrafeThrustHandler => [StrafeThrust]
    case GLimitsHandler(scope) => GLimitFields(scope)
    case AssistHandler => AssistFields
    case SpawnGraceHandler => [SpawnGrace]
  }

  /** The g-limit fields whose "Rec" button recommends `scope`: the four
      fields of an axis, or the smoothing constant of the behaviour block. */
  function GLimitFields(scope: string): seq<seq<string>> {
    if scope == "behavior" then [["g_limits", "behavior", "smoothing_tau_s"]]
    else if scope == "longitudinal" || scope == "lateral" then
      [["g_limits", scope, "sustained_g"], ["g_limits", scope, "burst_g"],
       ["g_limits", scope, "burst_duration_s"], ["g_limits", scope, "recovery_cooldown_s"]]
    else []
  }

  /** The six assist fields, each with a "Rec" button. */
  const AssistFields: seq<seq<string>> :=
    [["assist", "coupled_enabled"], ["assist", "coupled_omega_cap_radps"], ["assist", "coupled_alpha_cap_radps2"],
     ["assist", "coupled_align_gain"], ["assist", "coupled_deadzone_deg"], ["assist", "autobrake_eps_mps"]]

  /** The handlers `FIELD_METADATA` attaches to some field. */
  const ButtonHandlers: seq<Handler> := [
    InertiaOverrideHandler, HullRadiusHandler, SpritePathHandler, SpriteSizeHandler, SpritePivotHandler,
    SpriteAlphaHandler, SpriteScaleHandler, MainThrustHandler, StrafeThrustHandler,
    GLimitsHandler("longitudinal"), GLimitsHandler("lateral"), GLimitsHandler("behavior"),
    AssistHandler, SpawnGraceHandler]

  /** One of `fields` has the dotted path `path`. */
  predicate HasField(fields: seq<seq<string>>, path: string)
    decreases |fields|
  {
    |fields| >= 1 && ((|fields[0]| >= 1 && PathOf(fields[0]) == path) || HasField(fields[1..], path))
  }

  /** A field named in `fields` by its dotted path. */
  lemma {:induction false} HasFieldWitness(fields: seq<seq<string>>, path: string) returns (keys: seq<string>)
    requires HasField(fields, path)
    ensures keys in fields && |keys| >= 1 && PathOf(keys) == path
    decreases |fields|
  {
    if |fields[0]| >= 1 && PathOf(fields[0]) == path {
      keys := fields[0];
    } else {
      keys := HasFieldWitness(fields[1..], path);
    }
  }

  /** The buttons of the first handler in `hs` that names `path` among its
      fields: "Auto" for a `compute*` handler, "Rec" for a `recommend*` one;
      none when no handler names it. */
  function Lookup(hs: seq<Handler>, path: string): (r: FieldActions)
    ensures r.compute.None? || r.recommend.None?
    ensures r.compute.Some? ==> r.compute.value in hs && IsCompute(r.compute.value) && HasField(FieldsOf(r.compute.value), path)
    ensures r.recommend.Some? ==> r.recommend.value in hs && !IsCompute(r.recommend.value) && HasField(FieldsOf(r.recommend.value), path)
    ensures forall h :: h in hs && HasField(FieldsOf(h), path) ==> r.compute.Some? || r.recommend.Some?
    decreases |hs|
  {
    if |hs| == 0 then FieldActions(None, None)
    else if HasField(FieldsOf(hs[0]), path) then
      if IsCompute(hs[0]) then FieldActions(Some(hs[0]), None) else FieldActions(None, Some(hs[0]))
    else Lookup(hs[1..], path)
  }

  /** The handlers of `FIELD_METADATA`, by dotted path: at most one button
      per field, "Auto" running a `compute*` handler and "Rec" a
      `recommend*` one, and only on a field the handler counts as its own.
      Every other field, listed or not, has no button. */
  function Actions(path: string): (r: FieldActions)
    ensures r.compute.None? || r.recommend.None?
    ensures r.compute.Some? ==> IsCompute(r.compute.value) && HasField(FieldsOf(r.compute.value), path)
    ensures r.recommend.Some? ==> !IsCompute(r.recommend.value) && HasField(FieldsOf(r.recommend.value), path)
    ensures forall h :: h in ButtonHandlers && HasField(FieldsOf(h), path) ==>
      if IsCompute(h) then r.compute == Some(h) else r.recommend == Some(h)
  {
    LookupFindsOwner(path);
    Lookup(ButtonHandlers, path)
  }

  /** Whichever handler names `path` among its fields is the one the lookup
      finds, since no two handlers share a field. */
  lemma LookupFindsOwner(path: string)
    ensures forall h :: h in ButtonHandlers && HasField(FieldsOf(h), path) ==>
      if IsCompute(h) then Lookup(ButtonHandlers, path).compute == Some(h)
      else Lookup(ButtonHandlers, path).recommend == Some(h)
  {
    var r := Lookup(ButtonHandlers, path);
    forall h | h in ButtonHandlers && HasField(FieldsOf(h), path)
      ensures if IsCompute(h) then r.compute == Some(h) else r.recommend == Some(h)
    {
      var found := if r.compute.Some? then r.compute.value else r.recommend.value;
      UniqueOwner(path, h, found);
    }
  }

  /** The handler a field belongs to, read off its keys: the inverse of
      `FieldsOf` over the handlers that have buttons. */
  function OwnerOf(keys: seq<string>): (r: Option<Handler>)
    ensures r.Some? ==> r.value in ButtonHandlers && keys in FieldsOf(r.value)
  {
    match OwnerBySection(keys)
    case None => None
    case Some(h) => if h in ButtonHandlers && keys in FieldsOf(h) then Some(h) else None
  }

  /** The only handler with buttons that could own `keys`, chosen by the
      section (and, under `sprite`, the sub-key) the keys start with. */
  function OwnerBySection(keys: seq<string>): Option<Handler> {
    if |keys| < 2 then None
    else
      match keys[0]
      case "mass" => Some(InertiaOverrideHandler)
      case "geometry" => Some(HullRadiusHandler)
      case "propulsion" => Some(MainThrustHandler)
      case "rcs" => Some(StrafeThrustHandler)
      case "g_limits" => Some(GLimitsHandler(keys[1]))
      case "assist" => Some(AssistHandler)
      case "spawn" => Some(SpawnGraceHandler)
      case "sprite" =>
        (match keys[1]
         case "path" => Some(SpritePathHandler)
         case "size_px" => Some(SpriteSizeHandler)
         case "pivot_px" => Some(SpritePivotHandler)
         case "alpha_thr" => Some(SpriteAlphaHandler)
         case "m_per_px" => Some(SpriteScaleHandler)
         case _ => None)
      case _ => None
  }

  /** Every field of a handler with buttons belongs to that handler, and is
      a non-empty list of dot-free keys. */
  lemma OwnsFields(h: Handler)
    requires h in ButtonHandlers
    ensures forall k :: k in FieldsOf(h) ==> OwnerOf(k) == Some(h)
    ensures forall k :: k in FieldsOf(h) ==> DotFree(k)
  {
    forall k | k in FieldsOf(h)
      ensures OwnerOf(k) == Some(h)
    {
      OwnerBySectionOfField(h, k);
    }
    forall k | k in FieldsOf(h)
      ensures DotFree(k)
    {
      FieldDotFree(h, k);
    }
  }

  lemma OwnerBySectionOfField(h: Handler, k: seq<string>)
    requires h in ButtonHandlers && k in FieldsOf(h)
    ensures OwnerBySection(k) == Some(h)
  {
    match h
    case InertiaOverrideHandler => assert k == InertiaIzz;
    case HullRadiusHandler => assert k == HullRadius;
    case SpritePathHandler => SpriteOwnerBySection(h, k);
    case SpriteSizeHandler => SpriteOwnerBySection(h, k);
    case SpritePivotHandler => SpriteOwnerBySection(h, k);
    case SpriteAlphaHandler => SpriteOwnerBySection(h, k);
    case SpriteScaleHandler => SpriteOwnerBySection(h, k);
    case MainThrustHandler => assert k == MainThrust;
    case StrafeThrustHandler => assert k == StrafeThrust;
    case GLimitsHandler(scope) => GLimitOwnerBySection(scope, k);
    case AssistHandler => AssistOwnerBySection(k);
    case SpawnGraceHandler => assert k == SpawnGrace;
  }

  lemma SpriteOwnerBySection(h: Handler, k: seq<string>)
    requires h.SpritePathHandler? || h.SpriteSizeHandler? || h.SpritePivotHandler? || h.SpriteAlphaHandler? || h.SpriteScaleHandler?
    requires k in FieldsOf(h)
    ensures OwnerBySection(k) == Some(h)
  {
    assert |k| >= 2 && k[0] == "sprite";
  }

  lemma GLimitOwnerBySection(scope: string, k: seq<string>)
    requires k in GLimitFields(scope)
    ensures OwnerBySection(k) == Some(GLimitsHandler(scope))
  {
    if scope == "behavior" {
      assert k == ["g_limits", "behavior", "smoothing_tau_s"];
    } else {
      var fs := GLimitFields(scope);
      assert k == fs[0] || k == fs[1] || k == fs[2] || k == fs[3];
      assert k[0] == "g_limits" && k[1] == scope;
    }
  }

  lemma AssistOwnerBySection(k: seq<string>)
    requires k in AssistFields
    ensures OwnerBySection(k) == Some(AssistHandler)
  {
    assert |k| == 2 && k[0] == "assist";
  }

  /** The keys are not empty and none holds a dot. */
  predicate DotFree(keys: seq<string>) {
    |keys| >= 1 && forall i :: 0 <= i < |keys| ==> '.' !in keys[i]
  }

  lemma FieldDotFree(h: Handler, k: seq<string>)
    requires h in ButtonHandlers && k in FieldsOf(h)
    ensures DotFree(k)
  {
    match h
    case GLimitsHandler(scope) => GLimitFieldDotFree(scope, k);
    case AssistHandler => AssistFieldDotFree(k);
    case InertiaOverrideHandler => MassFieldsDotFree();
    case HullRadiusHandler => MassFieldsDotFree();
    case SpawnGraceHandler => MassFieldsDotFree();
    case MainThrustHandler => ThrustFieldsDotFree();
    case StrafeThrustHandler => ThrustFieldsDotFree();
    case _ => SpriteFieldsDotFree();
  }

  lemma MassFieldsDotFree()
    ensures DotFree(InertiaIzz) && DotFree(HullRadius) && DotFree(SpawnGrace)
  {
  }

  lemma ThrustFieldsDotFree()
    ensures DotFree(MainThrust) && DotFree(StrafeThrust)
  {
  }

  lemma SpriteFieldsDotFree()
    ensures DotFree(SpritePath) && DotFree(SpriteW) && DotFree(SpriteH) && DotFree(PivotX) && DotFree(PivotY)
    ensures DotFree(AlphaThreshold) && DotFree(MetersPerPixel)
  {
  }

  lemma GLimitFieldDotFree(scope: string, k: seq<string>)
    requires k in GLimitFields(scope)
    ensures DotFree(k)
  {
    GLimitWordsDotFree();
    if scope == "behavior" {
      assert k == ["g_limits", "behavior", "smoothing_tau_s"];
    } else {
      var fs := GLimitFields(scope);
      assert k == fs[0] || k == fs[1] || k == fs[2] || k == fs[3];
      assert scope == "longitudinal" || scope == "lateral";
    }
  }

  lemma GLimitWordsDotFree()
    ensures '.' !in "g_limits" && '.' !in "longitudinal" && '.' !in "lateral" && '.' !in "behavior"
    ensures '.' !in "sustained_g" && '.' !in "burst_g" && '.' !in "burst_duration_s"
    ensures '.' !in "recovery_cooldown_s" && '.' !in "smoothing_tau_s"
  {
  }

  lemma AssistFieldDotFree(k: seq<string>)
    requires k in AssistFields
    ensures DotFree(k)
  {
    assert k[0] == "assist";
  }

  /** No two handlers with buttons name the same dotted path. */
  lemma UniqueOwner(path: string, h1: Handler, h2: Handler)
    requires h1 in ButtonHandlers && HasField(FieldsOf(h1), path)
    requires h2 in ButtonHandlers && HasField(FieldsOf(h2), path)
    ensures h1 == h2
  {
    var k1 := HasFieldWitness(FieldsOf(h1), path);
    var k2 := HasFieldWitness(FieldsOf(h2), path);
    OwnsFields(h1);
    OwnsFields(h2);
    KeysOfPath(k1);
    KeysOfPath(k2);
  }

  /** How a status message is shown. */
  datatype StatusKind = Info | Warn

  /** What `applyFieldAction` leaves behind: the document, the status line it
      set (if any), the refresh flags of the patch it applied (if any), and
      whether it ended in an exception. */
  datatype ActionEffect = ActionEffect(config: map<string, Value>, status: Option<(string, StatusKind)>,
                                       applied: Option<PatchResult>, raised: bool)

  /** `const { w, h } = sprite.size_px` in `updateSpriteSummary`: destructuring
      throws when a truthy sprite has no `size_px`. */
  predicate SummaryThrows(config: map<string, Value>) {
    var sprite := Read(config, ["sprite"]);
    Truthy(sprite) && Nullish(Member(sprite, "size_px"))
  }

  /** `prepareForSave` throws: the document merged over the defaults lacks
      `meta`, `mass` or `geometry`, or its sprite or tags cannot be
      normalised. */
  predicate SaveThrows(config: map<string, Value>) {
    var merged := Document.EnsureStructure(Obj(config));
    Nullish(Saving.Field(merged, "meta")) || Nullish(Saving.Field(merged, "mass"))
    || Nullish(Saving.Field(merged, "geometry"))
    || Saving.SpriteFails(Saving.Field(merged, "sprite")) || Saving.TagsFail(Saving.Field(merged, "tags"))
  }

  /** `validateConfig` throws: a container is missing, or `meta.id` or
      `meta.class` is a value `String.prototype.trim` cannot be called on. */
  predicate ValidateThrows(config: map<string, Value>) {
    Validation.MissingContainer(config)
    || Validation.Blank(Member(Validation.At(config, "meta"), "id")).Threw?
    || Validation.Blank(Member(Validation.At(config, "meta"), "class")).Threw?
  }

  /** `refreshOutputs` after a patch throws: the JSON preview runs
      `prepareForSave`, validation runs `validateConfig`, and the sprite
      summary reads `sprite.size_px`. */
  predicate RefreshThrows(config: map<string, Value>) {
    SaveThrows(config) || ValidateThrows(config) || SummaryThrows(config)
  }

  /** The refresh throws exactly when one of the three functions it calls
      throws. */
  lemma RefreshThrowsMeans(p: Platform, config: map<string, Value>)
    ensures RefreshThrows(config) <==>
      Saving.PrepareForSave(config).Threw? || Validation.Validate(p, config).Threw? || SummaryThrows(config)
  {
    SaveThrowsMeans(config);
    ValidateThrowsMeans(p, config);
  }

  lemma SaveThrowsMeans(config: map<string, Value>)
    ensures SaveThrows(config) <==> Saving.PrepareForSave(config).Threw?
  {
  }

  lemma ValidateThrowsMeans(p: Platform, config: map<string, Value>)
    ensures ValidateThrows(config) <==> Validation.Validate(p, config).Threw?
  {
  }

  /** `applyFieldAction(handler, path, type)`: run the handler, report its
      error as a warning, or apply its patch and report its message. A handler
      that throws leaves everything as it was and propagates the exception; a
      patch is written before `refreshOutputs` runs, so when the refresh
      throws the document stays patched and no message is shown. */
  function ApplyFieldAction(p: Platform, e: Editor, handler: Option<Handler>): (r: ActionEffect)
    ensures handler.None? ==> r == ActionEffect(e.config, None, None, false)
    ensures handler.Some? && Run(p, handler.value, e).Raised? ==> r == ActionEffect(e.config, None, None, true)
    ensures handler.Some? && Run(p, handler.value, e).Failed? ==>
      r == ActionEffect(e.config, Some((Run(p, handler.value, e).error, Warn)), None, false)
    ensures handler.Some? && Run(p, handler.value, e).Patched? ==>
      r.config == ApplyEntries(e.config, Run(p, handler.value, e).patch)
      && r.raised == RefreshThrows(ApplyEntries(e.config, Run(p, handler.value, e).patch))
      && r.status == (if r.raised then None else Some((Run(p, handler.value, e).message, Info)))
  {
    match handler
    case None => ActionEffect(e.config, None, None, false)
    case Some(h) =>
      var outcome := Run(p, h, e);
      Settle(e.config, outcome, outcome.Patched? && RefreshThrows(ApplyEntries(e.config, outcome.patch)))
  }

  /** The part of `applyFieldAction` after the handler returned, given
      whether refreshing the patched document throws. */
  function Settle(config: map<string, Value>, outcome: Outcome, refreshThrows: bool): (r: ActionEffect)
    ensures outcome.Raised? ==> r == ActionEffect(config, None, None, true)
    ensures outcome.Failed? ==> r == ActionEffect(config, Some((outcome.error, Warn)), None, false)
    ensures outcome.Patched? ==>
      r.config == ApplyEntries(config, outcome.patch)
      && r.raised == refreshThrows
      && r.status == (if refreshThrows then None else Some((outcome.message, Info)))
  {
    match outcome
    case Raised => ActionEffect(config, None, None, true)
    case Failed(error) => ActionEffect(config, Some((error, Warn)), None, false)
    case Patched(patch, message) =>
      var applied := ApplyPatch(config, patch);
      ActionEffect(applied.config, if refreshThrows then None else Some((message, Info)), Some(applied), refreshThrows)
  }
}

=== FILE: jsvalue.dfy ===
/** The JSON-like values the editor works on, together with the few pieces of
    JavaScript semantics its code relies on: truthiness, `??`, optional
    chaining, property reads, `Number(...)`, string conversion and the
    relational comparison `<` (section 7.2.13 of ECMA-262). */
module Js {
  import opened Strings
  import opened Numeric

  /** A JavaScript value as it occurs in a parsed ship document. Plain objects
      are maps from own keys to values; their key order is not represented. */
  datatype Value =
    | Null
    | Bool(b: bool)
    | Num(n: real)
    | NaN
    | Str(s: string)
    | Arr(elems: seq<Value>)
    | Obj(fields: map<string, Value>)

  /** `undefined` is `None`. */
  datatype Option<T> = None | Some(value: T)

  /** The result of code that may throw a `TypeError`. */
  datatype Result<T> = Ok(value: T) | Threw

  /** What the browser supplies and the model leaves abstract: the
      String-to-Number conversion (section 7.1.4.1.1 of ECMA-262),
      Number::toString, `Math.sqrt`, resolving a reference against a base URL
      and returning its `href` (section 5.2 of RFC 3986; `None` when `new URL`
      throws), `decodeURIComponent` (`None` when it throws), and the page's
      own `window.location.href`. */
  datatype Platform = Platform(
    parseNumber: string -> Number,
    showNumber: real -> string,
    sqrt: real -> real,
    resolveUrl: (string, string) -> Option<string>,
    decodeUri: string -> Option<string>,
    pageUrl: string)

  function FromNumber(x: Number): (v: Value)
    ensures v.Num? || v == NaN
  {
    match x
    case Finite(r) => Num(r)
    case NotANumber => NaN
  }

  /** `isPlainObject`: not null, of type object, not an array. */
  predicate IsPlainObject(v: Value) {
    v.Obj?
  }

  predicate IsPlainObjectOpt(v: Option<Value>) {
    v.Some? && v.value.Obj?
  }

  /** `v === null || v === undefined`. */
  predicate Nullish(v: Option<Value>) {
    v.None? || v.value.Null?
  }

  /** JavaScript truthiness (section 7.1.2 of ECMA-262). */
  predicate Truthy(v: Option<Value>) {
    match v
    case None => false
    case Some(x) =>
      match x
      case Null => false
      case Bool(b) => b
      case Num(n) => n != 0.0
      case NaN => false
      case Str(s) => s != ""
      case Arr(_) => true
      case Obj(_) => true
  }

  /** `a ?? b`. */
  function Coalesce(a: Option<Value>, b: Value): (r: Value)
    ensures !Nullish(a) ==> Some(r) == a
    ensures Nullish(a) ==> r == b
  {
    if Nullish(a) then b else a.value
  }

  /** `a || b`. */
  function Or(a: Option<Value>, b: Value): (r: Value)
    ensures Truthy(a) ==> Some(r) == a
    ensures !Truthy(a) ==> r == b
  {
    if Truthy(a) then a.value else b
  }

  predicate IsDigit(c: char) {
    '0' <= c <= '9'
  }

  function DigitsValue(s: string): (n: nat)
    decreases |s|
  {
    if |s| == 0 then 0
    else 10 * DigitsValue(s[..|s| - 1]) + (if IsDigit(s[|s| - 1]) then s[|s| - 1] as int - '0' as int else 0)
  }

  /** The decimal text of a natural number, as `String(n)` writes it. */
  function NatToString(n: nat): (s: string)
    ensures |s| >= 1
    ensures forall i :: 0 <= i < |s| ==> IsDigit(s[i])
    ensures |s| > 1 ==> s[0] != '0'
  {
    if n < 10 then [('0' as int + n) as char]
    else NatToString(n / 10) + [('0' as int + n % 10) as char]
  }

  /** `NatToString` is read back by `DigitsValue`, so index keys are unambiguous. */
  lemma {:induction false} DigitsOfNatToString(n: nat)
    ensures DigitsValue(NatToString(n)) == n
  {
    if n >= 10 {
      DigitsOfNatToString(n / 10);
      var s := NatToString(n);
      assert s[..|s| - 1] == NatToString(n / 10);
    }
  }

  /** A property key that names an array index: a canonical decimal numeral. */
  function ArrayIndex(key: string): (r: Option<nat>)
    ensures r.Some? ==> NatToString(r.value) == key
  {
    if |key| >= 1 && (forall i :: 0 <= i < |key| ==> IsDigit(key[i])) && NatToString(DigitsValue(key)) == key
    then Some(DigitsValue(key))
    else None
  }

  lemma IndexKeyRoundTrip(n: nat)
    ensures ArrayIndex(NatToString(n)) == Some(n)
  {
    DigitsOfNatToString(n);
  }

  /** `v[key]` on a value that is not null or undefined: own fields of a
      plain object, the elements and `length` of arrays and strings. Inherited
      properties (methods, `constructor`, `__proto__`) are not represented.
      A string's `length` and indices count the model's characters, which are
      code points, where JavaScript counts UTF-16 code units. */
  function GetProp(v: Value, key: string): (r: Option<Value>)
    ensures v.Obj? ==> (r.Some? <==> key in v.fields)
    ensures v.Obj? && key in v.fields ==> r == Some(v.fields[key])
    ensures r.Some? ==> v.Obj? || v.Arr? || v.Str?
  {
    match v
    case Obj(m) => if key in m then Some(m[key]) else None
    case Arr(a) =>
      if key == "length" then Some(Num(|a| as real))
      else
        var i := ArrayIndex(key);
        if i.Some? && i.value < |a| then Some(a[i.value]) else None
    case Str(s) =>
      if key == "length" then Some(Num(|s| as real))
      else
        var i := ArrayIndex(key);
        if i.Some? && i.value < |s| then Some(Str([s[i.value]])) else None
    case _ => None
  }

  /** `v?.[key]`: undefined when `v` is null or undefined. */
  function Member(v: Option<Value>, key: string): (r: Option<Value>)
    ensures Nullish(v) ==> r.None?
    ensures !Nullish(v) ==> r == GetProp(v.value, key)
  {
    if Nullish(v) then None else GetProp(v.value, key)
  }

  /** `v.key`, which throws on null and undefined. */
  function Strict(v: Option<Value>, key: string): (r: Result<Option<Value>>)
    ensures r.Threw? <==> Nullish(v)
    ensures r.Ok? ==> r.value == Member(v, key)
  {
    if Nullish(v) then Threw else Ok(GetProp(v.value, key))
  }

  /** `String(v)` (section 7.1.17 of ECMA-262) for the values of a document;
      arrays are joined with `,`, their null elements written as empty. */
  function ToStr(p: Platform, v: Value): string
    decreases v, 1
  {
    match v
    case Null => "null"
    case Bool(b) => if b then "true" else "false"
    case Num(n) => p.showNumber(n)
    case NaN => "NaN"
    case Str(s) => s
    case Arr(a) => JoinElements(p, v, a)
    case Obj(_) => "[object Object]"
  }

  function JoinElements(p: Platform, whole: Value, a: seq<Value>): string
    requires forall i :: 0 <= i < |a| ==> a[i] < whole
    decreases whole, 0, |a|
  {
    if |a| == 0 then ""
    else
      var last := a[|a| - 1];
      var text := if last.Null? then "" else ToStr(p, last);
      if |a| == 1 then text else JoinElements(p, whole, a[..|a| - 1]) + "," + text
  }

  /** `String(v)` in a template literal, where undefined prints as `undefined`. */
  function ToStrOpt(p: Platform, v: Option<Value>): string {
    if v.None? then "undefined" else ToStr(p, v.value)
  }

  /** `Number(v)` (section 7.1.4 of ECMA-262); undefined gives NaN. */
  function ToNumber(p: Platform, v: Option<Value>): (r: Number)
    ensures v.None? ==> r.NotANumber?
    ensures v == Some(Null) ==> r == Finite(0.0)
    ensures v.Some? && v.value.Num? ==> r == Finite(v.value.n)
    ensures v == Some(NaN) ==> r.NotANumber?
  {
    match v
    case None => NotANumber
    case Some(x) =>
      match x
      case Null => Finite(0.0)
      case Bool(b) => Finite(if b then 1.0 else 0.0)
      case Num(n) => Finite(n)
      case NaN => NotANumber
      case Str(s) => p.parseNumber(s)
      case Arr(_) => p.parseNumber(ToStr(p, x))
      case Obj(_) => p.parseNumber(ToStr(p, x))
  }

  /** ToPrimitive with hint number: arrays and objects become their string form. */
  function ToPrimitive(p: Platform, v: Value): (r: Value)
    ensures !r.Arr? && !r.Obj?
    ensures !v.Arr? && !v.Obj? ==> r == v
  {
    if v.Arr? || v.Obj? then Str(ToStr(p, v)) else v
  }

  /** The abstract relational comparison `a < b`: `None` is its undefined
      result, which both `<` and `<=` read as false. Two strings compare by
      `LexLess`, on code points rather than UTF-16 code units. */
  function Compare(p: Platform, a: Value, b: Value): (r: Option<bool>)
    ensures a.Num? && b.Num? ==> r == Some(a.n < b.n)
    ensures a == NaN || b == NaN ==> r.None?
  {
    var pa := ToPrimitive(p, a);
    var pb := ToPrimitive(p, b);
    if pa.Str? && pb.Str? then Some(LexLess(pa.s, pb.s))
    else
      var na := ToNumber(p, Some(pa));
      var nb := ToNumber(p, Some(pb));
      if na.NotANumber? || nb.NotANumber? then None else Some(na.r < nb.r)
  }

  /** `a < b`. */
  predicate Less(p: Platform, a: Value, b: Value) {
    Compare(p, a, b) == Some(true)
  }

  /** `a <= b`, which is `!(b < a)` unless the comparison is undefined. */
  predicate LessEq(p: Platform, a: Value, b: Value) {
    Compare(p, b, a) == Some(false)
  }

  /** On numbers `<=` is the order of the reals. */
  lemma LessEqNumbers(p: Platform, a: real, b: real)
    ensures LessEq(p, Num(a), Num(b)) <==> a <= b
    ensures Less(p, Num(a), Num(b)) <==> a < b
  {
  }
}

=== FILE: numeric.dfy ===
/** The editor's numeric helpers on exact reals: JavaScript numbers that may
    be NaN, `Math.round`, the decimal `round(value, precision)` with its
    `Number.EPSILON` nudge, and the gravity constant of the thrust estimates. */
module Numeric {

  /** A JavaScript number: a finite value or NaN. */
  datatype Number = Finite(r: real) | NotANumber

  /** Standard gravity in m/s^2, the `GRAVITY` constant. */
  const Gravity: real := 9.80665

  /** `Number.EPSILON`, 2^-52. */
  const Epsilon: real := 1.0 / 4503599627370496.0

  function Pow10(p: nat): (r: nat)
    ensures r >= 1
  {
    if p == 0 then 1 else 10 * Pow10(p - 1)
  }

  /** `Math.round(x)`: the nearest integer, halves rounded towards +infinity. */
  function MathRound(x: real): (r: int)
    ensures r as real - 0.5 <= x < r as real + 0.5
  {
    (x + 0.5).Floor
  }

  /** `Math.round` never reverses the order of two values. */
  lemma MathRoundMonotone(x: real, y: real)
    requires x <= y
    ensures MathRound(x) <= MathRound(y)
  {
  }

  /** `round(value, precision)`: `Math.round((value + EPSILON) * 10^p) / 10^p`.
      Precisions are literals at every call site, so the verifier evaluates
      it on the concrete values it meets. */
  function Round(x: real, p: nat): real {
    var f := Pow10(p) as real;
    MathRound((x + Epsilon) * f) as real / f
  }

  /** `round(x, 2)` is a whole number of hundredths within half a hundredth
      of `x + EPSILON`, which fixes it. */
  lemma RoundTwoDecimals(x: real)
    ensures x + Epsilon - 0.005 < Round(x, 2) <= x + Epsilon + 0.005
    ensures (Round(x, 2) * 100.0).Floor as real == Round(x, 2) * 100.0
  {
    assert Pow10(2) == 100;
    var m := MathRound((x + Epsilon) * 100.0);
    assert Round(x, 2) == m as real / 100.0;
  }

  /** `round(x, 3)` is a whole number of thousandths within half a
      thousandth of `x + EPSILON`, which fixes it. */
  lemma RoundThreeDecimals(x: real)
    ensures x + Epsilon - 0.0005 < Round(x, 3) <= x + Epsilon + 0.0005
    ensures (Round(x, 3) * 1000.0).Floor as real == Round(x, 3) * 1000.0
  {
    assert Pow10(3) == 1000;
    var m := MathRound((x + Epsilon) * 1000.0);
    assert Round(x, 3) == m as real / 1000.0;
  }

  /** `round` applied to a number that may be NaN: NaN stays NaN. */
  function RoundNumber(x: Number, p: nat): (r: Number)
    ensures r.NotANumber? <==> x.NotANumber?
  {
    match x
    case NotANumber => NotANumber
    case Finite(v) => Finite(Round(v, p))
  }

  /** `a * b` on numbers: NaN is absorbing. */
  function Mul(a: Number, b: Number): (r: Number)
    ensures r.NotANumber? <==> a.NotANumber? || b.NotANumber?
  {
    if a.Finite? && b.Finite? then Finite(a.r * b.r) else NotANumber
  }

  /** `!x` on a number: zero and NaN are the falsy numbers. */
  predicate IsFalsyNumber(x: Number) {
    x.NotANumber? || x.r == 0.0
  }

  /** `x || 0` on a number: the value itself unless it is falsy. */
  function OrZero(x: Number): (r: real)
    ensures IsFalsyNumber(x) ==> r == 0.0
    ensures !IsFalsyNumber(x) ==> Finite(r) == x
  {
    if IsFalsyNumber(x) then 0.0 else x.r
  }

  /** `Math.max(lo, Math.min(hi, x))` on a finite number. */
  function Clamp(x: real, lo: real, hi: real): (r: real)
    requires lo <= hi
    ensures lo <= r <= hi
    ensures lo <= x <= hi ==> r == x
  {
    if x > hi then hi else if x < lo then lo else x
  }

  /** `round(x, 2)` of a value between two whole hundredths `lo / 100` and
      `hi / 100` stays between them: the `EPSILON` nudge never pushes it past
      the upper one. */
  lemma RoundTwoDecimalsWithin(x: real, lo: int, hi: int)
    requires lo as real <= x * 100.0 <= hi as real
    ensures lo as real <= Round(x, 2) * 100.0 <= hi as real
  {
    assert Pow10(2) == 100;
    var y := (x + Epsilon) * 100.0;
    assert y == x * 100.0 + Epsilon * 100.0;
    assert 0.0 < Epsilon * 100.0 < 0.5;
    var m := MathRound(y);
    assert lo <= m <= hi;
    assert Round(x, 2) * 100.0 == m as real;
  }

  /** `round(x, 3)` of a value between two whole thousandths `lo / 1000`
      and `hi / 1000` stays between them. */
  lemma RoundThreeDecimalsWithin(x: real, lo: int, hi: int)
    requires lo as real <= x * 1000.0 <= hi as real
    ensures lo as real <= Round(x, 3) * 1000.0 <= hi as real
  {
    assert Pow10(3) == 1000;
    var y := (x + Epsilon) * 1000.0;
    assert y == x * 1000.0 + Epsilon * 1000.0;
    assert 0.0 < Epsilon * 1000.0 < 0.5;
    var m := MathRound(y);
    assert lo <= m <= hi;
    assert Round(x, 3) * 1000.0 == m as real;
  }
}

=== FILE: patching.dfy ===
/** `applyPatch`: the entries of a handler's patch written one after the
    other with `setValueAtPath`, plus the three facts the editor derives from
    the patch's paths to decide what to refresh. */
module Patching {
  import opened Strings
  import opened Js
  import opened Paths

  /** A patch object as the list of its entries, in `Object.entries` order. */
  type Patch = seq<(string, Value)>

  /** The entries of a patch written in order. */
  function ApplyEntries(config: map<string, Value>, patch: Patch): map<string, Value>
    decreases |patch|
  {
    if |patch| == 0 then config
    else
      var last := patch[|patch| - 1];
      SetPath(ApplyEntries(config, patch[..|patch| - 1]), last.0, last.1)
  }

  /** Some path of the patch starts with `prefix`. */
  predicate AnyPathStartsWith(patch: Patch, prefix: string) {
    exists i :: 0 <= i < |patch| && StartsWith(patch[i].0, prefix)
  }

  /** Some entry of the patch is keyed `key` (`hasOwnProperty`). */
  predicate HasPath(patch: Patch, key: string) {
    exists i :: 0 <= i < |patch| && patch[i].0 == key
  }

  /** What `applyPatch` leaves behind: the document, whether the sprite must
      be refreshed, whether the inertia toggle must be refreshed, and whether
      the sprite reload is forced because `sprite.path` itself was patched. */
  datatype PatchResult = PatchResult(config: map<string, Value>, spriteRefresh: bool, inertiaUpdated: bool, forceReload: bool)

  function ApplyPatch(config: map<string, Value>, patch: Patch): (r: PatchResult)
    ensures r.config == ApplyEntries(config, patch)
    ensures r.spriteRefresh <==> AnyPathStartsWith(patch, "sprite.")
    ensures r.inertiaUpdated <==> AnyPathStartsWith(patch, "mass.inertia_override")
    ensures r.forceReload <==> HasPath(patch, "sprite.path")
    ensures r.forceReload ==> r.spriteRefresh
  {
    var sprite := AnyPathStartsWith(patch, "sprite.");
    var force := sprite && HasPath(patch, "sprite.path");
    assert HasPath(patch, "sprite.path") ==> sprite by {
      if HasPath(patch, "sprite.path") {
        var i :| 0 <= i < |patch| && patch[i].0 == "sprite.path";
        assert StartsWith(patch[i].0, "sprite.");
      }
    }
    PatchResult(ApplyEntries(config, patch), sprite, AnyPathStartsWith(patch, "mass.inertia_override"), force)
  }

  /** The paths of a patch pairwise part ways. */
  predicate PathsDiverge(patch: Patch) {
    forall i, j :: 0 <= i < |patch| && 0 <= j < |patch| && i != j ==> Diverges(Keys(patch[i].0), Keys(patch[j].0))
  }

  /** When no path of a patch is a prefix of another, every entry reads back
      as written, and the object chain of every path is in place. */
  lemma {:induction false} PatchReadBack(config: map<string, Value>, patch: Patch)
    requires PathsDiverge(patch)
    ensures forall j :: 0 <= j < |patch| ==>
      GetPath(Obj(ApplyEntries(config, patch)), patch[j].0) == Some(patch[j].1)
      && PrefixesAreObjects(ApplyEntries(config, patch), Keys(patch[j].0))
    decreases |patch|
  {
    if |patch| > 0 {
      var n := |patch| - 1;
      var init := patch[..n];
      var prev := ApplyEntries(config, init);
      var ks := Keys(patch[n].0);
      assert PathsDiverge(init);
      PatchReadBack(config, init);
      forall j | 0 <= j < n
        ensures GetPath(Obj(ApplyEntries(config, patch)), patch[j].0) == Some(patch[j].1)
        ensures PrefixesAreObjects(ApplyEntries(config, patch), Keys(patch[j].0))
      {
        assert init[j] == patch[j];
        var qs := Keys(patch[j].0);
        SetInFrame(prev, ks, qs, patch[n].1);
        SetInKeepsPrefixes(prev, ks, qs, patch[n].1);
      }
    }
  }

  /** A patch leaves every path that diverges from all of its paths as it
      was, provided the object chain of that path is in place. */
  lemma {:induction false} PatchFrame(config: map<string, Value>, patch: Patch, other: seq<string>)
    requires PrefixesAreObjects(config, other)
    requires forall i :: 0 <= i < |patch| ==> Diverges(Keys(patch[i].0), other)
    ensures Walk(Some(Obj(ApplyEntries(config, patch))), other) == Walk(Some(Obj(config)), other)
    ensures PrefixesAreObjects(ApplyEntries(config, patch), other)
    decreases |patch|
  {
    if |patch| > 0 {
      var n := |patch| - 1;
      var prev := ApplyEntries(config, patch[..n]);
      PatchFrame(config, patch[..n], other);
      SetInFrame(prev, Keys(patch[n].0), other, patch[n].1);
      SetInKeepsPrefixes(prev, Keys(patch[n].0), other, patch[n].1);
    }
  }

  /** A patch leaves every path that diverges plainly from all of its paths
      reading as it did. */
  lemma {:induction false} PatchFramePlain(config: map<string, Value>, patch: Patch, other: seq<string>)
    requires forall i :: 0 <= i < |patch| ==> DivergesPlainly(Keys(patch[i].0), other)
    ensures Walk(Some(Obj(ApplyEntries(config, patch))), other) == Walk(Some(Obj(config)), other)
    decreases |patch|
  {
    if |patch| > 0 {
      var n := |patch| - 1;
      PatchFramePlain(config, patch[..n], other);
      SetInFramePlain(ApplyEntries(config, patch[..n]), Keys(patch[n].0), other, patch[n].1);
    }
  }
}

=== FILE: paths.dfy ===
/** Dotted-path access to a document: `getValueAtPath` and `setValueAtPath`.
    A path such as `sprite.size_px.w` is split at every `.` into keys; reading
    follows the keys with optional chaining, writing creates or replaces every
    intermediate node that is not a plain object. */
module Paths {
  import opened Strings
  import opened Js

  /** `path.split('.')`. */
  function Keys(path: string): (keys: seq<string>)
    ensures |keys| >= 1
  {
    Split(path, '.')
  }

  /** The `reduce` of `getValueAtPath`: each step is `acc?.[part]`. */
  function Walk(acc: Option<Value>, keys: seq<string>): Option<Value>
    decreases |keys|
  {
    if |keys| == 0 then acc else Walk(Member(acc, keys[0]), keys[1..])
  }

  /** `getValueAtPath(v, path)`. */
  function GetPath(v: Value, path: string): Option<Value> {
    Walk(Some(v), Keys(path))
  }

  /** Walking `a + b` is walking `a`, then `b`. */
  lemma {:induction false} WalkAppend(acc: Option<Value>, a: seq<string>, b: seq<string>)
    ensures Walk(acc, a + b) == Walk(Walk(acc, a), b)
    decreases |a|
  {
    if |a| == 0 {
      assert a + b == b;
    } else {
      assert (a + b)[1..] == a[1..] + b;
      WalkAppend(Member(acc, a[0]), a[1..], b);
    }
  }

  /** The fields reached at a key while writing: the existing plain object,
      or a fresh `{}` in place of anything else. */
  function ChildFields(fields: map<string, Value>, key: string): (child: map<string, Value>)
    ensures key in fields && fields[key].Obj? ==> child == fields[key].fields
    ensures !(key in fields && fields[key].Obj?) ==> child == map[]
  {
    if key in fields && fields[key].Obj? then fields[key].fields else map[]
  }

  /** The loop of `setValueAtPath` over the keys of a path. Reading the path
      back gives the value written, and every proper prefix of the path now
      addresses a plain object. */
  function SetIn(fields: map<string, Value>, keys: seq<string>, v: Value): (r: map<string, Value>)
    requires |keys| >= 1
    ensures Walk(Some(Obj(r)), keys) == Some(v)
    ensures PrefixesAreObjects(r, keys)
    ensures r.Keys == fields.Keys + {keys[0]}
    ensures forall k :: k in fields && k != keys[0] ==> r[k] == fields[k]
    decreases |keys|
  {
    if |keys| == 1 then fields[keys[0] := v]
    else fields[keys[0] := Obj(SetIn(ChildFields(fields, keys[0]), keys[1..], v))]
  }

  /** `setValueAtPath(doc, path, value)` on the editor's document, which is
      always a plain object. */
  function SetPath(doc: map<string, Value>, path: string, v: Value): (r: map<string, Value>)
    ensures GetPath(Obj(r), path) == Some(v)
  {
    SetIn(doc, Keys(path), v)
  }

  /** Every proper prefix of `keys` addresses a plain object inside `fields`. */
  predicate PrefixesAreObjects(fields: map<string, Value>, keys: seq<string>)
    decreases |keys|
  {
    |keys| <= 1 ||
    (keys[0] in fields && fields[keys[0]].Obj? && PrefixesAreObjects(fields[keys[0]].fields, keys[1..]))
  }

  /** Two key lists part ways: at some position both have a key and the keys
      differ, so neither path is a prefix of the other. */
  predicate Diverges(a: seq<string>, b: seq<string>)
    decreases |a|
  {
    |a| >= 1 && |b| >= 1 && (a[0] != b[0] || Diverges(a[1..], b[1..]))
  }

  lemma {:induction false} DivergesSymmetric(a: seq<string>, b: seq<string>)
    requires Diverges(a, b)
    ensures Diverges(b, a)
    decreases |a|
  {
    if a[0] == b[0] {
      DivergesSymmetric(a[1..], b[1..]);
    }
  }

  /** Diverging is exactly "neither is a prefix of the other". */
  lemma {:induction false} DivergesIffNoPrefix(a: seq<string>, b: seq<string>)
    ensures Diverges(a, b) <==> !(a <= b) && !(b <= a)
    decreases |a|
  {
    if |a| >= 1 && |b| >= 1 {
      DivergesIffNoPrefix(a[1..], b[1..]);
      if a[0] == b[0] {
        assert a <= b <==> a[1..] <= b[1..] by {
          if a[1..] <= b[1..] {
            assert a == [a[0]] + a[1..];
            assert a == b[..|a|];
          }
        }
        assert b <= a <==> b[1..] <= a[1..] by {
          if b[1..] <= a[1..] {
            assert b == [b[0]] + b[1..];
            assert b == a[..|b|];
          }
        }
      }
    }
  }

  /** Writing one path leaves a diverging path readable exactly as before,
      provided the proper prefixes of either path address plain objects (so
      the write replaces no intermediate node that the other path crosses). */
  lemma {:induction false} SetInFrame(fields: map<string, Value>, keys: seq<string>, other: seq<string>, v: Value)
    requires |keys| >= 1
    requires Diverges(keys, other)
    requires PrefixesAreObjects(fields, keys) || PrefixesAreObjects(fields, other)
    ensures Walk(Some(Obj(SetIn(fields, keys, v))), other) == Walk(Some(Obj(fields)), other)
    decreases |keys|
  {
    var r := SetIn(fields, keys, v);
    if keys[0] != other[0] {
      assert Member(Some(Obj(r)), other[0]) == Member(Some(Obj(fields)), other[0]);
    } else {
      var child := fields[keys[0]].fields;
      assert ChildFields(fields, keys[0]) == child;
      SetInFrame(child, keys[1..], other[1..], v);
      assert Member(Some(Obj(r)), other[0]) == Some(Obj(SetIn(child, keys[1..], v)));
      assert Member(Some(Obj(fields)), other[0]) == Some(Obj(child));
    }
  }

  /** Writing a path never breaks the object chain along a diverging path. */
  lemma {:induction false} SetInKeepsPrefixes(fields: map<string, Value>, keys: seq<string>, other: seq<string>, v: Value)
    requires |keys| >= 1
    requires Diverges(keys, other)
    requires PrefixesAreObjects(fields, other)
    ensures PrefixesAreObjects(SetIn(fields, keys, v), other)
    decreases |keys|
  {
    if |other| > 1 && keys[0] == other[0] {
      var child := fields[keys[0]].fields;
      assert ChildFields(fields, keys[0]) == child;
      SetInKeepsPrefixes(child, keys[1..], other[1..], v);
    }
  }

  /** Below the written path, the document reads like the value written. */
  lemma ReadBelowWritten(fields: map<string, Value>, keys: seq<string>, rest: seq<string>, v: Value)
    requires |keys| >= 1
    ensures Walk(Some(Obj(SetIn(fields, keys, v))), keys + rest) == Walk(Some(v), rest)
  {
    WalkAppend(Some(Obj(SetIn(fields, keys, v))), keys, rest);
  }

  /** `setValueAtPath` frame: when every proper prefix of `path` already
      addressed a plain object, no path that neither extends `path` nor is a
      prefix of it changes. */
  lemma SetPathFrame(doc: map<string, Value>, path: string, other: string, v: Value)
    requires PrefixesAreObjects(doc, Keys(path))
    requires !(Keys(path) <= Keys(other)) && !(Keys(other) <= Keys(path))
    ensures GetPath(Obj(SetPath(doc, path, v)), other) == GetPath(Obj(doc), other)
  {
    DivergesIffNoPrefix(Keys(path), Keys(other));
    SetInFrame(doc, Keys(path), Keys(other), v);
  }

  /** The dotted path of a list of keys: `keys.join('.')`. */
  function PathOf(keys: seq<string>): string
    requires |keys| >= 1
  {
    Join(keys, '.')
  }

  /** Splitting the dotted path of dot-free keys gives the keys back. */
  lemma KeysOfPath(keys: seq<string>)
    requires |keys| >= 1 && forall i :: 0 <= i < |keys| ==> '.' !in keys[i]
    ensures Keys(PathOf(keys)) == keys
  {
    SplitJoin(keys, '.');
  }

  /** Reading the path of some keys is walking the keys. */
  lemma GetPathOf(v: Value, keys: seq<string>)
    requires |keys| >= 1 && forall i :: 0 <= i < |keys| ==> '.' !in keys[i]
    ensures GetPath(v, PathOf(keys)) == Walk(Some(v), keys)
  {
    KeysOfPath(keys);
  }

  lemma {:induction false} WalkNone(keys: seq<string>)
    ensures Walk(None, keys) == None
    decreases |keys|
  {
    if |keys| > 0 {
      WalkNone(keys[1..]);
    }
  }

  /** A key that only a plain object can answer: not `length` and not an
      array index. */
  predicate PlainKey(k: string) {
    |k| >= 1 && !IsDigit(k[0]) && k != "length"
  }

  lemma PlainKeyReadsObjects(v: Value, k: string)
    requires PlainKey(k) && GetProp(v, k).Some?
    ensures v.Obj?
  {
  }

  /** A value found by walking plain keys was reached through plain objects. */
  lemma {:induction false} FoundThroughObjects(fields: map<string, Value>, keys: seq<string>)
    requires |keys| >= 1
    requires forall i :: 1 <= i < |keys| ==> PlainKey(keys[i])
    requires Walk(Some(Obj(fields)), keys).Some?
    ensures PrefixesAreObjects(fields, keys)
    decreases |keys|
  {
    if |keys| > 1 {
      var k := keys[0];
      if k !in fields {
        WalkNone(keys[1..]);
      } else {
        var v := fields[k];
        var rest := keys[1..];
        if GetProp(v, rest[0]).None? {
          WalkNone(rest[1..]);
        } else {
          PlainKeyReadsObjects(v, rest[0]);
          FoundThroughObjects(v.fields, rest);
        }
      }
    }
  }

  /** The object chain of a path covers every path whose parent lies on it. */
  lemma {:induction false} PrefixesAreObjectsOfParent(fields: map<string, Value>, a: seq<string>, b: seq<string>)
    requires |a| >= 1 && |b| >= 1 && PrefixesAreObjects(fields, a)
    requires b[..|b| - 1] <= a[..|a| - 1]
    ensures PrefixesAreObjects(fields, b)
    decreases |a|
  {
    if |b| > 1 {
      assert |a| >= 2 && b[0] == a[0] by {
        assert b[..|b| - 1][0] == b[0];
      }
      assert PrefixesAreObjects(fields[a[0]].fields, a[1..]);
      assert b[1..][..|b| - 2] == b[..|b| - 1][1..];
      assert a[1..][..|a| - 2] == a[..|a| - 1][1..];
      PrefixesAreObjectsOfParent(fields[a[0]].fields, a[1..], b[1..]);
    }
  }

  /** Two key lists part ways, and every key of `b` read below the common
      prefix, down to the first differing one, is plain. */
  predicate DivergesPlainly(a: seq<string>, b: seq<string>)
    decreases |a|
  {
    |a| >= 1 && |b| >= 1 && (a[0] != b[0] || (|b| >= 2 && PlainKey(b[1]) && DivergesPlainly(a[1..], b[1..])))
  }

  /** A path that diverges plainly from a written one reads the same after
      the write, whatever stood in the way: a node the write replaces with a
      fresh object could not answer the next plain key before, and the fresh
      object holds only the written path. */
  lemma {:induction false} SetInFramePlain(fields: map<string, Value>, keys: seq<string>, other: seq<string>, v: Value)
    requires |keys| >= 1
    requires DivergesPlainly(keys, other)
    ensures Walk(Some(Obj(SetIn(fields, keys, v))), other) == Walk(Some(Obj(fields)), other)
    decreases |keys|
  {
    var r := SetIn(fields, keys, v);
    var k := keys[0];
    if other[0] == k {
      assert |keys| > 1 && |other| > 1;
      var child := ChildFields(fields, k);
      var rest := other[1..];
      SetInFramePlain(child, keys[1..], rest, v);
      assert Walk(Some(Obj(r)), other) == Walk(Some(Obj(SetIn(child, keys[1..], v))), rest);
      if !(k in fields && fields[k].Obj?) {
        WalkNone(rest[1..]);
        assert Walk(Some(Obj(child)), rest) == None;
        if k in fields {
          if GetProp(fields[k], rest[0]).Some? {
            PlainKeyReadsObjects(fields[k], rest[0]);
          }
        }
        assert Walk(Some(Obj(fields)), other) == None;
      }
    } else {
      assert Member(Some(Obj(r)), other[0]) == Member(Some(Obj(fields)), other[0]);
    }
  }

  /** Parting ways plainly with `b` survives lengthening the path. */
  lemma {:induction false} DivergesPlainlyExtend(a: seq<string>, c: seq<string>, b: seq<string>)
    requires DivergesPlainly(a, b) && a <= c
    ensures DivergesPlainly(c, b)
    decreases |a|
  {
    if a[0] == b[0] {
      DivergesPlainlyExtend(a[1..], c[1..], b[1..]);
    }
  }
}

=== FILE: presets.dfy ===
/** The preset tables the recommenders read: g-limit profiles built by
    `createGLimitPreset`, flight-assist presets and sprite alpha thresholds,
    all keyed by a lower-case ship class. */
module Presets {
  import opened Numeric
  import opened Js

  /** One axis of a g-limit profile. */
  datatype AxisLimits = AxisLimits(sustained: real, burst: real, burstDuration: real, recoveryCooldown: real)

  /** A g-limit profile: both axes and the behaviour block. */
  datatype GLimitPreset = GLimitPreset(longitudinal: AxisLimits, lateral: AxisLimits, smoothing: real, blackout: string)

  /** The arguments of one `createGLimitPreset(...)` call in the table. */
  datatype GLimitArgs = GLimitArgs(
    longSustained: real, longBurst: real, longDuration: real,
    latSustained: real, latBurst: real, latDuration: real,
    smoothing: real)

  /** `createGLimitPreset`: the cooldown of each axis is two and a half burst
      durations rounded to hundredths, the smoothing constant is rounded to
      thousandths, the blackout model is `none`. */
  function CreateGLimitPreset(a: GLimitArgs): (p: GLimitPreset)
    ensures p.longitudinal.sustained == a.longSustained && p.longitudinal.burst == a.longBurst
    ensures p.longitudinal.burstDuration == a.longDuration
    ensures p.lateral.sustained == a.latSustained && p.lateral.burst == a.latBurst
    ensures p.lateral.burstDuration == a.latDuration
    ensures p.blackout == "none"
    ensures a.longDuration * 2.5 + Epsilon - 0.005 < p.longitudinal.recoveryCooldown <= a.longDuration * 2.5 + Epsilon + 0.005
    ensures a.latDuration * 2.5 + Epsilon - 0.005 < p.lateral.recoveryCooldown <= a.latDuration * 2.5 + Epsilon + 0.005
    ensures a.smoothing + Epsilon - 0.0005 < p.smoothing <= a.smoothing + Epsilon + 0.0005
    ensures (p.longitudinal.recoveryCooldown * 100.0).Floor as real == p.longitudinal.recoveryCooldown * 100.0
    ensures (p.lateral.recoveryCooldown * 100.0).Floor as real == p.lateral.recoveryCooldown * 100.0
    ensures (p.smoothing * 1000.0).Floor as real == p.smoothing * 1000.0
  {
    GLimitPreset(
      AxisLimits(a.longSustained, a.longBurst, a.longDuration, Cooldown(a.longDuration)),
      AxisLimits(a.latSustained, a.latBurst, a.latDuration, Cooldown(a.latDuration)),
      RoundedSmoothing(a.smoothing),
      "none")
  }

  /** `round(burstDuration * 2.5, 2)`. */
  function Cooldown(duration: real): (c: real)
    ensures duration * 2.5 + Epsilon - 0.005 < c <= duration * 2.5 + Epsilon + 0.005
    ensures (c * 100.0).Floor as real == c * 100.0
  {
    RoundTwoDecimals(duration * 2.5);
    Round(duration * 2.5, 2)
  }

  /** `round(smoothing, 3)`. */
  function RoundedSmoothing(smoothing: real): (s: real)
    ensures smoothing + Epsilon - 0.0005 < s <= smoothing + Epsilon + 0.0005
    ensures (s * 1000.0).Floor as real == s * 1000.0
  {
    RoundThreeDecimals(smoothing);
    Round(smoothing, 3)
  }

  /** The `GLIMIT_PROFILE_PRESETS` table, as the arguments of each entry. */
  function GLimitArgsFor(key: string): Option<GLimitArgs> {
    if key == "sport" then Some(GLimitArgs(9.0, 12.0, 2.0, 7.0, 9.0, 1.5, 0.14))
    else if key == "courier" then Some(GLimitArgs(8.0, 11.0, 1.8, 6.0, 8.0, 1.3, 0.14))
    else if key == "interceptor" then Some(GLimitArgs(7.0, 9.0, 2.0, 5.0, 7.0, 1.5, 0.16))
    else if key == "fighter" then Some(GLimitArgs(6.0, 8.0, 2.0, 4.0, 6.0, 1.5, 0.18))
    else if key == "military.medium" then Some(GLimitArgs(4.0, 6.0, 2.2, 3.0, 5.0, 2.0, 0.21))
    else if key == "military.heavy" then Some(GLimitArgs(3.0, 5.0, 3.0, 2.0, 4.0, 2.5, 0.27))
    else if key == "freighter" then Some(GLimitArgs(2.5, 3.5, 2.5, 2.0, 3.0, 2.0, 0.26))
    else if key == "passenger" then Some(GLimitArgs(1.5, 2.5, 3.0, 1.2, 2.0, 2.0, 0.27))
    else if key == "drone" then Some(GLimitArgs(12.0, 18.0, 1.0, 9.0, 14.0, 0.8, 0.12))
    else None
  }

  /** `GLIMIT_PROFILE_PRESETS[key]`. */
  function GLimitPresetFor(key: string): (r: Option<GLimitPreset>)
    ensures r.Some? <==> GLimitArgsFor(key).Some?
  {
    match GLimitArgsFor(key)
    case None => None
    case Some(a) => Some(CreateGLimitPreset(a))
  }

  /** The ship classes with a g-limit profile. */
  const PresetClasses: seq<string> :=
    ["sport", "courier", "interceptor", "fighter", "military.medium", "military.heavy", "freighter", "passenger", "drone"]

  lemma GLimitPresetKeys(key: string)
    ensures GLimitPresetFor(key).Some? <==> key in PresetClasses
  {
  }

  /** The checks the validator applies to one axis, read on plain numbers. */
  predicate AxisSound(a: AxisLimits) {
    a.sustained > 0.0 && a.burst >= a.sustained && a.burstDuration > 0.0 && a.recoveryCooldown >= a.burstDuration
  }

  /** A profile no g-limit check of the validator objects to. */
  predicate PresetSound(p: GLimitPreset) {
    AxisSound(p.longitudinal) && AxisSound(p.lateral) && p.smoothing > 0.0
  }

  /** Arguments for which `createGLimitPreset` yields a sound profile. */
  predicate ArgsSound(a: GLimitArgs) {
    0.0 < a.longSustained <= a.longBurst && a.longDuration >= 0.01
    && 0.0 < a.latSustained <= a.latBurst && a.latDuration >= 0.01
    && a.smoothing >= 0.001
  }

  /** Rounding the cooldown and the smoothing constant cannot make a profile
      unsound: a cooldown of 2.5 durations stays above the duration, and the
      smoothing constant stays positive. */
  lemma CreateGLimitPresetSound(a: GLimitArgs)
    requires ArgsSound(a)
    ensures PresetSound(CreateGLimitPreset(a))
  {
  }

  /** Every entry of the g-limit table passes the validator's g-limit checks. */
  lemma GLimitPresetsSound(key: string)
    requires GLimitPresetFor(key).Some?
    ensures PresetSound(GLimitPresetFor(key).value)
  {
    CreateGLimitPresetSound(GLimitArgsFor(key).value);
  }

  /** One assist preset, in the order of its keys. */
  datatype AssistPreset = AssistPreset(
    enabled: bool, omegaCap: Number, alphaCap: Number, alignGain: real, deadzone: int, autobrake: real)

  /** The `ASSIST_PRESETS` table. */
  function AssistPresetFor(key: string): Option<AssistPreset> {
    if key == "sport" then Some(AssistPreset(true, Finite(1.45), Finite(1.05), 0.55, 2, 0.08))
    else if key == "courier" then Some(AssistPreset(true, Finite(1.3), Finite(1.0), 0.62, 3, 0.1))
    else if key == "interceptor" then Some(AssistPreset(true, Finite(1.35), Finite(1.05), 0.6, 3, 0.08))
    else if key == "fighter" then Some(AssistPreset(true, Finite(1.2), Finite(0.9), 0.6, 3, 0.1))
    else if key == "freighter" then Some(AssistPreset(true, Finite(0.7), Finite(0.5), 0.7, 4, 0.1))
    else if key == "passenger" then Some(AssistPreset(true, Finite(0.8), Finite(0.55), 0.72, 4, 0.12))
    else if key == "military.medium" then Some(AssistPreset(true, Finite(0.9), Finite(0.7), 0.65, 3, 0.1))
    else if key == "military.heavy" then Some(AssistPreset(true, Finite(0.6), Finite(0.4), 0.7, 4, 0.1))
    else if key == "drone" then Some(AssistPreset(true, Finite(1.6), Finite(1.1), 0.5, 2, 0.05))
    else None
  }

  /** The assist table covers exactly the classes the g-limit table covers. */
  lemma AssistPresetKeys(key: string)
    ensures AssistPresetFor(key).Some? <==> key in PresetClasses
  {
  }

  /** The entries of an assist preset, in the key order of the table. */
  function AssistEntries(p: AssistPreset): (es: seq<(string, Value)>)
    ensures |es| == 6
  {
    [("coupled_enabled", Bool(p.enabled)),
     ("coupled_omega_cap_radps", FromNumber(p.omegaCap)),
     ("coupled_alpha_cap_radps2", FromNumber(p.alphaCap)),
     ("coupled_align_gain", Num(p.alignGain)),
     ("coupled_deadzone_deg", Num(p.deadzone as real)),
     ("autobrake_eps_mps", Num(p.autobrake))]
  }

  /** The `SPRITE_ALPHA_DEFAULTS` table. */
  function SpriteAlphaFor(key: string): Option<int> {
    if key == "default" then Some(16)
    else if key == "fighter" then Some(16)
    else if key == "courier" then Some(16)
    else if key == "interceptor" then Some(14)
    else if key == "sport" then Some(14)
    else if key == "freighter" then Some(24)
    else if key == "passenger" then Some(18)
    else if key == "military.medium" then Some(20)
    else if key == "military.heavy" then Some(24)
    else if key == "drone" then Some(12)
    else None
  }
}

=== FILE: saving.dfy ===
/** `prepareForSave`, which normalises a copy of the document before it is
    written out, and the tag list's `addTag` and `removeTag`. Every step
    that reads a container without optional chaining, calls a string method
    on something that is not a string or assigns a property of a primitive
    throws a `TypeError` (class bodies are strict code). */
module Saving {
  import opened Strings
  import opened Js
  import opened Document

  /** The `meta` keys that are dropped when blank. */
  const OptionalMetaKeys: seq<string> := ["name", "version", "author", "notes"]

  /** `v === '' || v === null`. */
  predicate BlankMeta(v: Value) {
    v == Str("") || v == Null
  }

  /** `v === null || v === undefined || v === ''` for the hull radius. */
  predicate BlankRadius(v: Value) {
    v == Null || v == Str("")
  }

  /** `Izz === null || Izz === undefined || Number.isNaN(Izz)`. */
  predicate IzzMissing(v: Option<Value>) {
    v.None? || v.value.Null? || v.value.NaN?
  }

  /** The optional `meta` keys holding `''` or `null` are deleted; nothing
      else in `meta` changes. */
  function DropBlankMeta(meta: Value): (r: Value)
    ensures r.Obj? <==> meta.Obj?
    ensures !meta.Obj? ==> r == meta
    ensures r.Obj? ==> forall k :: k in OptionalMetaKeys && k in r.fields ==> !BlankMeta(r.fields[k])
    ensures r.Obj? ==> forall k :: k in meta.fields ==>
      (k in r.fields <==> !(k in OptionalMetaKeys && BlankMeta(meta.fields[k])))
    ensures r.Obj? ==> forall k :: k in r.fields ==> k in meta.fields && r.fields[k] == meta.fields[k]
  {
    if meta.Obj? then
      Obj(map k | k in meta.fields && !(k in OptionalMetaKeys && BlankMeta(meta.fields[k])) :: meta.fields[k])
    else meta
  }

  /** The inertia override no longer needs clearing: it is falsy, or it
      names a present, non-null, non-NaN `Izz_kg_m2`. */
  predicate OverrideSettled(mass: Value) {
    var o := Member(Some(mass), "inertia_override");
    !Truthy(o) || !IzzMissing(Member(o, "Izz_kg_m2"))
  }

  /** A truthy inertia override without a usable `Izz_kg_m2` becomes
      `null`; nothing else in `mass` changes. */
  function ClearInertia(mass: Value): (r: Value)
    ensures OverrideSettled(r)
    ensures OverrideSettled(mass) ==> r == mass
    ensures !OverrideSettled(mass) ==> mass.Obj? && r == Obj(mass.fields["inertia_override" := Null])
  {
    if mass.Obj? && !OverrideSettled(mass) then Obj(mass.fields["inertia_override" := Null]) else mass
  }

  /** A blank `hull_radius_m` is deleted; nothing else in `geometry`
      changes. */
  function DropBlankRadius(geometry: Value): (r: Value)
    ensures r.Obj? <==> geometry.Obj?
    ensures !geometry.Obj? ==> r == geometry
    ensures r.Obj? ==> "hull_radius_m" in r.fields ==> !BlankRadius(r.fields["hull_radius_m"])
    ensures r.Obj? ==> forall k :: k in geometry.fields ==>
      (k in r.fields <==> !(k == "hull_radius_m" && BlankRadius(geometry.fields[k])))
    ensures r.Obj? ==> forall k :: k in r.fields ==> k in geometry.fields && r.fields[k] == geometry.fields[k]
  {
    if geometry.Obj? && "hull_radius_m" in geometry.fields && BlankRadius(geometry.fields["hull_radius_m"]) then
      Obj(geometry.fields - {"hull_radius_m"})
    else geometry
  }

  /** Whether the sprite step throws: `sprite` is null or undefined,
      `sprite.path || ''` is not a string, or `sprite` is a primitive and
      cannot take the assignment. */
  predicate SpriteFails(sprite: Option<Value>) {
    Nullish(sprite) || !(sprite.value.Obj? || sprite.value.Arr?)
    || (sprite.value.Obj? && !Or(Member(sprite, "path"), Str("")).Str?)
  }

  /** `sprite.path = (sprite.path || '').replace(/\\/g, '/')`. An array
      takes the assignment as a named property, which the model does not
      represent. */
  function NormalizeSpritePath(sprite: Option<Value>): (r: Result<Value>)
    ensures r.Threw? <==> SpriteFails(sprite)
    ensures r.Ok? && sprite.value.Arr? ==> r.value == sprite.value
    ensures r.Ok? && sprite.value.Obj? ==>
      && r.value.Obj?
      && r.value.fields.Keys == sprite.value.fields.Keys + {"path"}
      && (forall k :: k in sprite.value.fields && k != "path" ==> r.value.fields[k] == sprite.value.fields[k])
    ensures r.Ok? && sprite.value.Obj? ==>
      var before := Or(Member(sprite, "path"), Str("")).s;
      var after := r.value.fields["path"];
      after.Str? && '\\' !in after.s && |after.s| == |before|
      && forall i :: 0 <= i < |before| && before[i] != '\\' ==> after.s[i] == before[i]
  {
    if Nullish(sprite) then Threw
    else
      match sprite.value
      case Obj(fields) =>
        (match Or(Member(sprite, "path"), Str(""))
         case Str(s) =>
           var t := ReplaceAll(s, '\\', '/');
           assert '\\' !in t by {
             forall i | 0 <= i < |t| ensures t[i] != '\\' { }
           }
           Ok(Obj(fields["path" := Str(t)]))
         case _ => Threw)
      case Arr(_) => Ok(sprite.value)
      case _ => Threw
  }

  /** A tag the filter keeps: a string with something besides white space. */
  predicate KeptTag(v: Value) {
    v.Str? && Trim(v.s) != ""
  }

  /** A tag the filter cannot test: truthy but not a string, so it has no
      `trim` to call. */
  predicate UntestableTag(v: Value) {
    Truthy(Some(v)) && !v.Str?
  }

  /** `tags.filter((tag) => tag && tag.trim().length > 0)`: the filter
      throws on the first tag it cannot test, so either it throws or every
      tag is tested. */
  function KeepTags(tags: seq<Value>): (r: Result<seq<Value>>)
    ensures r.Threw? <==> exists i :: 0 <= i < |tags| && UntestableTag(tags[i])
    ensures r.Ok? ==> forall i :: 0 <= i < |r.value| ==> KeptTag(r.value[i])
    ensures r.Ok? ==> forall v :: v in r.value <==> v in tags && KeptTag(v)
    ensures r.Ok? ==> forall v :: multiset(r.value)[v] == if KeptTag(v) then multiset(tags)[v] else 0
    ensures r.Ok? ==> |r.value| <= |tags|
  {
    if exists i :: 0 <= i < |tags| && UntestableTag(tags[i]) then Threw else Ok(FilterTags(tags))
  }

  /** The tags the filter keeps, in order. */
  function FilterTags(tags: seq<Value>): (r: seq<Value>)
    ensures forall i :: 0 <= i < |r| ==> KeptTag(r[i])
    ensures forall v :: v in r <==> v in tags && KeptTag(v)
    ensures forall v :: multiset(r)[v] == if KeptTag(v) then multiset(tags)[v] else 0
    ensures |r| <= |tags|
  {
    FilterMembers(tags, KeptTag);
    FilterCounts(tags, KeptTag);
    Filter(tags, KeptTag)
  }

  /** `a.filter(keep)` for a test that cannot throw. */
  function Filter(a: seq<Value>, keep: Value -> bool): (r: seq<Value>)
    ensures forall i :: 0 <= i < |r| ==> keep(r[i])
    ensures |r| <= |a|
    decreases |a|
  {
    if |a| == 0 then []
    else
      var n := |a| - 1;
      Filter(a[..n], keep) + (if keep(a[n]) then [a[n]] else [])
  }

  /** Every element that passes the test is kept as often as it occurs,
      and no other. */
  lemma {:induction false} FilterCounts(a: seq<Value>, keep: Value -> bool)
    ensures forall v :: multiset(Filter(a, keep))[v] == if keep(v) then multiset(a)[v] else 0
    decreases |a|
  {
    if |a| > 0 {
      var n := |a| - 1;
      FilterCounts(a[..n], keep);
      assert a == a[..n] + [a[n]];
      assert multiset(a) == multiset(a[..n]) + multiset{a[n]};
    }
  }

  /** Filtering a concatenation filters each part and keeps them in order;
      with the one-element case, this fixes the order `filter` keeps. */
  lemma {:induction false} FilterAppend(a: seq<Value>, b: seq<Value>, keep: Value -> bool)
    ensures Filter(a + b, keep) == Filter(a, keep) + Filter(b, keep)
    decreases |b|
  {
    if |b| > 0 {
      var n := |b| - 1;
      var c := a + b;
      var m := |c| - 1;
      assert c[..m] == a + b[..n];
      assert c[m] == b[n];
      FilterAppend(a, b[..n], keep);
      var t := if keep(b[n]) then [b[n]] else [];
      assert Filter(c, keep) == Filter(c[..m], keep) + t;
      assert Filter(b, keep) == Filter(b[..n], keep) + t;
    } else {
      assert a + b == a;
    }
  }

  /** A one-element list keeps its element exactly when it passes. */
  lemma FilterOne(x: Value, keep: Value -> bool)
    ensures Filter([x], keep) == if keep(x) then [x] else []
  {
    assert [x][..0] == [];
  }

  /** The filter keeps exactly the elements that pass its test. */
  lemma {:induction false} FilterMembers(a: seq<Value>, keep: Value -> bool)
    ensures forall v :: v in Filter(a, keep) <==> v in a && keep(v)
    decreases |a|
  {
    if |a| > 0 {
      var n := |a| - 1;
      FilterMembers(a[..n], keep);
      assert a == a[..n] + [a[n]];
    }
  }

  /** Whether the tag step throws: `tags || []` is not an array, or one of
      its elements cannot be tested. */
  predicate TagsFail(tags: Option<Value>) {
    var list := Or(tags, Arr([]));
    !list.Arr? || exists i :: 0 <= i < |list.elems| && UntestableTag(list.elems[i])
  }

  /** `(tags || []).filter(...)`. */
  function CleanTags(tags: Option<Value>): (r: Result<Value>)
    ensures r.Threw? <==> TagsFail(tags)
    ensures r.Ok? ==> r.value.Arr? && forall i :: 0 <= i < |r.value.elems| ==> KeptTag(r.value.elems[i])
    ensures r.Ok? ==> forall v :: multiset(r.value.elems)[v] == if KeptTag(v) then multiset(Or(tags, Arr([])).elems)[v] else 0
    ensures r.Ok? ==> r.value.elems == FilterTags(Or(tags, Arr([])).elems)
  {
    match Or(tags, Arr([]))
    case Arr(a) =>
      (match KeepTags(a)
       case Ok(kept) => Ok(Arr(kept))
       case Threw => Threw)
    case _ => Threw
  }

  /** `cfg.key`. */
  function Field(cfg: Config, key: string): Option<Value> {
    if key in cfg then Some(cfg[key]) else None
  }

  /** The normalisation `prepareForSave` applies to the merged copy. */
  function Normalize(c: Config): (r: Result<Config>)
    ensures r.Threw? <==>
      Nullish(Field(c, "meta")) || Nullish(Field(c, "mass")) || Nullish(Field(c, "geometry"))
      || SpriteFails(Field(c, "sprite")) || TagsFail(Field(c, "tags"))
    ensures r.Ok? ==> r.value.Keys == c.Keys + {"tags"}
    ensures r.Ok? ==> forall k :: k in c && k != "meta" && k != "mass" && k != "geometry" && k != "sprite" && k != "tags" ==>
      r.value[k] == c[k]
    ensures r.Ok? ==> r.value["meta"] == DropBlankMeta(c["meta"])
    ensures r.Ok? ==> r.value["mass"] == ClearInertia(c["mass"])
    ensures r.Ok? ==> r.value["geometry"] == DropBlankRadius(c["geometry"])
    ensures r.Ok? ==> Ok(r.value["sprite"]) == NormalizeSpritePath(Field(c, "sprite"))
    ensures r.Ok? ==> Ok(r.value["tags"]) == CleanTags(Field(c, "tags"))
  {
    if Nullish(Field(c, "meta")) || Nullish(Field(c, "mass")) || Nullish(Field(c, "geometry")) then Threw
    else Assemble(c, NormalizeSpritePath(Field(c, "sprite")), CleanTags(Field(c, "tags")))
  }

  /** The normalised document from the outcomes of the sprite and tag
      steps: the first that threw, or every part replaced by its step's
      result. */
  function Assemble(c: Config, sprite: Result<Value>, tags: Result<Value>): (r: Result<Config>)
    requires "meta" in c && "mass" in c && "geometry" in c
    ensures r.Ok? <==> sprite.Ok? && tags.Ok?
    ensures r.Ok? ==> r.value.Keys == c.Keys + {"sprite", "tags"}
    ensures r.Ok? ==> forall k :: k in c && k != "meta" && k != "mass" && k != "geometry" && k != "sprite" && k != "tags" ==>
      r.value[k] == c[k]
    ensures r.Ok? ==> r.value["meta"] == DropBlankMeta(c["meta"]) && r.value["mass"] == ClearInertia(c["mass"])
    ensures r.Ok? ==> r.value["geometry"] == DropBlankRadius(c["geometry"])
    ensures r.Ok? ==> r.value["sprite"] == sprite.value && r.value["tags"] == tags.value
  {
    match sprite
    case Threw => Threw
    case Ok(s) =>
      match tags
      case Threw => Threw
      case Ok(t) =>
        Ok(c["meta" := DropBlankMeta(c["meta"])]
            ["mass" := ClearInertia(c["mass"])]
            ["geometry" := DropBlankRadius(c["geometry"])]
            ["sprite" := s]
            ["tags" := t])
  }

  /** What a saved document promises: no blank optional `meta` key, a
      settled inertia override, no blank `hull_radius_m`, a sprite path
      without backslashes, and only tags with something besides white
      space. */
  predicate Saveable(c: Config) {
    && "meta" in c && (c["meta"].Obj? ==> forall k :: k in OptionalMetaKeys && k in c["meta"].fields ==> !BlankMeta(c["meta"].fields[k]))
    && "mass" in c && OverrideSettled(c["mass"])
    && "geometry" in c && (c["geometry"].Obj? && "hull_radius_m" in c["geometry"].fields ==> !BlankRadius(c["geometry"].fields["hull_radius_m"]))
    && "sprite" in c && (c["sprite"].Obj? ==> "path" in c["sprite"].fields && c["sprite"].fields["path"].Str? && '\\' !in c["sprite"].fields["path"].s)
    && "tags" in c && c["tags"].Arr? && (forall i :: 0 <= i < |c["tags"].elems| ==> KeptTag(c["tags"].elems[i]))
  }

  /** Every normalised document keeps the promises of a saved one. */
  lemma NormalizeSaveable(c: Config)
    requires Normalize(c).Ok?
    ensures Saveable(Normalize(c).value)
  {
    var r := Normalize(c).value;
    assert Field(c, "sprite").Some?;
  }

  /** `prepareForSave()`: the document merged over the defaults, then
      normalised. */
  function PrepareForSave(config: Config): (r: Result<Config>)
    ensures r.Ok? ==> Saveable(r.value)
    ensures r.Ok? ==> DefaultConfig.Keys <= r.value.Keys
  {
    var merged := EnsureStructure(Obj(config));
    var r := Normalize(merged);
    if r.Ok? then
      NormalizeSaveable(merged);
      r
    else r
  }

  /** Normalising a second time changes nothing: every step leaves its own
      output alone. */
  lemma NormalizeIdempotent(c: Config)
    requires Normalize(c).Ok?
    ensures Normalize(Normalize(c).value) == Normalize(c)
  {
    var r := Normalize(c).value;
    NormalizeSaveable(c);
    MetaSettled(r["meta"]);
    RadiusSettled(r["geometry"]);
    SpritePathSettled(Field(r, "sprite"));
    TagsSettled(r["tags"].elems);
    NormalizeFixed(r);
  }

  /** A document whose every part is left alone by its step normalises to
      itself. */
  lemma NormalizeFixed(r: Config)
    requires !Nullish(Field(r, "meta")) && !Nullish(Field(r, "mass")) && !Nullish(Field(r, "geometry"))
    requires "sprite" in r && "tags" in r && r["tags"].Arr?
    requires DropBlankMeta(r["meta"]) == r["meta"]
    requires ClearInertia(r["mass"]) == r["mass"]
    requires DropBlankRadius(r["geometry"]) == r["geometry"]
    requires NormalizeSpritePath(Field(r, "sprite")) == Ok(r["sprite"])
    requires KeepTags(r["tags"].elems) == Ok(r["tags"].elems)
    ensures Normalize(r) == Ok(r)
  {
    CleanTagsFixed(r["tags"]);
    AssembleFixed(r);
  }

  /** A tag array the filter passes unchanged comes out of the tag step as
      it went in. */
  lemma CleanTagsFixed(tags: Value)
    requires tags.Arr? && KeepTags(tags.elems) == Ok(tags.elems)
    ensures CleanTags(Some(tags)) == Ok(tags)
  {
    assert Or(Some(tags), Arr([])) == tags;
  }

  /** Parts that are their own step's result assemble into the document
      itself. */
  lemma AssembleFixed(r: Config)
    requires "meta" in r && "mass" in r && "geometry" in r && "sprite" in r && "tags" in r
    requires DropBlankMeta(r["meta"]) == r["meta"]
    requires ClearInertia(r["mass"]) == r["mass"]
    requires DropBlankRadius(r["geometry"]) == r["geometry"]
    ensures Assemble(r, Ok(r["sprite"]), Ok(r["tags"])) == Ok(r)
  {
    assert r["meta" := r["meta"]]["mass" := r["mass"]]["geometry" := r["geometry"]]["sprite" := r["sprite"]]["tags" := r["tags"]] == r;
  }

  /** `meta` without blank optional keys is left as it is. */
  lemma MetaSettled(meta: Value)
    requires meta.Obj? ==> forall k :: k in OptionalMetaKeys && k in meta.fields ==> !BlankMeta(meta.fields[k])
    ensures DropBlankMeta(meta) == meta
  {
    if meta.Obj? {
      assert DropBlankMeta(meta).fields == meta.fields;
    }
  }

  /** `geometry` without a blank hull radius is left as it is. */
  lemma RadiusSettled(geometry: Value)
    requires geometry.Obj? && "hull_radius_m" in geometry.fields ==> !BlankRadius(geometry.fields["hull_radius_m"])
    ensures DropBlankRadius(geometry) == geometry
  {
  }

  /** A sprite path without backslashes is left as it is. */
  lemma SpritePathSettled(sprite: Option<Value>)
    requires !Nullish(sprite) && (sprite.value.Obj? || sprite.value.Arr?)
    requires sprite.value.Obj? ==>
      && "path" in sprite.value.fields && sprite.value.fields["path"].Str?
      && '\\' !in sprite.value.fields["path"].s
    ensures NormalizeSpritePath(sprite) == Ok(sprite.value)
  {
    if sprite.value.Obj? {
      var s := sprite.value.fields["path"].s;
      ReplaceAbsent(s, '\\', '/');
      assert sprite.value.fields["path" := Str(s)] == sprite.value.fields;
    }
  }

  /** Tags the filter keeps throughout pass it unchanged. */
  lemma TagsSettled(tags: seq<Value>)
    requires forall i :: 0 <= i < |tags| ==> KeptTag(tags[i])
    ensures KeepTags(tags) == Ok(tags)
  {
    FilterKeepsKept(tags, KeptTag);
  }

  /** A filter whose test holds throughout keeps everything. */
  lemma {:induction false} FilterKeepsKept(a: seq<Value>, keep: Value -> bool)
    requires forall i :: 0 <= i < |a| ==> keep(a[i])
    ensures Filter(a, keep) == a
    decreases |a|
  {
    if |a| > 0 {
      var n := |a| - 1;
      FilterKeepsKept(a[..n], keep);
      assert Filter(a, keep) == Filter(a[..n], keep) + [a[n]];
      assert a[..n] + [a[n]] == a;
    }
  }

  /** Replacing a character that does not occur changes nothing. */
  lemma ReplaceAbsent(s: string, from: char, to: char)
    requires from !in s
    ensures ReplaceAll(s, from, to) == s
  {
    var r := ReplaceAll(s, from, to);
    assert |r| == |s|;
    forall i | 0 <= i < |s| ensures r[i] == s[i] {
      assert s[i] != from;
    }
  }

  /** No element occurs twice. */
  predicate Distinct(a: seq<Value>) {
    forall i, j :: 0 <= i < j < |a| ==> a[i] != a[j]
  }

  /** `config.tags` when it is an array, `[]` otherwise: what `addTag`
      pushes onto. */
  function TagList(config: Config): seq<Value> {
    if "tags" in config && config["tags"].Arr? then config["tags"].elems else []
  }

  /** `addTag()` with the text of the tag input: the trimmed text is
      appended unless it is blank or already a tag; a `tags` field that is
      not an array is replaced by a fresh one first. */
  function AddTag(config: Config, input: string): (r: Config)
    ensures Trim(input) == "" ==> r == config
    ensures Trim(input) != "" ==> r == PushTag(config, Str(Trim(input)))
  {
    var raw := Trim(input);
    if raw == "" then config else PushTag(config, Str(raw))
  }

  /** The array step of `addTag`: `tags.push(tag)` unless `tags.includes(tag)`. */
  function PushTag(config: Config, tag: Value): (r: Config)
    ensures r.Keys == config.Keys + {"tags"} && r["tags"].Arr?
    ensures tag in r["tags"].elems
    ensures TagList(config) <= r["tags"].elems && |r["tags"].elems| <= |TagList(config)| + 1
    ensures forall v :: v in r["tags"].elems ==> v in TagList(config) || v == tag
    ensures Distinct(TagList(config)) ==> Distinct(TagList(r))
    ensures forall k :: k in config && k != "tags" ==> r[k] == config[k]
  {
    var tags := TagList(config);
    config["tags" := Arr(if tag in tags then tags else tags + [tag])]
  }

  /** Adding the same tag twice adds it once. */
  lemma AddTagIdempotent(config: Config, input: string)
    ensures AddTag(AddTag(config, input), input) == AddTag(config, input)
  {
    if Trim(input) != "" {
      PushTagIdempotent(config, Str(Trim(input)));
    }
  }

  /** Pushing a tag the list already holds changes nothing. */
  lemma PushTagIdempotent(config: Config, tag: Value)
    ensures PushTag(PushTag(config, tag), tag) == PushTag(config, tag)
  {
    var once := PushTag(config, tag);
    assert TagList(once) == once["tags"].elems;
    assert once["tags" := Arr(TagList(once))] == once;
  }

  /** The elements other than `x`, in order, each as often as it occurs. */
  function Without(a: seq<Value>, x: Value): (r: seq<Value>)
    ensures x !in r
    ensures forall v :: v in r <==> v in a && v != x
    ensures forall v :: multiset(r)[v] == if v == x then 0 else multiset(a)[v]
    ensures |r| <= |a|
    ensures x !in a ==> r == a
    decreases |a|
  {
    if |a| == 0 then []
    else if a[|a| - 1] == x then
      assert a == a[..|a| - 1] + [a[|a| - 1]];
      Without(a[..|a| - 1], x)
    else
      assert a == a[..|a| - 1] + [a[|a| - 1]];
      Without(a[..|a| - 1], x) + [a[|a| - 1]]
  }

  /** `filter((item) => item !== tag)` on strings: dropping `x` is the
      filter whose test is "differs from `x`", so it keeps the order of
      the list as `Filter` does. */
  lemma {:induction false} WithoutIsFilter(a: seq<Value>, x: Value)
    ensures Without(a, x) == Filter(a, v => v != x)
    decreases |a|
  {
    if |a| > 0 {
      WithoutIsFilter(a[..|a| - 1], x);
    }
  }

  /** `removeTag(tag)` for a tag shown in the list: `tags || []` filtered
      by `item !== tag`; a truthy `tags` that is not an array has no
      `filter` to call. */
  function RemoveTag(config: Config, tag: string): (r: Result<Config>)
    ensures r.Threw? <==> !Or(Field(config, "tags"), Arr([])).Arr?
    ensures r.Ok? ==> r.value.Keys == config.Keys + {"tags"} && r.value["tags"].Arr?
    ensures r.Ok? ==> forall v :: v in r.value["tags"].elems <==> v in Or(Field(config, "tags"), Arr([])).elems && v != Str(tag)
    ensures r.Ok? ==>
      var before := Or(Field(config, "tags"), Arr([])).elems;
      forall v :: multiset(r.value["tags"].elems)[v] == if v == Str(tag) then 0 else multiset(before)[v]
    ensures r.Ok? ==> r.value["tags"].elems == Filter(Or(Field(config, "tags"), Arr([])).elems, v => v != Str(tag))
    ensures r.Ok? ==> forall k :: k in config && k != "tags" ==> r.value[k] == config[k]
  {
    match Or(Field(config, "tags"), Arr([]))
    case Arr(a) =>
      WithoutIsFilter(a, Str(tag));
      FilterCounts(a, v => v != Str(tag));
      Ok(config["tags" := Arr(Without(a, Str(tag)))])
    case _ => Threw
  }

  /** Removing a tag that was just added restores the document, when the
      tag list was an array that did not hold it. */
  lemma RemoveUndoesAdd(config: Config, input: string)
    requires "tags" in config && config["tags"].Arr?
    requires Trim(input) != "" && Str(Trim(input)) !in config["tags"].elems
    ensures RemoveTag(AddTag(config, input), Trim(input)) == Ok(config)
  {
    RemoveUndoesPush(config, Trim(input));
  }

  /** The array step of the round trip, with the tag text held abstract. */
  lemma RemoveUndoesPush(config: Config, tag: string)
    requires "tags" in config && config["tags"].Arr? && Str(tag) !in config["tags"].elems
    ensures RemoveTag(PushTag(config, Str(tag)), tag) == Ok(config)
  {
    var x := Str(tag);
    var a := config["tags"].elems;
    var added := PushTag(config, x);
    assert added == config["tags" := Arr(a + [x])];
    assert Or(Field(added, "tags"), Arr([])) == Arr(a + [x]);
    WithoutLast(a, x);
    assert RemoveTag(added, tag) == Ok(added["tags" := Arr(a)]);
    assert added["tags" := Arr(a)] == config;
  }

  /** Dropping `x` from a list that only gains it at the end gives the list
      back. */
  lemma WithoutLast(a: seq<Value>, x: Value)
    requires x !in a
    ensures Without(a + [x], x) == a
  {
    assert (a + [x])[..|a|] == a;
  }
}

=== FILE: sprites.dfy ===
/** Where the editor looks for a sprite: `joinPath`, the ordered candidate
    list of `resolveSpriteCandidates`, first-success loading over that list,
    the preferred sprite path for a picked file, and the directory hint kept
    for a remotely loaded document. URL resolution and URI decoding are the
    platform's. */
module Sprites {
  import opened Strings
  import opened Js
  import opened Paths

  /** The base `joinPath` resolves relative paths against. */
  const EditorOrigin: string := "http://editor.local/"

  /** The leading run of ASCII letters of `s`. */
  function LetterRun(s: string): (n: nat)
    ensures n <= |s|
    ensures forall i :: 0 <= i < n ==> IsAsciiLetter(s[i])
    ensures n < |s| ==> !IsAsciiLetter(s[n])
    decreases |s|
  {
    if |s| > 0 && IsAsciiLetter(s[0]) then 1 + LetterRun(s[1..]) else 0
  }

  /** `/^(?:[a-z]+:|\/\/)/i`: a URL scheme or a protocol-relative start. */
  predicate HasScheme(s: string) {
    var n := LetterRun(s);
    (n >= 1 && n < |s| && s[n] == ':') || StartsWith(s, "//")
  }

  /** `/^(data:|https?:|\/\/)/i`: a path the browser can load as it is. */
  predicate IsDirectUrl(s: string) {
    StartsWithIgnoreCase(s, "data:") || StartsWithIgnoreCase(s, "http:")
    || StartsWithIgnoreCase(s, "https:") || StartsWith(s, "//")
  }

  predicate EndsWithSlash(s: string) {
    |s| > 0 && s[|s| - 1] == '/'
  }

  /** Neither part doubles a slash, the base is not empty and ends in no
      slash, and the addition starts with none: the join needs no collapsing. */
  predicate JoinsCleanly(base: string, addition: string) {
    base != "" && !EndsWithSlash(base) && NoDoubleSlash(base) && NoDoubleSlash(addition)
    && !(|addition| > 0 && addition[0] == '/')
  }

  /** The `catch` branch of `joinPath`: plain concatenation with one `/`
      between the parts and every run of slashes collapsed. */
  function JoinFallback(base: string, addition: string): (r: string)
    ensures NoDoubleSlash(r)
    ensures WithoutChar(r, '/') == WithoutChar(base, '/') + WithoutChar(addition, '/')
    ensures ('/' in r) <==> base != "" || '/' in addition
    ensures JoinsCleanly(base, addition) ==> r == base + "/" + addition
  {
    var prefix := if EndsWithSlash(base) || base == "" then base else base + "/";
    JoinSeam(base, addition, prefix);
    CollapseSlashes(prefix + addition)
  }

  /** What the fallback join collapses: the base, a `/` unless the base is
      empty or already ends in one, and the addition. */
  lemma JoinSeam(base: string, addition: string, prefix: string)
    requires prefix == if EndsWithSlash(base) || base == "" then base else base + "/"
    ensures WithoutChar(prefix + addition, '/') == WithoutChar(base, '/') + WithoutChar(addition, '/')
    ensures ('/' in prefix + addition) <==> base != "" || '/' in addition
    ensures JoinsCleanly(base, addition) ==> NoDoubleSlash(base + "/" + addition)
  {
    WithoutCharAppend(prefix, addition, '/');
    if prefix != base {
      WithoutCharAppend(base, "/", '/');
      assert WithoutChar("/", '/') == "";
      assert prefix[|prefix| - 1] == '/';
    } else if base != "" {
      assert base[|base| - 1] == '/';
    }
    assert '/' in prefix + addition <==> '/' in prefix || '/' in addition;
    if JoinsCleanly(base, addition) {
      NoDoubleSlashJoin(base, addition);
    }
  }

  /** Joining two parts with one `/` between them doubles no slash when
      neither part has a doubled slash nor a slash at the seam. */
  lemma NoDoubleSlashJoin(base: string, addition: string)
    requires base != "" && !EndsWithSlash(base) && NoDoubleSlash(base) && NoDoubleSlash(addition)
    requires !(|addition| > 0 && addition[0] == '/')
    ensures NoDoubleSlash(base + "/" + addition)
  {
    var t := base + "/" + addition;
    forall i | 0 <= i < |t| - 1
      ensures !(t[i] == '/' && t[i + 1] == '/')
    {
      if i < |base| - 1 {
        assert t[i] == base[i] && t[i + 1] == base[i + 1];
      } else if i == |base| - 1 {
        assert t[i] == base[|base| - 1];
      } else if i == |base| {
        assert t[i + 1] == addition[0];
      } else {
        assert t[i] == addition[i - |base| - 1] && t[i + 1] == addition[i - |base|];
      }
    }
  }

  /** `joinPath(base, addition)`. */
  function JoinPath(p: Platform, base: string, addition: string): (r: string)
    ensures addition == "" ==> r == base
    ensures addition != "" && HasScheme(addition) ==> r == addition
  {
    if addition == "" then base
    else if HasScheme(addition) then addition
    else
      var nb := ReplaceAll(base, '\\', '/');
      var na := ReplaceAll(addition, '\\', '/');
      var root := p.resolveUrl(if nb == "" then "." else nb, EditorOrigin);
      var resolved := if root.Some? then p.resolveUrl(na, root.value) else None;
      if resolved.None? then JoinFallback(nb, na)
      else
        var href := resolved.value;
        if StartsWith(href, EditorOrigin) then
          var decoded := p.decodeUri(href[|EditorOrigin|..]);
          if decoded.Some? then decoded.value else JoinFallback(nb, na)
        else href
  }

  /** Where the document came from, as far as sprite lookup cares: a remote
      URL with its directory URL, or anything else (a local file, a file
      handle, nothing). */
  datatype ConfigSource = Remote(url: string, dirUrl: string) | NotRemote

  /** The `add` helper folded over a list of attempts: keep the non-empty
      results, each the first time it appears. */
  function Collect(attempts: seq<Option<string>>): (cs: seq<string>)
    ensures forall i :: 0 <= i < |cs| ==> cs[i] != ""
    ensures forall i, j :: 0 <= i < j < |cs| ==> cs[i] != cs[j]
    ensures forall s :: s in cs <==> s != "" && Some(s) in attempts
    decreases |attempts|
  {
    if |attempts| == 0 then []
    else
      var init := attempts[..|attempts| - 1];
      var last := attempts[|attempts| - 1];
      var prev := Collect(init);
      assert attempts == init + [last];
      if last.Some? && last.value != "" && last.value !in prev then prev + [last.value] else prev
  }

  /** The first attempt that yields a non-empty string comes first. */
  lemma {:induction false} CollectFirst(attempts: seq<Option<string>>, s: string)
    requires |attempts| >= 1 && attempts[0] == Some(s)
    ensures s != "" ==> |Collect(attempts)| >= 1 && Collect(attempts)[0] == s
    decreases |attempts|
  {
    if |attempts| > 1 {
      var init := attempts[..|attempts| - 1];
      CollectFirst(init, s);
    }
  }

  /** Collecting a prefix of the attempts gives a prefix of the candidates:
      a later attempt only ever appends. */
  lemma {:induction false} CollectPrefix(attempts: seq<Option<string>>, k: nat)
    requires k <= |attempts|
    ensures Collect(attempts[..k]) <= Collect(attempts)
    decreases |attempts| - k
  {
    if k < |attempts| {
      var init := attempts[..|attempts| - 1];
      assert attempts[..k] == init[..k];
      CollectPrefix(init, k);
    } else {
      assert attempts[..k] == attempts;
    }
  }

  /** The candidates keep the order of first offers: a value offered before
      the first offer of another value comes before it. */
  lemma CollectKeepsOrder(attempts: seq<Option<string>>, i: nat, j: nat)
    requires i < j < |attempts|
    requires attempts[i].Some? && attempts[i].value != ""
    requires attempts[j].Some? && attempts[j].value != "" && attempts[j] !in attempts[..j]
    ensures exists a, b ::
      0 <= a < b < |Collect(attempts)| && Collect(attempts)[a] == attempts[i].value && Collect(attempts)[b] == attempts[j].value
  {
    var x := attempts[i].value;
    var y := attempts[j].value;
    var prev := Collect(attempts[..j]);
    assert attempts[..j][i] == attempts[i];
    assert x in prev;
    assert attempts[..j + 1][..j] == attempts[..j];
    assert Collect(attempts[..j + 1]) == prev + [y];
    CollectPrefix(attempts, j + 1);
    var a :| 0 <= a < |prev| && prev[a] == x;
    var cs := Collect(attempts);
    assert cs[a] == x && cs[|prev|] == y;
  }

  /** The attempts of `resolveSpriteCandidates`, in order; `None` is a
      `new URL` that threw. */
  function CandidateAttempts(p: Platform, source: ConfigSource, dirHint: Option<string>, spritePath: string): seq<Option<string>> {
    var fileName := LastSegment(spritePath, '/');
    var remote :=
      if source.Remote? then
        [p.resolveUrl(spritePath, source.url)]
        + (if source.dirUrl != "" then
             [p.resolveUrl(spritePath, source.dirUrl)]
             + (if fileName != "" then [p.resolveUrl(fileName, source.dirUrl)] else [])
           else [])
      else [];
    var local :=
      if dirHint.Some? && dirHint.value != "" then
        [Some(JoinPath(p, dirHint.value, spritePath))]
        + (if fileName != "" && fileName != spritePath then [Some(JoinPath(p, dirHint.value, fileName))] else [])
      else [];
    [Some(spritePath)] + remote + local + [p.resolveUrl(spritePath, p.pageUrl)]
  }

  /** `resolveSpriteCandidates(spritePath)`: a direct URL is the only
      candidate; otherwise the raw path comes first, followed by its
      resolutions against the remote document, the directory hint and the
      page, without empties or repeats. */
  function ResolveSpriteCandidates(p: Platform, source: ConfigSource, dirHint: Option<string>, spritePath: string): (cs: seq<string>)
    ensures IsDirectUrl(spritePath) ==> cs == [spritePath]
    ensures spritePath != "" ==> |cs| >= 1 && cs[0] == spritePath
    ensures forall i :: 0 <= i < |cs| ==> cs[i] != ""
    ensures forall i, j :: 0 <= i < j < |cs| ==> cs[i] != cs[j]
  {
    if IsDirectUrl(spritePath) then
      assert spritePath != "" by { assert |spritePath| >= 2; }
      assert Collect([Some(spritePath)]) == [spritePath] by {
        assert [Some(spritePath)][..0] == [];
      }
      Collect([Some(spritePath)])
    else
      var attempts := CandidateAttempts(p, source, dirHint, spritePath);
      CollectFirst(attempts, spritePath);
      Collect(attempts)
  }

  /** Every attempt that produced a path is a candidate, and nothing else is. */
  lemma CandidatesAreTheAttempts(p: Platform, source: ConfigSource, dirHint: Option<string>, spritePath: string, s: string)
    requires !IsDirectUrl(spritePath)
    ensures s in ResolveSpriteCandidates(p, source, dirHint, spritePath)
      <==> s != "" && Some(s) in CandidateAttempts(p, source, dirHint, spritePath)
  {
  }

  /** The natural size of a loaded image. */
  datatype Image = Image(naturalWidth: nat, naturalHeight: nat)

  /** The outcome of `loadSpriteFromCandidates`: the index and image of the
      first candidate that loaded, or nothing when every one failed. */
  datatype LoadResult = Loaded(index: nat, image: Image) | NotLoaded

  /** `loadSpriteFromCandidates(candidates, index, ...)` with the browser's
      image loading as the oracle `load`: try each candidate in turn, stop
      at the first that loads. */
  function LoadFrom(candidates: seq<string>, index: nat, load: string -> Option<Image>): (r: LoadResult)
    ensures r.Loaded? ==> index <= r.index < |candidates| && load(candidates[r.index]) == Some(r.image)
    ensures r.Loaded? ==> forall j :: index <= j < r.index ==> load(candidates[j]).None?
    ensures r.NotLoaded? <==> forall j :: index <= j < |candidates| ==> load(candidates[j]).None?
    decreases |candidates| - index
  {
    if index >= |candidates| then NotLoaded
    else
      var image := load(candidates[index]);
      if image.Some? then Loaded(index, image.value) else LoadFrom(candidates, index + 1, load)
  }

  /** The `onload` handler's update of the document: each missing (falsy)
      sprite dimension takes the image's natural one. Reading
      `config.sprite.size_px.w` throws when `sprite` or `size_px` is null or
      missing. */
  function FillSpriteSize(config: map<string, Value>, image: Image): (r: Result<map<string, Value>>)
  {
    match SizeDim(config, "w")
    case Threw => Threw
    case Ok(w) =>
      var afterW := FillDim(config, "sprite.size_px.w", w, image.naturalWidth);
      match SizeDim(afterW, "h")
      case Threw => Threw
      case Ok(h) => Ok(FillDim(afterW, "sprite.size_px.h", h, image.naturalHeight))
  }

  /** `if (!current) setValueAtPath(config, path, natural)`. */
  function FillDim(config: map<string, Value>, path: string, current: Option<Value>, natural: nat): map<string, Value> {
    if Truthy(current) then config else SetPath(config, path, Num(natural as real))
  }

  /** `config.sprite.size_px.<dim>`, read without optional chaining. */
  function SizeDim(config: map<string, Value>, dim: string): Result<Option<Value>> {
    match SizeNode(config)
    case Threw => Threw
    case Ok(size) => Strict(size, dim)
  }

  /** The keys of `sprite.size_px.<dim>`. */
  function SizeKeys(dim: string): seq<string> {
    ["sprite", "size_px", dim]
  }

  /** After the handler the dimension is set: it was truthy already, or it
      now holds the image's natural size. */
  predicate Filled(config: map<string, Value>, dim: string, natural: nat) {
    var d := Walk(Some(Obj(config)), SizeKeys(dim));
    Truthy(d) || d == Some(Num(natural as real))
  }

  /** `config.sprite.size_px` cannot be read as an object holder: reading it
      throws, or it is null or missing. */
  predicate SizeUnreadable(config: map<string, Value>) {
    SizeNode(config).Threw? || Nullish(SizeNode(config).value)
  }

  /** The `onload` update throws exactly when `config.sprite.size_px` is
      null or missing or cannot be read; otherwise both dimensions end up
      filled, and a document whose dimensions are both set is left alone. */
  lemma FillSpriteSizeFills(config: map<string, Value>, image: Image)
    ensures FillSpriteSize(config, image).Threw? <==> SizeUnreadable(config)
    ensures FillSpriteSize(config, image).Ok? ==>
      Filled(FillSpriteSize(config, image).value, "w", image.naturalWidth)
      && Filled(FillSpriteSize(config, image).value, "h", image.naturalHeight)
    ensures Truthy(Walk(Some(Obj(config)), SizeKeys("w"))) && Truthy(Walk(Some(Obj(config)), SizeKeys("h")))
      ==> FillSpriteSize(config, image) == Ok(config)
  {
    SizeNodeReads(config, "w");
    SizeNodeReads(config, "h");
    if !SizeUnreadable(config) {
      FillWidth(config, image.naturalWidth);
      var afterW := FillDim(config, "sprite.size_px.w", Member(SizeNode(config).value, "w"), image.naturalWidth);
      FillHeight(afterW, image.naturalWidth, image.naturalHeight);
    }
  }

  /** Filling the width leaves the width filled, through an object chain. */
  lemma FillWidth(config: map<string, Value>, natural: nat)
    requires !SizeUnreadable(config)
    ensures var afterW := FillDim(config, "sprite.size_px.w", Member(SizeNode(config).value, "w"), natural);
      PrefixesAreObjects(afterW, SizeKeys("w")) && Filled(afterW, "w", natural) && !SizeUnreadable(afterW)
  {
    SizePaths();
    SizeNodeReads(config, "w");
    var afterW := FillDim(config, "sprite.size_px.w", Member(SizeNode(config).value, "w"), natural);
    if Truthy(Member(SizeNode(config).value, "w")) {
      FoundThroughObjects(config, SizeKeys("w"));
    }
    SizeNodeReads(afterW, "w");
  }

  /** Filling the height of a document whose width is filled through an
      object chain leaves both filled. */
  lemma FillHeight(afterW: map<string, Value>, naturalW: nat, naturalH: nat)
    requires PrefixesAreObjects(afterW, SizeKeys("w")) && Filled(afterW, "w", naturalW) && !SizeUnreadable(afterW)
    ensures var r := FillDim(afterW, "sprite.size_px.h", Member(SizeNode(afterW).value, "h"), naturalH);
      Filled(r, "w", naturalW) && Filled(r, "h", naturalH)
  {
    SizePaths();
    SizeNodeReads(afterW, "h");
    if !Truthy(Member(SizeNode(afterW).value, "h")) {
      SetInFrame(afterW, SizeKeys("h"), SizeKeys("w"), Num(naturalH as real));
    }
  }

  /** The two size paths split into their keys, which are plain and part
      ways. */
  lemma SizePaths()
    ensures Keys("sprite.size_px.w") == SizeKeys("w") && Keys("sprite.size_px.h") == SizeKeys("h")
    ensures PlainKey("size_px") && PlainKey("w") && PlainKey("h")
    ensures Diverges(SizeKeys("h"), SizeKeys("w"))
  {
    SizePathSplits("w");
    SizePathSplits("h");
    assert "sprite" + ['.'] + "size_px" + ['.'] + "w" == "sprite.size_px.w";
    assert "sprite" + ['.'] + "size_px" + ['.'] + "h" == "sprite.size_px.h";
    assert SizeKeys("h")[1..][1..] == ["h"] && SizeKeys("w")[1..][1..] == ["w"];
  }

  /** The dotted path of a size dimension splits back into its keys. */
  lemma SizePathSplits(dim: string)
    requires '.' !in dim
    ensures Keys("sprite" + ['.'] + "size_px" + ['.'] + dim) == SizeKeys(dim)
  {
    assert '.' !in "sprite" && '.' !in "size_px";
    KeysOfPath(SizeKeys(dim));
    JoinThree("sprite", "size_px", dim, '.');
  }

  /** `config.sprite.size_px.<dim>` is the walk along its keys; the walk
      finds a truthy value only through a readable `size_px`, and an object
      chain makes `size_px` readable. */
  lemma SizeNodeReads(config: map<string, Value>, dim: string)
    ensures SizeNode(config).Ok? ==> Member(SizeNode(config).value, dim) == Walk(Some(Obj(config)), SizeKeys(dim))
    ensures Truthy(Walk(Some(Obj(config)), SizeKeys(dim))) ==> !SizeUnreadable(config)
    ensures PrefixesAreObjects(config, SizeKeys(dim)) ==> SizeNode(config).Ok? && IsPlainObjectOpt(SizeNode(config).value)
  {
    var ks := SizeKeys(dim);
    assert ks[1..] == ["size_px", dim] && ks[1..][1..] == [dim] && ks[1..][1..][1..] == [];
    var sprite := Member(Some(Obj(config)), "sprite");
    assert Walk(Some(Obj(config)), ks) == Walk(sprite, ["size_px", dim]);
    assert Walk(sprite, ["size_px", dim]) == Walk(Member(sprite, "size_px"), [dim]);
    assert Walk(Member(sprite, "size_px"), [dim]) == Member(Member(sprite, "size_px"), dim);
    if PrefixesAreObjects(config, ks) {
      assert PrefixesAreObjects(config["sprite"].fields, ks[1..]);
      assert sprite == Some(config["sprite"]);
      assert Member(sprite, "size_px") == Some(config["sprite"].fields["size_px"]);
    }
  }

  /** `config.sprite.size_px`, read without optional chaining. */
  function SizeNode(config: map<string, Value>): (r: Result<Option<Value>>)
  {
    match Strict(Some(Obj(config)), "sprite")
    case Threw => Threw
    case Ok(sprite) => Strict(sprite, "size_px")
  }

  /** `(path || '').replace(/\\/g, '/')` followed by the directory part of
      `setRemoteConfigSource`: everything up to and including the last `/`,
      or no hint when there is no `/`. */
  function DirHint(path: string): (hint: Option<string>)
    ensures hint.Some? ==> EndsWithSlash(hint.value)
    ensures hint.None? <==> '/' !in ReplaceAll(path, '\\', '/')
    ensures hint.Some? ==> hint.value + LastSegment(ReplaceAll(path, '\\', '/'), '/') == ReplaceAll(path, '\\', '/')
  {
    var normalized := ReplaceAll(path, '\\', '/');
    if '/' in normalized then
      var i := LastIndexOf(normalized, '/');
      LastSegmentIsSuffix(normalized, '/');
      assert normalized[..i + 1] + normalized[i + 1..] == normalized;
      Some(normalized[..i + 1])
    else None
  }

  /** `s.replace(/\s+/g, sep)`: every run of white space becomes one `sep`.
      A string without white space is returned as it is; otherwise, taking
      the separators back out leaves the characters of `s` that are not
      white space, in order. */
  function ReplaceSpaceRuns(s: string, sep: char): (r: string)
    ensures forall i :: 0 <= i < |r| ==> !IsJsSpace(r[i]) || IsJsSpace(sep)
    ensures (forall i :: 0 <= i < |s| ==> !IsJsSpace(s[i])) ==> r == s
    ensures sep !in s && !IsJsSpace(sep) ==> WithoutChar(r, sep) == WithoutSpaces(s)
    decreases |s|
  {
    if |s| == 0 then ""
    else if IsJsSpace(s[0]) then
      var rest := ReplaceSpaceRuns(DropSpaces(s[1..]), sep);
      assert ([sep] + rest)[1..] == rest;
      [sep] + rest
    else
      var rest := ReplaceSpaceRuns(s[1..], sep);
      assert ([s[0]] + rest)[1..] == rest;
      [s[0]] + rest
  }

  /** The leading white space of `s` removed: a suffix of `s` that keeps
      every character that is not white space. */
  function DropSpaces(s: string): (r: string)
    ensures |r| <= |s| && r == s[|s| - |r|..]
    ensures |r| > 0 ==> !IsJsSpace(r[0])
    ensures WithoutSpaces(r) == WithoutSpaces(s)
    decreases |s|
  {
    if |s| > 0 && IsJsSpace(s[0]) then DropSpaces(s[1..]) else s
  }

  /** The characters of `s` that are not white space, in order. */
  function WithoutSpaces(s: string): string
    decreases |s|
  {
    if |s| == 0 then "" else (if IsJsSpace(s[0]) then "" else [s[0]]) + WithoutSpaces(s[1..])
  }

  /** The index of the last element of `a` equal to `x` (SameValueZero on
      strings is plain equality). */
  function LastIndexOfValue(a: seq<Value>, x: Value): (i: int)
    ensures -1 <= i < |a|
    ensures i >= 0 ==> a[i] == x
    ensures i == -1 <==> x !in a
    ensures forall j :: i < j < |a| ==> a[j] != x
    decreases |a|
  {
    if |a| == 0 then -1
    else if a[|a| - 1] == x then |a| - 1
    else LastIndexOfValue(a[..|a| - 1], x)
  }

  /** A truthy previous path holding a `/`, whose folder
      `inferPreferredSpritePath` keeps: a string, or an array with a `"/"`
      element (arrays answer `includes`, `lastIndexOf` and `slice` too). */
  predicate HasFolder(previous: Option<Value>) {
    Truthy(previous)
    && ((previous.value.Str? && '/' in previous.value.s) || (previous.value.Arr? && Str("/") in previous.value.elems))
  }

  /** A previous path that `includes` cannot be called on: truthy, but
      neither a string nor an array. */
  predicate Unsearchable(previous: Option<Value>) {
    Truthy(previous) && !previous.value.Str? && !previous.value.Arr?
  }

  /** `(this.config.meta.class || 'ship').replace(/\s+/g, '_')`: throws when
      `meta` is null or missing, or when the class is truthy but not a
      string. */
  function ShipFolder(config: map<string, Value>): (r: Result<string>)
    ensures r.Threw? <==>
      Nullish(Member(Some(Obj(config)), "meta")) || !Or(Member(Member(Some(Obj(config)), "meta"), "class"), Str("ship")).Str?
    ensures r.Ok? ==> forall i :: 0 <= i < |r.value| ==> !IsJsSpace(r.value[i])
    ensures var cls := Member(Member(Some(Obj(config)), "meta"), "class");
      r.Ok? && !Truthy(cls) ==> r.value == "ship"
    ensures var cls := Member(Member(Some(Obj(config)), "meta"), "class");
      r.Ok? && Truthy(cls) ==> cls.value.Str? && r.value == ReplaceSpaceRuns(cls.value.s, '_')
  {
    match Strict(Member(Some(Obj(config)), "meta"), "class")
    case Threw => Threw
    case Ok(cls) => FolderName(cls)
  }

  /** `(cls || 'ship').replace(/\s+/g, '_')` once the class is read. */
  function FolderName(cls: Option<Value>): (r: Result<string>)
    ensures r.Threw? <==> !Or(cls, Str("ship")).Str?
    ensures r.Ok? ==> forall i :: 0 <= i < |r.value| ==> !IsJsSpace(r.value[i])
    ensures r.Ok? && !Truthy(cls) ==> r.value == "ship"
    ensures r.Ok? && Truthy(cls) ==> cls.value.Str? && r.value == ReplaceSpaceRuns(cls.value.s, '_')
  {
    ShipIsPlain();
    var name := Or(cls, Str("ship"));
    if name.Str? then Ok(ReplaceSpaceRuns(name.s, '_')) else Threw
  }

  /** The default folder `ship` holds no white space. */
  lemma ShipIsPlain()
    ensures ReplaceSpaceRuns("ship", '_') == "ship"
  {
    assert forall i :: 0 <= i < |"ship"| ==> !IsJsSpace("ship"[i]);
  }

  /** `inferPreferredSpritePath(filename, previousPath)`: keep the folder of
      a previous path that has one, else join the file name onto the
      directory hint, else file it under `ships/<class>/`. */
  function InferPreferredSpritePath(p: Platform, config: map<string, Value>, dirHint: Option<string>,
                                    filename: string, previous: Option<Value>): (r: Result<Value>)
    ensures filename == "" ==> r == Ok(Or(previous, Str("")))
    ensures filename != "" && Unsearchable(previous) ==> r.Threw?
    ensures filename != "" && HasFolder(previous) && previous.value.Str? ==>
      r == Ok(Str(DirPart(previous.value.s) + SafeName(filename)))
      && LastSegment(r.value.s, '/') == SafeName(filename)
    ensures filename != "" && HasFolder(previous) && previous.value.Arr? ==>
      r == Ok(Str(ToStr(p, Arr(previous.value.elems[..LastIndexOfValue(previous.value.elems, Str("/")) + 1])) + SafeName(filename)))
    ensures filename != "" && !Unsearchable(previous) && !HasFolder(previous) && dirHint.Some? && dirHint.value != "" ==>
      r == Ok(Str(JoinPath(p, dirHint.value, SafeName(filename))))
    ensures filename != "" && !Unsearchable(previous) && !HasFolder(previous) && !(dirHint.Some? && dirHint.value != "") ==>
      (r.Threw? <==> ShipFolder(config).Threw?)
      && (r.Ok? ==> r == Ok(Str("ships/" + ShipFolder(config).value + "/" + SafeName(filename)))
                    && LastSegment(r.value.s, '/') == SafeName(filename))
  {
    if filename == "" then Ok(Or(previous, Str("")))
    else
      var safeName := SafeName(filename);
      if Unsearchable(previous) then Threw
      else if HasFolder(previous) && previous.value.Str? then
        var dir := DirPart(previous.value.s);
        LastSegmentAfterSlash(dir, safeName);
        Ok(Str(dir + safeName))
      else if HasFolder(previous) then
        var a := previous.value.elems;
        Ok(Str(ToStr(p, Arr(a[..LastIndexOfValue(a, Str("/")) + 1])) + safeName))
      else if dirHint.Some? && dirHint.value != "" then
        Ok(Str(JoinPath(p, dirHint.value, safeName)))
      else
        match ShipFolder(config)
        case Threw => Threw
        case Ok(folder) =>
          LastSegmentAfterSlash("ships/" + folder + "/", safeName);
          Ok(Str("ships/" + folder + "/" + safeName))
  }

  /** `filename.replace(/\\/g, '/').split('/').pop()`. */
  function SafeName(filename: string): (r: string)
    ensures '/' !in r
  {
    LastSegment(ReplaceAll(filename, '\\', '/'), '/')
  }

  /** A name with neither kind of slash is already safe. */
  lemma SafeNameOfPlain(name: string)
    requires '/' !in name && '\\' !in name
    ensures SafeName(name) == name
  {
    ReplaceAllAbsent(name, '\\', '/');
    LastSegmentWhole(name, '/');
  }

  /** A path up to and including its last `/`. */
  function DirPart(s: string): (r: string)
    requires '/' in s
    ensures EndsWithSlash(r) && r <= s
    ensures r + LastSegment(s, '/') == s
  {
    LastSegmentIsSuffix(s, '/');
    s[..LastIndexOf(s, '/') + 1]
  }

  lemma LastSegmentAfterSlash(dir: string, name: string)
    requires EndsWithSlash(dir) && '/' !in name
    ensures LastSegment(dir + name, '/') == name
  {
    var s := dir + name;
    LastSegmentIsSuffix(s, '/');
    var i := LastIndexOf(s, '/');
    assert s[|dir| - 1] == '/';
    assert i >= |dir| - 1;
    assert s[|dir|..] == name;
  }
}

=== FILE: strings.dfy ===
/** String operations the editor relies on, written over `seq<char>`:
    `split`/`join` on one separator character, `lastIndexOf`, the global
    single-character `replace`, ECMAScript `trim`, ASCII lower-casing, prefix
    tests and the collapsing of runs of slashes. */
module Strings {

  /** `s.split(sep)` for a one-character separator: the pieces between the
      separators, in order; always at least one piece. */
  function Split(s: string, sep: char): (parts: seq<string>)
    ensures |parts| >= 1
    ensures forall i :: 0 <= i < |parts| ==> sep !in parts[i]
    decreases |s|
  {
    if |s| == 0 then [""]
    else
      var init := Split(s[..|s| - 1], sep);
      var c := s[|s| - 1];
      if c == sep then init + [""]
      else init[..|init| - 1] + [init[|init| - 1] + [c]]
  }

  /** `parts.join(sep)`; the inverse of `Split` (see `JoinSplit`, `SplitJoin`). */
  function Join(parts: seq<string>, sep: char): string
    requires |parts| >= 1
    decreases |parts|
  {
    if |parts| == 1 then parts[0]
    else Join(parts[..|parts| - 1], sep) + [sep] + parts[|parts| - 1]
  }

  lemma {:induction false} JoinSplit(s: string, sep: char)
    ensures Join(Split(s, sep), sep) == s
    decreases |s|
  {
    if |s| > 0 {
      var s' := s[..|s| - 1];
      var c := s[|s| - 1];
      JoinSplit(s', sep);
      assert s == s' + [c];
      if c == sep {
        JoinNewPiece(Split(s', sep), sep);
      } else {
        JoinExtendLast(Split(s', sep), sep, c);
      }
    }
  }

  /** Joining three pieces puts the separator between each pair. */
  lemma JoinThree(a: string, b: string, c: string, sep: char)
    ensures Join([a, b, c], sep) == a + [sep] + b + [sep] + c
  {
    assert [a, b, c][..2] == [a, b];
    assert Join([a, b, c], sep) == Join([a, b], sep) + [sep] + c;
    assert [a, b][..1] == [a];
    assert Join([a, b], sep) == a + [sep] + b;
  }

  /** Appending an empty piece appends a separator. */
  lemma JoinNewPiece(parts: seq<string>, sep: char)
    requires |parts| >= 1
    ensures Join(parts + [""], sep) == Join(parts, sep) + [sep]
  {
    assert (parts + [""])[..|parts|] == parts;
  }

  /** Extending the last piece extends the joined string. */
  lemma JoinExtendLast(parts: seq<string>, sep: char, c: char)
    requires |parts| >= 1
    ensures Join(parts[..|parts| - 1] + [parts[|parts| - 1] + [c]], sep) == Join(parts, sep) + [c]
  {
    var n := |parts|;
    var ext := parts[..n - 1] + [parts[n - 1] + [c]];
    if n > 1 {
      assert ext[..n - 1] == parts[..n - 1];
    }
  }

  lemma {:induction false} SplitJoin(parts: seq<string>, sep: char)
    requires |parts| >= 1
    requires forall i :: 0 <= i < |parts| ==> sep !in parts[i]
    ensures Split(Join(parts, sep), sep) == parts
    decreases |parts|, |parts[|parts| - 1]|, 1
  {
    var last := parts[|parts| - 1];
    if |last| == 0 {
      if |parts| > 1 {
        SplitJoinEmptyLast(parts, sep);
      }
    } else {
      SplitJoinCharLast(parts, sep);
    }
  }

  lemma {:induction false} SplitJoinEmptyLast(parts: seq<string>, sep: char)
    requires |parts| >= 2 && parts[|parts| - 1] == ""
    requires forall i :: 0 <= i < |parts| ==> sep !in parts[i]
    ensures Split(Join(parts, sep), sep) == parts
    decreases |parts|, 0, 0
  {
    var init := parts[..|parts| - 1];
    SplitJoin(init, sep);
    SplitAfterSep(Join(init, sep), sep);
    assert parts == init + [""];
    assert Join(parts, sep) == Join(init, sep) + [sep] + "";
    assert Join(init, sep) + [sep] + "" == Join(init, sep) + [sep];
  }

  lemma {:induction false} SplitJoinCharLast(parts: seq<string>, sep: char)
    requires |parts| >= 1 && |parts[|parts| - 1]| >= 1
    requires forall i :: 0 <= i < |parts| ==> sep !in parts[i]
    ensures Split(Join(parts, sep), sep) == parts
    decreases |parts|, |parts[|parts| - 1]|, 0
  {
    var n := |parts|;
    var last := parts[n - 1];
    var c := last[|last| - 1];
    assert c != sep by { assert c in last; }
    var parts' := DropLastChar(parts, sep);
    var joined := Join(parts', sep);
    SplitJoin(parts', sep);
    JoinSnoc(parts, c, sep);
    assert Join(parts, sep) == joined + [c];
    SplitAfterChar(joined, c, sep);
    RestoreLastChar(parts, parts', c);
  }

  /** Putting the dropped character back restores the pieces. */
  lemma RestoreLastChar(parts: seq<string>, parts': seq<string>, c: char)
    requires |parts| >= 1 && |parts[|parts| - 1]| >= 1 && parts[|parts| - 1][|parts[|parts| - 1]| - 1] == c
    requires parts' == parts[..|parts| - 1] + [parts[|parts| - 1][..|parts[|parts| - 1]| - 1]]
    ensures parts'[..|parts'| - 1] + [parts'[|parts'| - 1] + [c]] == parts
  {
    var n := |parts|;
    var last := parts[n - 1];
    assert last[..|last| - 1] + [c] == last;
    assert parts'[..n - 1] == parts[..n - 1];
  }

  /** `parts` with the last character of its last piece removed. */
  function DropLastChar(parts: seq<string>, sep: char): (r: seq<string>)
    requires |parts| >= 1 && |parts[|parts| - 1]| >= 1
    requires forall i :: 0 <= i < |parts| ==> sep !in parts[i]
    ensures |r| == |parts|
    ensures forall i :: 0 <= i < |r| ==> sep !in r[i]
  {
    var last := parts[|parts| - 1];
    assert forall x :: x in last[..|last| - 1] ==> x in last;
    parts[..|parts| - 1] + [last[..|last| - 1]]
  }

  lemma SplitAfterSep(s: string, sep: char)
    ensures Split(s + [sep], sep) == Split(s, sep) + [""]
  {
    assert (s + [sep])[..|s|] == s;
  }

  lemma SplitAfterChar(s: string, c: char, sep: char)
    requires c != sep
    ensures var init := Split(s, sep);
      Split(s + [c], sep) == init[..|init| - 1] + [init[|init| - 1] + [c]]
  {
    assert (s + [c])[..|s|] == s;
  }

  lemma JoinSnoc(parts: seq<string>, c: char, sep: char)
    requires |parts| >= 1
    requires var last := parts[|parts| - 1]; |last| >= 1 && last[|last| - 1] == c
    ensures var last := parts[|parts| - 1];
      Join(parts, sep) == Join(parts[..|parts| - 1] + [last[..|last| - 1]], sep) + [c]
  {
    var n := |parts|;
    var last := parts[n - 1];
    var parts' := parts[..n - 1] + [last[..|last| - 1]];
    assert last == last[..|last| - 1] + [c];
    if n > 1 {
      assert parts'[..n - 1] == parts[..n - 1];
    }
  }

  /** The last piece of `s.split(sep)`, i.e. `s.split(sep).pop()`. */
  function LastSegment(s: string, sep: char): (r: string)
    ensures sep !in r
  {
    var parts := Split(s, sep);
    parts[|parts| - 1]
  }

  /** `s.lastIndexOf(c)`: the position of the last occurrence, or -1. */
  function LastIndexOf(s: string, c: char): (i: int)
    ensures -1 <= i < |s|
    ensures i >= 0 ==> s[i] == c
    ensures forall j :: i < j < |s| ==> s[j] != c
    ensures i == -1 <==> c !in s
    decreases |s|
  {
    if |s| == 0 then -1
    else if s[|s| - 1] == c then |s| - 1
    else LastIndexOf(s[..|s| - 1], c)
  }

  /** The piece after the last `sep` is the suffix behind `LastIndexOf`. */
  lemma {:induction false} LastSegmentIsSuffix(s: string, sep: char)
    ensures LastSegment(s, sep) == s[LastIndexOf(s, sep) + 1..]
    decreases |s|
  {
    if |s| == 0 {
    } else if s[|s| - 1] == sep {
      var init := Split(s[..|s| - 1], sep);
      assert Split(s, sep) == init + [""];
    } else {
      var s' := s[..|s| - 1];
      var c := s[|s| - 1];
      var init := Split(s', sep);
      LastSegmentIsSuffix(s', sep);
      var k := LastIndexOf(s', sep);
      assert LastIndexOf(s, sep) == k;
      var parts := init[..|init| - 1] + [init[|init| - 1] + [c]];
      assert Split(s, sep) == parts;
      assert LastSegment(s, sep) == init[|init| - 1] + [c];
      assert init[|init| - 1] == s'[k + 1..];
      assert s'[k + 1..] + [c] == s[k + 1..];
    }
  }

  /** A string without the separator is its own last piece. */
  lemma LastSegmentWhole(s: string, sep: char)
    requires sep !in s
    ensures LastSegment(s, sep) == s
  {
    LastSegmentIsSuffix(s, sep);
  }

  /** `s.replace(/<from>/g, to)` for a single character. */
  function ReplaceAll(s: string, from: char, to: char): (r: string)
    ensures |r| == |s|
    ensures forall i :: 0 <= i < |s| ==> r[i] == (if s[i] == from then to else s[i])
  {
    if |s| == 0 then "" else [if s[0] == from then to else s[0]] + ReplaceAll(s[1..], from, to)
  }

  /** Replacing a character the string does not hold changes nothing. */
  lemma ReplaceAllAbsent(s: string, from: char, to: char)
    requires from !in s
    ensures ReplaceAll(s, from, to) == s
  {
    assert forall i :: 0 <= i < |s| ==> ReplaceAll(s, from, to)[i] == s[i];
  }

  /** The ECMAScript WhiteSpace and LineTerminator code points that `trim`
      removes (section 12.2 and 12.3 of ECMA-262). */
  predicate IsJsSpace(c: char) {
    || c == ' ' || c == '\t' || c == '\n' || c == '\r' || c == '\U{000B}' || c == '\U{000C}'
    || c == '\U{00A0}' || c == '\U{FEFF}' || c == '\U{1680}'
    || ('\U{2000}' <= c <= '\U{200A}')
    || c == '\U{2028}' || c == '\U{2029}' || c == '\U{202F}' || c == '\U{205F}' || c == '\U{3000}'
  }

  /** The end of the run of white space that starts at `k`. */
  function SpaceRunEnd(s: string, k: nat): (n: nat)
    requires k <= |s|
    ensures k <= n <= |s|
    ensures n < |s| ==> !IsJsSpace(s[n])
    ensures forall i :: k <= i < n ==> IsJsSpace(s[i])
    decreases |s| - k
  {
    if k < |s| && IsJsSpace(s[k]) then SpaceRunEnd(s, k + 1) else k
  }

  /** The start of the run of white space that ends just before `k`. */
  function SpaceRunStart(s: string, k: nat): (n: nat)
    requires k <= |s|
    ensures n <= k
    ensures n > 0 ==> !IsJsSpace(s[n - 1])
    ensures forall i :: n <= i < k ==> IsJsSpace(s[i])
  {
    if k > 0 && IsJsSpace(s[k - 1]) then SpaceRunStart(s, k - 1) else k
  }

  /** `s.trimStart()`. */
  function TrimStart(s: string): (r: string)
    ensures |r| <= |s| && r == s[|s| - |r|..]
    ensures |r| > 0 ==> !IsJsSpace(r[0])
    ensures forall i :: 0 <= i < |s| - |r| ==> IsJsSpace(s[i])
  {
    s[SpaceRunEnd(s, 0)..]
  }

  /** `s.trimEnd()`. */
  function TrimEnd(s: string): (r: string)
    ensures |r| <= |s| && r == s[..|r|]
    ensures |r| > 0 ==> !IsJsSpace(r[|r| - 1])
    ensures forall i :: |r| <= i < |s| ==> IsJsSpace(s[i])
  {
    s[..SpaceRunStart(s, |s|)]
  }

  /** `s.trim()`. */
  function Trim(s: string): string {
    TrimEnd(TrimStart(s))
  }

  /** `s.trim()` is empty exactly when every character of `s` is white space. */
  lemma TrimEmpty(s: string)
    ensures Trim(s) == "" <==> forall i :: 0 <= i < |s| ==> IsJsSpace(s[i])
  {
    var a := TrimStart(s);
    if Trim(s) == "" {
      assert |a| == 0;
    } else {
      var r := Trim(s);
      assert !IsJsSpace(r[0]);
      assert r[0] == a[0] == s[|s| - |a|];
    }
  }

  /** `s.toLowerCase()` restricted to the ASCII letters. */
  function LowerAscii(s: string): (r: string)
    ensures |r| == |s|
    ensures forall i :: 0 <= i < |s| ==>
      r[i] == (if 'A' <= s[i] <= 'Z' then (s[i] as int + 32) as char else s[i])
  {
    if |s| == 0 then ""
    else [if 'A' <= s[0] <= 'Z' then (s[0] as int + 32) as char else s[0]] + LowerAscii(s[1..])
  }

  predicate StartsWith(s: string, prefix: string) {
    |prefix| <= |s| && s[..|prefix|] == prefix
  }

  /** Prefix test ignoring ASCII case, as a `/^prefix/i` regular expression
      without the `u` flag matches (`prefix` is lower-case). */
  predicate StartsWithIgnoreCase(s: string, prefix: string) {
    |prefix| <= |s| && LowerAscii(s[..|prefix|]) == prefix
  }

  predicate IsAsciiLetter(c: char) {
    ('a' <= c <= 'z') || ('A' <= c <= 'Z')
  }

  /** No two adjacent slashes. */
  predicate NoDoubleSlash(s: string) {
    forall i :: 0 <= i < |s| - 1 ==> !(s[i] == '/' && s[i + 1] == '/')
  }

  /** The characters of `s` other than `c`, in order. */
  function WithoutChar(s: string, c: char): string
    decreases |s|
  {
    if |s| == 0 then "" else (if s[0] == c then "" else [s[0]]) + WithoutChar(s[1..], c)
  }

  /** Dropping a character distributes over concatenation. */
  lemma {:induction false} WithoutCharAppend(a: string, b: string, c: char)
    ensures WithoutChar(a + b, c) == WithoutChar(a, c) + WithoutChar(b, c)
    decreases |a|
  {
    if |a| > 0 {
      assert (a + b)[1..] == a[1..] + b;
      WithoutCharAppend(a[1..], b, c);
    } else {
      assert a + b == b;
    }
  }

  /** `s.replace(/\/{2,}/g, '/')`: every run of slashes becomes one. The
      other characters survive in order, a slash survives if there was
      one, and a string without a doubled slash is left alone. */
  function CollapseSlashes(s: string): (r: string)
    ensures |r| <= |s|
    ensures NoDoubleSlash(r)
    ensures WithoutChar(r, '/') == WithoutChar(s, '/')
    ensures ('/' in r) <==> ('/' in s)
    ensures NoDoubleSlash(s) ==> r == s
    decreases |s|
  {
    if |s| < 2 then s
    else if s[0] == '/' && s[1] == '/' then
      assert s[1..][0] == '/';
      CollapseSlashes(s[1..])
    else
      var t := CollapseSlashes(s[1..]);
      assert ([s[0]] + t)[1..] == t;
      assert NoDoubleSlash(s) ==> NoDoubleSlash(s[1..]) by {
        if NoDoubleSlash(s) {
          forall i | 0 <= i < |s[1..]| - 1
            ensures !(s[1..][i] == '/' && s[1..][i + 1] == '/')
          {
            assert s[1..][i] == s[i + 1] && s[1..][i + 1] == s[i + 2];
          }
        }
      }
      [s[0]] + t
  }

  /** Lexicographic order on the characters of two strings. The model's
      characters are code points; JavaScript's `<` compares UTF-16 code
      units, which orders the same way except where a character outside the
      Basic Multilingual Plane meets one from U+E000 to U+FFFF. */
  predicate LexLess(a: string, b: string)
    decreases |a|
  {
    if |a| == 0 then |b| > 0
    else if |b| == 0 then false
    else if a[0] != b[0] then a[0] < b[0]
    else LexLess(a[1..], b[1..])
  }
}

=== FILE: validation.dfy ===
/** `validateConfig`: the ordered errors and warnings the editor reports for
    a document, each a `{ path, message }` pair. Every missing number is read
    as 0 (`?? 0`); the containers the checks dereference without optional
    chaining make the whole validation throw when they are null or
    undefined. */
module Validation {
  import opened Strings
  import opened Js

  datatype Diagnostic = Diagnostic(path: string, message: string)

  datatype Report = Report(errors: seq<Diagnostic>, warnings: seq<Diagnostic>)

  /** `cfg.key` on the document itself. */
  function At(cfg: map<string, Value>, key: string): Option<Value> {
    Member(Some(Obj(cfg)), key)
  }

  /** `(v ?? 0) <= 0`. */
  predicate NotPositive(p: Platform, v: Option<Value>) {
    LessEq(p, Coalesce(v, Num(0.0)), Num(0.0))
  }

  /** `(a ?? 0) < (b ?? 0)`. */
  predicate Below(p: Platform, a: Option<Value>, b: Option<Value>) {
    Less(p, Coalesce(a, Num(0.0)), Coalesce(b, Num(0.0)))
  }

  /** `!v?.trim()`: true for null, undefined and blank strings; anything else
      that is not a string has no `trim` to call. */
  function Blank(v: Option<Value>): (r: Result<bool>)
    ensures r.Threw? <==> !Nullish(v) && !v.value.Str?
    ensures Nullish(v) ==> r == Ok(true)
    ensures v.Some? && v.value.Str? ==> (r == Ok(true) <==> forall i :: 0 <= i < |v.value.s| ==> IsJsSpace(v.value.s[i]))
  {
    if Nullish(v) then Ok(true)
    else if v.value.Str? then
      TrimEmpty(v.value.s);
      Ok(Trim(v.value.s) == "")
    else Threw
  }

  /** One diagnostic when `cond` holds. */
  function Check(cond: bool, path: string, message: string): (ds: seq<Diagnostic>)
    ensures cond ==> ds == [Diagnostic(path, message)]
    ensures !cond ==> ds == []
  {
    if cond then [Diagnostic(path, message)] else []
  }

  /** The report paths of the two g-limit axes. */
  const LongitudinalPath := "g_limits.longitudinal"
  const LateralPath := "g_limits.lateral"
  const SmoothingPath := "g_limits.behavior.smoothing_tau_s"

  /** The errors of one g-limit axis, `data` being `gl.<section>`. */
  function SectionErrors(p: Platform, path: string, title: string, data: Option<Value>): seq<Diagnostic> {
    if !Truthy(data) then [Diagnostic(path, title + " g-limits section is missing")]
    else
      var d := data.value;
      Check(NotPositive(p, GetProp(d, "sustained_g")), path + ".sustained_g", title + " sustained_g must be greater than zero")
      + Check(Below(p, GetProp(d, "burst_g"), GetProp(d, "sustained_g")), path + ".burst_g", title + " burst_g must be >= sustained_g")
      + Check(NotPositive(p, GetProp(d, "burst_duration_s")), path + ".burst_duration_s", title + " burst_duration_s must be greater than zero")
  }

  /** The warnings of one g-limit axis. */
  function SectionWarnings(p: Platform, path: string, title: string, data: Option<Value>): (ds: seq<Diagnostic>)
    ensures |ds| <= 1
  {
    if !Truthy(data) then []
    else
      var d := data.value;
      Check(Below(p, GetProp(d, "recovery_cooldown_s"), GetProp(d, "burst_duration_s")),
        path + ".recovery_cooldown_s", title + " recovery_cooldown_s is usually >= burst_duration_s")
  }

  /** The errors of the g-limit block `gl`. */
  function GLimitErrors(p: Platform, gl: Option<Value>): seq<Diagnostic> {
    if Truthy(gl) then
      SectionErrors(p, LongitudinalPath, "Longitudinal", Member(gl, "longitudinal"))
      + SectionErrors(p, LateralPath, "Lateral", Member(gl, "lateral"))
      + Check(NotPositive(p, Member(Member(gl, "behavior"), "smoothing_tau_s")),
          SmoothingPath, SmoothingPath + " must be greater than zero")
    else [Diagnostic("g_limits", "g_limits section is missing")]
  }

  /** The warnings of the g-limit block `gl`. */
  function GLimitWarnings(p: Platform, gl: Option<Value>): (ds: seq<Diagnostic>)
    ensures |ds| <= 2
  {
    if Truthy(gl) then
      SectionWarnings(p, LongitudinalPath, "Longitudinal", Member(gl, "longitudinal"))
      + SectionWarnings(p, LateralPath, "Lateral", Member(gl, "lateral"))
    else []
  }

  /** A container `validateConfig` dereferences without optional chaining is
      null or undefined. */
  predicate MissingContainer(cfg: map<string, Value>) {
    Nullish(At(cfg, "meta")) || Nullish(At(cfg, "mass"))
    || Nullish(Member(At(cfg, "geometry"), "bbox_m")) || Nullish(Member(At(cfg, "sprite"), "size_px"))
    || Nullish(At(cfg, "propulsion")) || Nullish(At(cfg, "rcs")) || Nullish(At(cfg, "spawn"))
  }

  /** The errors checked before the g-limit block, in order. */
  function LeadingErrors(p: Platform, cfg: map<string, Value>, idBlank: bool, classBlank: bool): seq<Diagnostic> {
    Check(idBlank, "meta.id", "meta.id is required")
    + Check(classBlank, "meta.class", "meta.class is required")
    + Check(NotPositive(p, Member(At(cfg, "mass"), "mass_kg")), "mass.mass_kg", "mass.mass_kg must be greater than zero")
    + Check(NotPositive(p, Member(Member(At(cfg, "geometry"), "bbox_m"), "width")),
        "geometry.bbox_m.width", "geometry.bbox_m.width must be greater than zero")
    + Check(NotPositive(p, Member(Member(At(cfg, "geometry"), "bbox_m"), "length")),
        "geometry.bbox_m.length", "geometry.bbox_m.length must be greater than zero")
    + Check(NotPositive(p, Member(At(cfg, "sprite"), "m_per_px")), "sprite.m_per_px", "sprite.m_per_px must be greater than zero")
  }

  /** The warnings checked before the g-limit block, in order. */
  function LeadingWarnings(p: Platform, cfg: map<string, Value>): (ds: seq<Diagnostic>)
    ensures |ds| <= 6
  {
    var size := Member(At(cfg, "sprite"), "size_px");
    var rcs := At(cfg, "rcs");
    Check(NotPositive(p, Member(size, "w")), "sprite.size_px.w", "Sprite width is not set")
    + Check(NotPositive(p, Member(size, "h")), "sprite.size_px.h", "Sprite height is not set")
    + Check(NotPositive(p, Member(At(cfg, "propulsion"), "main_engine_thrust_max_N")),
        "propulsion.main_engine_thrust_max_N", "Main engine thrust is not set")
    + Check(NotPositive(p, Member(rcs, "strafe_thrust_N")), "rcs.strafe_thrust_N", "RCS strafe thrust is not set")
    + Check(NotPositive(p, Member(rcs, "turn_alpha_max_radps2")), "rcs.turn_alpha_max_radps2", "RCS turn alpha limit is not set")
    + Check(NotPositive(p, Member(rcs, "turn_omega_max_radps")), "rcs.turn_omega_max_radps", "RCS turn omega limit is not set")
  }

  /** `validateConfig()` on the editor's document. */
  function Validate(p: Platform, cfg: map<string, Value>): (r: Result<Report>)
    ensures r.Threw? <==> (MissingContainer(cfg)
      || Blank(Member(At(cfg, "meta"), "id")).Threw? || Blank(Member(At(cfg, "meta"), "class")).Threw?)
    ensures r.Ok? ==> r.value == Diagnose(p, cfg, Blank(Member(At(cfg, "meta"), "id")).value,
      Blank(Member(At(cfg, "meta"), "class")).value)
  {
    if MissingContainer(cfg) then Threw
    else
      var meta := At(cfg, "meta");
      match (Blank(Member(meta, "id")), Blank(Member(meta, "class")))
      case (Ok(idBlank), Ok(classBlank)) => Ok(Diagnose(p, cfg, idBlank, classBlank))
      case _ => Threw
  }

  /** The report of a document whose containers are all present, given
      whether `meta.id` and `meta.class` are blank. */
  function Diagnose(p: Platform, cfg: map<string, Value>, idBlank: bool, classBlank: bool): (r: Report)
    ensures |r.warnings| <= 8
  {
    var gl := At(cfg, "g_limits");
    Report(
      LeadingErrors(p, cfg, idBlank, classBlank) + GLimitErrors(p, gl)
        + Check(Below(p, Member(At(cfg, "spawn"), "spawn_grace_seconds"), Some(Num(0.0))),
            "spawn.spawn_grace_seconds", "spawn.spawn_grace_seconds cannot be negative"),
      LeadingWarnings(p, cfg) + GLimitWarnings(p, gl))
  }

  /** Some diagnostic of `ds` points at `path`. */
  predicate Flags(ds: seq<Diagnostic>, path: string) {
    exists i :: 0 <= i < |ds| && ds[i].path == path
  }

  /** The g-limit block's own diagnostics: paths under `g_limits`. */
  predicate UnderGLimits(path: string) {
    StartsWith(path, "g_limits")
  }

  /** No diagnostic of `ds` is under `g_limits`. */
  predicate OutsideGLimits(ds: seq<Diagnostic>) {
    forall i :: 0 <= i < |ds| ==> !UnderGLimits(ds[i].path)
  }

  lemma FlagsAppend(a: seq<Diagnostic>, b: seq<Diagnostic>, path: string)
    ensures Flags(a + b, path) <==> Flags(a, path) || Flags(b, path)
  {
    if Flags(a + b, path) {
      var i :| 0 <= i < |a + b| && (a + b)[i].path == path;
      if i >= |a| { assert b[i - |a|] == (a + b)[i]; }
    }
    if Flags(a, path) {
      var i :| 0 <= i < |a| && a[i].path == path;
      assert (a + b)[i] == a[i];
    }
    if Flags(b, path) {
      var i :| 0 <= i < |b| && b[i].path == path;
      assert (a + b)[|a| + i] == b[i];
    }
  }

  lemma FlagsCheck(cond: bool, path: string, message: string, other: string)
    ensures Flags(Check(cond, path, message), other) <==> cond && path == other
  {
    if cond && path == other {
      assert Check(cond, path, message)[0].path == other;
    }
  }

  /** A path whose second character is not `_` is not under `g_limits`. */
  lemma SecondCharOutside(path: string)
    requires |path| >= 2 && path[1] != '_'
    ensures !UnderGLimits(path)
  {
    if |path| >= 8 {
      assert path[..8][1] == path[1];
    }
  }

  lemma CheckOutside(cond: bool, path: string, message: string)
    requires !UnderGLimits(path)
    ensures OutsideGLimits(Check(cond, path, message))
  {
  }

  lemma OutsideAppend(a: seq<Diagnostic>, b: seq<Diagnostic>)
    requires OutsideGLimits(a) && OutsideGLimits(b)
    ensures OutsideGLimits(a + b)
  {
    forall i | 0 <= i < |a + b| ensures !UnderGLimits((a + b)[i].path) {
      if i >= |a| { assert (a + b)[i] == b[i - |a|]; }
    }
  }

  /** An axis is present and its burst limit is below its sustained limit. */
  predicate BurstBelowSustained(p: Platform, data: Option<Value>) {
    Truthy(data) && Below(p, GetProp(data.value, "burst_g"), GetProp(data.value, "sustained_g"))
  }

  /** An axis is present and its recovery cooldown is shorter than its burst. */
  predicate CooldownShort(p: Platform, data: Option<Value>) {
    Truthy(data) && Below(p, GetProp(data.value, "recovery_cooldown_s"), GetProp(data.value, "burst_duration_s"))
  }

  /** An axis reports `burst_g` exactly when it is present and its burst is
      below its sustained limit. */
  lemma SectionBurstRule(p: Platform, path: string, title: string, data: Option<Value>)
    ensures Flags(SectionErrors(p, path, title, data), path + ".burst_g") <==> BurstBelowSustained(p, data)
  {
    var b := path + ".burst_g";
    assert b != path && b != path + ".sustained_g" && b != path + ".burst_duration_s" by {
      assert |b| != |path| && |b| != |path + ".sustained_g"| && |b| != |path + ".burst_duration_s"|;
    }
    if Truthy(data) {
      var d := data.value;
      var e1 := Check(NotPositive(p, GetProp(d, "sustained_g")), path + ".sustained_g", title + " sustained_g must be greater than zero");
      var e2 := Check(Below(p, GetProp(d, "burst_g"), GetProp(d, "sustained_g")), b, title + " burst_g must be >= sustained_g");
      var e3 := Check(NotPositive(p, GetProp(d, "burst_duration_s")), path + ".burst_duration_s", title + " burst_duration_s must be greater than zero");
      assert SectionErrors(p, path, title, data) == e1 + e2 + e3;
      FlagsAppend(e1 + e2, e3, b);
      FlagsAppend(e1, e2, b);
      FlagsCheck(NotPositive(p, GetProp(d, "sustained_g")), path + ".sustained_g", title + " sustained_g must be greater than zero", b);
      FlagsCheck(Below(p, GetProp(d, "burst_g"), GetProp(d, "sustained_g")), path + ".burst_g", title + " burst_g must be >= sustained_g", b);
      FlagsCheck(NotPositive(p, GetProp(d, "burst_duration_s")), path + ".burst_duration_s", title + " burst_duration_s must be greater than zero", b);
    }
  }

  /** A recovery cooldown shorter than the burst is only ever a warning: it
      is never an error, and it is a warning exactly when the axis is present
      and its cooldown is below its burst duration. */
  lemma SectionRecoveryIsWarning(p: Platform, path: string, title: string, data: Option<Value>)
    ensures !Flags(SectionErrors(p, path, title, data), path + ".recovery_cooldown_s")
    ensures Flags(SectionWarnings(p, path, title, data), path + ".recovery_cooldown_s") <==> CooldownShort(p, data)
  {
    var c := path + ".recovery_cooldown_s";
    assert c != path && c != path + ".sustained_g" && c != path + ".burst_g" && c != path + ".burst_duration_s" by {
      assert |c| != |path| && |c| != |path + ".sustained_g"| && |c| != |path + ".burst_g"| && |c| != |path + ".burst_duration_s"|;
    }
    if Truthy(data) {
      var d := data.value;
      var e1 := Check(NotPositive(p, GetProp(d, "sustained_g")), path + ".sustained_g", title + " sustained_g must be greater than zero");
      var e2 := Check(Below(p, GetProp(d, "burst_g"), GetProp(d, "sustained_g")), path + ".burst_g", title + " burst_g must be >= sustained_g");
      var e3 := Check(NotPositive(p, GetProp(d, "burst_duration_s")), path + ".burst_duration_s", title + " burst_duration_s must be greater than zero");
      assert SectionErrors(p, path, title, data) == e1 + e2 + e3;
      FlagsAppend(e1 + e2, e3, c);
      FlagsAppend(e1, e2, c);
      FlagsCheck(Below(p, GetProp(d, "recovery_cooldown_s"), GetProp(d, "burst_duration_s")),
        c, title + " recovery_cooldown_s is usually >= burst_duration_s", c);
      FlagsCheck(NotPositive(p, GetProp(d, "sustained_g")), path + ".sustained_g", title + " sustained_g must be greater than zero", c);
      FlagsCheck(Below(p, GetProp(d, "burst_g"), GetProp(d, "sustained_g")), path + ".burst_g", title + " burst_g must be >= sustained_g", c);
      FlagsCheck(NotPositive(p, GetProp(d, "burst_duration_s")), path + ".burst_duration_s", title + " burst_duration_s must be greater than zero", c);
    }
  }

  lemma OutsideAppendSix(a: seq<Diagnostic>, b: seq<Diagnostic>, c: seq<Diagnostic>,
                         d: seq<Diagnostic>, e: seq<Diagnostic>, f: seq<Diagnostic>)
    requires OutsideGLimits(a) && OutsideGLimits(b) && OutsideGLimits(c)
    requires OutsideGLimits(d) && OutsideGLimits(e) && OutsideGLimits(f)
    ensures OutsideGLimits(a + b + c + d + e + f)
  {
    OutsideAppend(a, b);
    OutsideAppend(a + b, c);
    OutsideAppend(a + b + c, d);
    OutsideAppend(a + b + c + d, e);
    OutsideAppend(a + b + c + d + e, f);
  }

  /** The paths of the checks made before the g-limit block. */
  lemma LeadingPathsOutside()
    ensures !UnderGLimits("meta.id")
    ensures !UnderGLimits("meta.class")
    ensures !UnderGLimits("mass.mass_kg")
    ensures !UnderGLimits("geometry.bbox_m.width")
    ensures !UnderGLimits("geometry.bbox_m.length")
    ensures !UnderGLimits("sprite.m_per_px")
    ensures !UnderGLimits("sprite.size_px.w")
    ensures !UnderGLimits("sprite.size_px.h")
    ensures !UnderGLimits("propulsion.main_engine_thrust_max_N")
    ensures !UnderGLimits("rcs.strafe_thrust_N")
    ensures !UnderGLimits("rcs.turn_alpha_max_radps2")
    ensures !UnderGLimits("rcs.turn_omega_max_radps")
  {
    SecondCharOutside("meta.id");
    SecondCharOutside("meta.class");
    SecondCharOutside("mass.mass_kg");
    SecondCharOutside("geometry.bbox_m.width");
    SecondCharOutside("geometry.bbox_m.length");
    SecondCharOutside("sprite.m_per_px");
    SecondCharOutside("sprite.size_px.w");
    SecondCharOutside("sprite.size_px.h");
    SecondCharOutside("propulsion.main_engine_thrust_max_N");
    SecondCharOutside("rcs.strafe_thrust_N");
    SecondCharOutside("rcs.turn_alpha_max_radps2");
    SecondCharOutside("rcs.turn_omega_max_radps");
  }

  /** No check before the g-limit block reports a path under `g_limits`. */
  lemma LeadingErrorsOutside(p: Platform, cfg: map<string, Value>, idBlank: bool, classBlank: bool)
    ensures OutsideGLimits(LeadingErrors(p, cfg, idBlank, classBlank))
  {
    LeadingPathsOutside();
    var e0 := Check(idBlank, "meta.id", "meta.id is required");
    CheckOutside(idBlank, "meta.id", "meta.id is required");
    var e1 := Check(classBlank, "meta.class", "meta.class is required");
    CheckOutside(classBlank, "meta.class", "meta.class is required");
    var e2 := Check(NotPositive(p, Member(At(cfg, "mass"), "mass_kg")), "mass.mass_kg", "mass.mass_kg must be greater than zero");
    CheckOutside(NotPositive(p, Member(At(cfg, "mass"), "mass_kg")), "mass.mass_kg", "mass.mass_kg must be greater than zero");
    var e3 := Check(NotPositive(p, Member(Member(At(cfg, "geometry"), "bbox_m"), "width")), "geometry.bbox_m.width", "geometry.bbox_m.width must be greater than zero");
    CheckOutside(NotPositive(p, Member(Member(At(cfg, "geometry"), "bbox_m"), "width")), "geometry.bbox_m.width", "geometry.bbox_m.width must be greater than zero");
    var e4 := Check(NotPositive(p, Member(Member(At(cfg, "geometry"), "bbox_m"), "length")), "geometry.bbox_m.length", "geometry.bbox_m.length must be greater than zero");
    CheckOutside(NotPositive(p, Member(Member(At(cfg, "geometry"), "bbox_m"), "length")), "geometry.bbox_m.length", "geometry.bbox_m.length must be greater than zero");
    var e5 := Check(NotPositive(p, Member(At(cfg, "sprite"), "m_per_px")), "sprite.m_per_px", "sprite.m_per_px must be greater than zero");
    CheckOutside(NotPositive(p, Member(At(cfg, "sprite"), "m_per_px")), "sprite.m_per_px", "sprite.m_per_px must be greater than zero");

    OutsideAppendSix(e0, e1, e2, e3, e4, e5);
  }

  /** Every diagnostic of an axis is at the axis itself or at one of its
      fields, so its path is as long as the axis's path plus that of a field
      suffix. */
  lemma SectionPaths(p: Platform, path: string, title: string, data: Option<Value>)
    ensures forall i :: 0 <= i < |SectionErrors(p, path, title, data)| ==>
      |SectionErrors(p, path, title, data)[i].path| - |path| in {0, 8, 12, 17}
    ensures forall i :: 0 <= i < |SectionWarnings(p, path, title, data)| ==>
      |SectionWarnings(p, path, title, data)[i].path| == |path| + 20
  {
  }

  /** A path under `g_limits` is flagged by no diagnostic outside it. */
  lemma OutsideNotFlagged(ds: seq<Diagnostic>, path: string)
    requires OutsideGLimits(ds) && UnderGLimits(path)
    ensures !Flags(ds, path)
  {
  }

  /** A path that no diagnostic of `ds` has the length of is not flagged. */
  lemma NotFlaggedByLength(ds: seq<Diagnostic>, path: string)
    requires forall i :: 0 <= i < |ds| ==> |ds[i].path| != |path|
    ensures !Flags(ds, path)
  {
  }

  /** No warning before the g-limit block is under `g_limits`. */
  lemma LeadingWarningsOutside(p: Platform, cfg: map<string, Value>)
    ensures OutsideGLimits(LeadingWarnings(p, cfg))
  {
    var size := Member(At(cfg, "sprite"), "size_px");
    var rcs := At(cfg, "rcs");
    LeadingPathsOutside();
    var w0 := Check(NotPositive(p, Member(size, "w")), "sprite.size_px.w", "Sprite width is not set");
    CheckOutside(NotPositive(p, Member(size, "w")), "sprite.size_px.w", "Sprite width is not set");
    var w1 := Check(NotPositive(p, Member(size, "h")), "sprite.size_px.h", "Sprite height is not set");
    CheckOutside(NotPositive(p, Member(size, "h")), "sprite.size_px.h", "Sprite height is not set");
    var w2 := Check(NotPositive(p, Member(At(cfg, "propulsion"), "main_engine_thrust_max_N")), "propulsion.main_engine_thrust_max_N", "Main engine thrust is not set");
    CheckOutside(NotPositive(p, Member(At(cfg, "propulsion"), "main_engine_thrust_max_N")), "propulsion.main_engine_thrust_max_N", "Main engine thrust is not set");
    var w3 := Check(NotPositive(p, Member(rcs, "strafe_thrust_N")), "rcs.strafe_thrust_N", "RCS strafe thrust is not set");
    CheckOutside(NotPositive(p, Member(rcs, "strafe_thrust_N")), "rcs.strafe_thrust_N", "RCS strafe thrust is not set");
    var w4 := Check(NotPositive(p, Member(rcs, "turn_alpha_max_radps2")), "rcs.turn_alpha_max_radps2", "RCS turn alpha limit is not set");
    CheckOutside(NotPositive(p, Member(rcs, "turn_alpha_max_radps2")), "rcs.turn_alpha_max_radps2", "RCS turn alpha limit is not set");
    var w5 := Check(NotPositive(p, Member(rcs, "turn_omega_max_radps")), "rcs.turn_omega_max_radps", "RCS turn omega limit is not set");
    CheckOutside(NotPositive(p, Member(rcs, "turn_omega_max_radps")), "rcs.turn_omega_max_radps", "RCS turn omega limit is not set");

    OutsideAppendSix(w0, w1, w2, w3, w4, w5);
  }

  /** Diagnostics outside `g_limits` around a block do not change which
      paths under `g_limits` are flagged. */
  lemma FlagsAround(before: seq<Diagnostic>, block: seq<Diagnostic>, after: seq<Diagnostic>, path: string)
    requires OutsideGLimits(before) && OutsideGLimits(after) && UnderGLimits(path)
    ensures Flags(before + block + after, path) <==> Flags(block, path)
  {
    FlagsAppend(before + block, after, path);
    FlagsAppend(before, block, path);
    OutsideNotFlagged(before, path);
    OutsideNotFlagged(after, path);
  }

  /** The report flags a path under `g_limits` exactly when the g-limit block
      does. */
  lemma DiagnoseFlagsGLimits(p: Platform, cfg: map<string, Value>, idBlank: bool, classBlank: bool, path: string)
    requires UnderGLimits(path)
    ensures Flags(Diagnose(p, cfg, idBlank, classBlank).errors, path) <==> Flags(GLimitErrors(p, At(cfg, "g_limits")), path)
    ensures Flags(Diagnose(p, cfg, idBlank, classBlank).warnings, path) <==> Flags(GLimitWarnings(p, At(cfg, "g_limits")), path)
  {
    var gl := At(cfg, "g_limits");
    var late := Below(p, Member(At(cfg, "spawn"), "spawn_grace_seconds"), Some(Num(0.0)));
    LeadingErrorsOutside(p, cfg, idBlank, classBlank);
    LeadingWarningsOutside(p, cfg);
    SpawnPathOutside();
    CheckOutside(late, "spawn.spawn_grace_seconds", "spawn.spawn_grace_seconds cannot be negative");
    FlagsAround(LeadingErrors(p, cfg, idBlank, classBlank), GLimitErrors(p, gl),
      Check(late, "spawn.spawn_grace_seconds", "spawn.spawn_grace_seconds cannot be negative"), path);
    FlagsAround(LeadingWarnings(p, cfg), GLimitWarnings(p, gl), [], path);
    assert LeadingWarnings(p, cfg) + GLimitWarnings(p, gl) + [] == LeadingWarnings(p, cfg) + GLimitWarnings(p, gl);
  }

  lemma SpawnPathOutside()
    ensures !UnderGLimits("spawn.spawn_grace_seconds")
  {
    SecondCharOutside("spawn.spawn_grace_seconds");
  }

  /** A path extending one under `g_limits` is under it too. */
  lemma UnderExtends(path: string, suffix: string)
    requires UnderGLimits(path)
    ensures UnderGLimits(path + suffix)
  {
    assert (path + suffix)[..8] == path[..8];
  }

  lemma AxisPathsUnder()
    ensures UnderGLimits(LongitudinalPath) && UnderGLimits(LateralPath)
  {
    assert LongitudinalPath[..8] == "g_limits";
    assert LateralPath[..8] == "g_limits";
  }

  /** Where the diagnostics of a present g-limit block come from. */
  lemma GLimitFlagsSplit(p: Platform, gl: Option<Value>, target: string)
    requires Truthy(gl)
    ensures Flags(GLimitErrors(p, gl), target)
      <==> (Flags(SectionErrors(p, LongitudinalPath, "Longitudinal", Member(gl, "longitudinal")), target)
        || Flags(SectionErrors(p, LateralPath, "Lateral", Member(gl, "lateral")), target)
        || (target == SmoothingPath && NotPositive(p, Member(Member(gl, "behavior"), "smoothing_tau_s"))))
    ensures Flags(GLimitWarnings(p, gl), target)
      <==> (Flags(SectionWarnings(p, LongitudinalPath, "Longitudinal", Member(gl, "longitudinal")), target)
        || Flags(SectionWarnings(p, LateralPath, "Lateral", Member(gl, "lateral")), target))
  {
    var long := SectionErrors(p, LongitudinalPath, "Longitudinal", Member(gl, "longitudinal"));
    var lat := SectionErrors(p, LateralPath, "Lateral", Member(gl, "lateral"));
    var tau := NotPositive(p, Member(Member(gl, "behavior"), "smoothing_tau_s"));
    var behavior := Check(tau, SmoothingPath, SmoothingPath + " must be greater than zero");
    FlagsAppend(long + lat, behavior, target);
    FlagsAppend(long, lat, target);
    FlagsCheck(tau, SmoothingPath, SmoothingPath + " must be greater than zero", target);
    FlagsAppend(SectionWarnings(p, LongitudinalPath, "Longitudinal", Member(gl, "longitudinal")),
      SectionWarnings(p, LateralPath, "Lateral", Member(gl, "lateral")), target);
  }

  /** The g-limit block reports an axis's `burst_g` exactly when the block
      and the axis are present and the burst limit is below the sustained
      limit. */
  lemma GLimitBurstRule(p: Platform, gl: Option<Value>)
    ensures Flags(GLimitErrors(p, gl), LongitudinalPath + ".burst_g")
      <==> (Truthy(gl) && BurstBelowSustained(p, Member(gl, "longitudinal")))
    ensures Flags(GLimitErrors(p, gl), LateralPath + ".burst_g")
      <==> (Truthy(gl) && BurstBelowSustained(p, Member(gl, "lateral")))
  {
    if Truthy(gl) {
      GLimitFlagsSplit(p, gl, LongitudinalPath + ".burst_g");
      GLimitFlagsSplit(p, gl, LateralPath + ".burst_g");
      SectionBurstRule(p, LongitudinalPath, "Longitudinal", Member(gl, "longitudinal"));
      SectionBurstRule(p, LateralPath, "Lateral", Member(gl, "lateral"));
      SectionPaths(p, LongitudinalPath, "Longitudinal", Member(gl, "longitudinal"));
      SectionPaths(p, LateralPath, "Lateral", Member(gl, "lateral"));
      NotFlaggedByLength(SectionErrors(p, LateralPath, "Lateral", Member(gl, "lateral")), LongitudinalPath + ".burst_g");
      NotFlaggedByLength(SectionErrors(p, LongitudinalPath, "Longitudinal", Member(gl, "longitudinal")), LateralPath + ".burst_g");
    }
  }

  /** A short recovery cooldown is never an error of the g-limit block; it is
      a warning exactly when the block and the axis are present and the
      cooldown is below the burst duration. */
  lemma GLimitRecoveryRule(p: Platform, gl: Option<Value>)
    ensures !Flags(GLimitErrors(p, gl), LongitudinalPath + ".recovery_cooldown_s")
    ensures !Flags(GLimitErrors(p, gl), LateralPath + ".recovery_cooldown_s")
    ensures Flags(GLimitWarnings(p, gl), LongitudinalPath + ".recovery_cooldown_s")
      <==> (Truthy(gl) && CooldownShort(p, Member(gl, "longitudinal")))
    ensures Flags(GLimitWarnings(p, gl), LateralPath + ".recovery_cooldown_s")
      <==> (Truthy(gl) && CooldownShort(p, Member(gl, "lateral")))
  {
    if Truthy(gl) {
      GLimitFlagsSplit(p, gl, LongitudinalPath + ".recovery_cooldown_s");
      GLimitFlagsSplit(p, gl, LateralPath + ".recovery_cooldown_s");
      SectionRecoveryIsWarning(p, LongitudinalPath, "Longitudinal", Member(gl, "longitudinal"));
      SectionRecoveryIsWarning(p, LateralPath, "Lateral", Member(gl, "lateral"));
      SectionPaths(p, LongitudinalPath, "Longitudinal", Member(gl, "longitudinal"));
      SectionPaths(p, LateralPath, "Lateral", Member(gl, "lateral"));
      NotFlaggedByLength(SectionErrors(p, LateralPath, "Lateral", Member(gl, "lateral")), LongitudinalPath + ".recovery_cooldown_s");
      NotFlaggedByLength(SectionErrors(p, LongitudinalPath, "Longitudinal", Member(gl, "longitudinal")), LateralPath + ".recovery_cooldown_s");
      NotFlaggedByLength(SectionWarnings(p, LateralPath, "Lateral", Member(gl, "lateral")), LongitudinalPath + ".recovery_cooldown_s");
      NotFlaggedByLength(SectionWarnings(p, LongitudinalPath, "Longitudinal", Member(gl, "longitudinal")), LateralPath + ".recovery_cooldown_s");
    }
  }

  /** A missing g-limit block is reported at `g_limits` and nowhere below it;
      a present one is never reported at `g_limits` itself. */
  lemma GLimitMissingRule(p: Platform, gl: Option<Value>)
    ensures Flags(GLimitErrors(p, gl), "g_limits") <==> !Truthy(gl)
    ensures !Truthy(gl) ==> |GLimitErrors(p, gl)| == 1 && GLimitWarnings(p, gl) == []
  {
    if Truthy(gl) {
      GLimitFlagsSplit(p, gl, "g_limits");
      SectionPaths(p, LongitudinalPath, "Longitudinal", Member(gl, "longitudinal"));
      SectionPaths(p, LateralPath, "Lateral", Member(gl, "lateral"));
      NotFlaggedByLength(SectionErrors(p, LongitudinalPath, "Longitudinal", Member(gl, "longitudinal")), "g_limits");
      NotFlaggedByLength(SectionErrors(p, LateralPath, "Lateral", Member(gl, "lateral")), "g_limits");
    } else {
      assert GLimitErrors(p, gl)[0].path == "g_limits";
    }
  }

  /** `validateConfig` reports an axis's `burst_g` exactly when `g_limits`
      and the axis are present and the burst limit is below the sustained
      limit, missing numbers counting as 0. */
  lemma BurstRule(p: Platform, cfg: map<string, Value>)
    requires Validate(p, cfg).Ok?
    ensures Flags(Validate(p, cfg).value.errors, LongitudinalPath + ".burst_g")
      <==> (Truthy(At(cfg, "g_limits")) && BurstBelowSustained(p, Member(At(cfg, "g_limits"), "longitudinal")))
    ensures Flags(Validate(p, cfg).value.errors, LateralPath + ".burst_g")
      <==> (Truthy(At(cfg, "g_limits")) && BurstBelowSustained(p, Member(At(cfg, "g_limits"), "lateral")))
  {
    var idBlank := Blank(Member(At(cfg, "meta"), "id")).value;
    var classBlank := Blank(Member(At(cfg, "meta"), "class")).value;
    AxisPathsUnder();
    UnderExtends(LongitudinalPath, ".burst_g");
    UnderExtends(LateralPath, ".burst_g");
    DiagnoseFlagsGLimits(p, cfg, idBlank, classBlank, LongitudinalPath + ".burst_g");
    DiagnoseFlagsGLimits(p, cfg, idBlank, classBlank, LateralPath + ".burst_g");
    GLimitBurstRule(p, At(cfg, "g_limits"));
  }

  /** `validateConfig` never reports a short recovery cooldown as an error;
      it warns about it exactly when `g_limits` and the axis are present and
      the cooldown is below the burst duration. */
  lemma RecoveryCooldownOnlyWarns(p: Platform, cfg: map<string, Value>)
    requires Validate(p, cfg).Ok?
    ensures !Flags(Validate(p, cfg).value.errors, LongitudinalPath + ".recovery_cooldown_s")
    ensures !Flags(Validate(p, cfg).value.errors, LateralPath + ".recovery_cooldown_s")
    ensures Flags(Validate(p, cfg).value.warnings, LongitudinalPath + ".recovery_cooldown_s")
      <==> (Truthy(At(cfg, "g_limits")) && CooldownShort(p, Member(At(cfg, "g_limits"), "longitudinal")))
    ensures Flags(Validate(p, cfg).value.warnings, LateralPath + ".recovery_cooldown_s")
      <==> (Truthy(At(cfg, "g_limits")) && CooldownShort(p, Member(At(cfg, "g_limits"), "lateral")))
  {
    var idBlank := Blank(Member(At(cfg, "meta"), "id")).value;
    var classBlank := Blank(Member(At(cfg, "meta"), "class")).value;
    AxisPathsUnder();
    UnderExtends(LongitudinalPath, ".recovery_cooldown_s");
    UnderExtends(LateralPath, ".recovery_cooldown_s");
    DiagnoseFlagsGLimits(p, cfg, idBlank, classBlank, LongitudinalPath + ".recovery_cooldown_s");
    DiagnoseFlagsGLimits(p, cfg, idBlank, classBlank, LateralPath + ".recovery_cooldown_s");
    GLimitRecoveryRule(p, At(cfg, "g_limits"));
  }

  /** The report of a document reports `g_limits` exactly when the block is
      missing, and then reports nothing below it. */
  lemma DiagnoseMissingGLimits(p: Platform, cfg: map<string, Value>, idBlank: bool, classBlank: bool)
    ensures Flags(Diagnose(p, cfg, idBlank, classBlank).errors, "g_limits") <==> !Truthy(At(cfg, "g_limits"))
    ensures !Truthy(At(cfg, "g_limits")) ==> forall path :: UnderGLimits(path) && path != "g_limits" ==>
      !Flags(Diagnose(p, cfg, idBlank, classBlank).errors, path) && !Flags(Diagnose(p, cfg, idBlank, classBlank).warnings, path)
  {
    var gl := At(cfg, "g_limits");
    assert UnderGLimits("g_limits");
    DiagnoseFlagsGLimits(p, cfg, idBlank, classBlank, "g_limits");
    GLimitMissingRule(p, gl);
    if !Truthy(gl) {
      forall path | UnderGLimits(path) && path != "g_limits"
        ensures !Flags(Diagnose(p, cfg, idBlank, classBlank).errors, path)
        ensures !Flags(Diagnose(p, cfg, idBlank, classBlank).warnings, path)
      {
        DiagnoseFlagsGLimits(p, cfg, idBlank, classBlank, path);
      }
    }
  }

  /** `validateConfig` reports `g_limits` exactly when the block is missing,
      and then reports nothing below it. */
  lemma MissingGLimitsRule(p: Platform, cfg: map<string, Value>)
    requires Validate(p, cfg).Ok?
    ensures Flags(Validate(p, cfg).value.errors, "g_limits") <==> !Truthy(At(cfg, "g_limits"))
    ensures !Truthy(At(cfg, "g_limits")) ==> forall path :: UnderGLimits(path) && path != "g_limits" ==>
      !Flags(Validate(p, cfg).value.errors, path) && !Flags(Validate(p, cfg).value.warnings, path)
  {
    DiagnoseMissingGLimits(p, cfg, Blank(Member(At(cfg, "meta"), "id")).value, Blank(Member(At(cfg, "meta"), "class")).value);
  }
}

=== FILE: validationlaws.dfy ===
/** How the g-limit recommender and the validator fit together: applying a
    profile to every section of `g_limits` leaves the validator nothing to
    report about the g-limit block. */
module ValidationLaws {
  import opened Js
  import opened Paths
  import opened Patching
  import opened Presets
  import opened Handlers
  import opened HandlerLaws
  import opened Validation

  /** `data` is an object holding the four numbers of an axis profile. */
  predicate HoldsAxis(data: Option<Value>, a: AxisLimits) {
    data.Some? && data.value.Obj?
    && GetProp(data.value, "sustained_g") == Some(Num(a.sustained))
    && GetProp(data.value, "burst_g") == Some(Num(a.burst))
    && GetProp(data.value, "burst_duration_s") == Some(Num(a.burstDuration))
    && GetProp(data.value, "recovery_cooldown_s") == Some(Num(a.recoveryCooldown))
  }

  /** `gl` is an object holding both axes and the smoothing constant of a
      profile. */
  predicate HoldsBlock(gl: Option<Value>, g: GLimitPreset) {
    gl.Some? && gl.value.Obj?
    && HoldsAxis(Member(gl, "longitudinal"), g.longitudinal)
    && HoldsAxis(Member(gl, "lateral"), g.lateral)
    && Member(Member(gl, "behavior"), "smoothing_tau_s") == Some(Num(g.smoothing))
  }

  /** An axis section holding a sound axis draws neither an error nor a
      warning. */
  lemma SectionClean(p: Platform, path: string, title: string, data: Option<Value>, a: AxisLimits)
    requires HoldsAxis(data, a) && AxisSound(a)
    ensures SectionErrors(p, path, title, data) == []
    ensures SectionWarnings(p, path, title, data) == []
  {
    LessEqNumbers(p, a.sustained, 0.0);
    LessEqNumbers(p, a.burst, a.sustained);
    LessEqNumbers(p, a.burstDuration, 0.0);
    LessEqNumbers(p, a.recoveryCooldown, a.burstDuration);
  }

  /** A g-limit block holding a sound profile draws neither an error nor a
      warning. */
  lemma BlockClean(p: Platform, gl: Option<Value>, g: GLimitPreset)
    requires HoldsBlock(gl, g) && PresetSound(g)
    ensures GLimitErrors(p, gl) == [] && GLimitWarnings(p, gl) == []
  {
    SectionClean(p, LongitudinalPath, "Longitudinal", Member(gl, "longitudinal"), g.longitudinal);
    SectionClean(p, LateralPath, "Lateral", Member(gl, "lateral"), g.lateral);
    LessEqNumbers(p, g.smoothing, 0.0);
  }

  /** The section and field of the `i`-th entry of the patch for scope
      `all`. */
  function Slot(i: nat): (string, string)
    requires i < 10
  {
    if i < 4 then ("longitudinal", AxisFields[i])
    else if i < 8 then ("lateral", AxisFields[i - 4])
    else ("behavior", BehaviorFields[i - 8])
  }

  /** The position of a slot, read back from its section and field names. */
  function SlotIndex(s: string, f: string): int {
    var field :=
      if f == "sustained_g" || f == "smoothing_tau_s" then 0
      else if f == "burst_g" || f == "blackout_model" then 1
      else if f == "burst_duration_s" then 2
      else 3;
    if s == "longitudinal" then field else if s == "lateral" then 4 + field else 8 + field
  }

  /** The slots are pairwise distinct: `SlotIndex` undoes `Slot`. */
  lemma SlotsDistinct()
    ensures forall i, j :: 0 <= i < 10 && 0 <= j < 10 && i != j ==> Slot(i) != Slot(j)
  {
    forall i | 0 <= i < 10
      ensures SlotIndex(Slot(i).0, Slot(i).1) == i
    {
      if i < 4 {
        assert Slot(i) == ("longitudinal", AxisFields[i]);
      } else if i < 8 {
        assert Slot(i) == ("lateral", AxisFields[i - 4]);
      } else {
        assert Slot(i) == ("behavior", BehaviorFields[i - 8]);
      }
    }
  }

  /** The keys of the `i`-th entry of the patch for scope `all`. */
  lemma AllPatchKeys(g: GLimitPreset)
    ensures |GLimitsPatch(g, "all")| == 10
    ensures forall i :: 0 <= i < 10 ==> Keys(GLimitsPatch(g, "all")[i].0) == ["g_limits", Slot(i).0, Slot(i).1]
  {
    var long := AxisEntries("longitudinal", g.longitudinal);
    var lat := AxisEntries("lateral", g.lateral);
    var behavior := BehaviorEntries(g);
    var patch := GLimitsPatch(g, "all");
    assert patch == long + lat + behavior;
    SectionNamesPlain();
    AxisEntriesKeys("longitudinal", g.longitudinal);
    AxisEntriesKeys("lateral", g.lateral);
    BehaviorEntriesKeys(g);
    forall i | 0 <= i < 10
      ensures Keys(patch[i].0) == ["g_limits", Slot(i).0, Slot(i).1]
    {
      if i < 4 {
        assert patch[i] == long[i];
      } else if i < 8 {
        assert patch[i] == lat[i - 4];
      } else {
        assert patch[i] == behavior[i - 8];
      }
    }
  }

  /** Three-key paths under one root part ways when their last two keys
      differ somewhere. */
  lemma ThreeKeysDiverge(root: string, s: string, f: string, s2: string, f2: string)
    requires (s, f) != (s2, f2)
    ensures Diverges([root, s, f], [root, s2, f2])
  {
    assert [root, s, f][1..] == [s, f] && [root, s2, f2][1..] == [s2, f2];
    assert [s, f][1..] == [f] && [s2, f2][1..] == [f2];
  }

  /** No path of the patch for scope `all` is a prefix of another. */
  lemma AllPatchDiverges(g: GLimitPreset)
    ensures PathsDiverge(GLimitsPatch(g, "all"))
  {
    var patch := GLimitsPatch(g, "all");
    AllPatchKeys(g);
    SlotsDistinct();
    forall i, j | 0 <= i < |patch| && 0 <= j < |patch| && i != j
      ensures Diverges(Keys(patch[i].0), Keys(patch[j].0))
    {
      ThreeKeysDiverge("g_limits", Slot(i).0, Slot(i).1, Slot(j).0, Slot(j).1);
    }
  }

  /** What a written three-key path under `g_limits` reads back as, one
      member access at a time. */
  lemma Lands(cfg: map<string, Value>, path: string, s: string, f: string, v: Value)
    requires Keys(path) == ["g_limits", s, f]
    requires GetPath(Obj(cfg), path) == Some(v)
    requires PrefixesAreObjects(cfg, Keys(path))
    ensures At(cfg, "g_limits").Some? && At(cfg, "g_limits").value.Obj?
    ensures Member(At(cfg, "g_limits"), s).Some? && Member(At(cfg, "g_limits"), s).value.Obj?
    ensures GetProp(Member(At(cfg, "g_limits"), s).value, f) == Some(v)
    ensures Member(Member(At(cfg, "g_limits"), s), f) == Some(v)
  {
    var ks := ["g_limits", s, f];
    assert ks[1..] == [s, f] && ks[1..][1..] == [f] && ks[1..][1..][1..] == [];
    var section := Member(At(cfg, "g_limits"), s);
    assert section == Some(cfg["g_limits"].fields[s]);
    assert Walk(Some(Obj(cfg)), ks) == Walk(At(cfg, "g_limits"), [s, f]);
    assert Walk(At(cfg, "g_limits"), [s, f]) == Walk(section, [f]);
    assert Walk(section, [f]) == Member(section, f);
  }

  /** The values of the patch for scope `all`, in the order of the slots. */
  lemma AllPatchValues(g: GLimitPreset)
    ensures |GLimitsPatch(g, "all")| == 10
    ensures GLimitsPatch(g, "all")[0].1 == Num(g.longitudinal.sustained)
    ensures GLimitsPatch(g, "all")[1].1 == Num(g.longitudinal.burst)
    ensures GLimitsPatch(g, "all")[2].1 == Num(g.longitudinal.burstDuration)
    ensures GLimitsPatch(g, "all")[3].1 == Num(g.longitudinal.recoveryCooldown)
    ensures GLimitsPatch(g, "all")[4].1 == Num(g.lateral.sustained)
    ensures GLimitsPatch(g, "all")[5].1 == Num(g.lateral.burst)
    ensures GLimitsPatch(g, "all")[6].1 == Num(g.lateral.burstDuration)
    ensures GLimitsPatch(g, "all")[7].1 == Num(g.lateral.recoveryCooldown)
    ensures GLimitsPatch(g, "all")[8].1 == Num(g.smoothing)
  {
    var long := AxisEntries("longitudinal", g.longitudinal);
    var lat := AxisEntries("lateral", g.lateral);
    var behavior := BehaviorEntries(g);
    assert GLimitsPatch(g, "all") == long + lat + behavior;
  }

  /** Writing the patch for scope `all` leaves a `g_limits` block holding
      the whole profile, whatever the document held before. */
  lemma AllPatchLandsBlock(config: map<string, Value>, g: GLimitPreset)
    ensures HoldsBlock(At(ApplyEntries(config, GLimitsPatch(g, "all")), "g_limits"), g)
  {
    var patch := GLimitsPatch(g, "all");
    var cfg := ApplyEntries(config, patch);
    AllPatchKeys(g);
    AllPatchValues(g);
    AllPatchDiverges(g);
    PatchReadBack(config, patch);
    forall j | 0 <= j < 10
      ensures var gl := At(cfg, "g_limits");
        gl.Some? && gl.value.Obj? && Member(gl, Slot(j).0).Some? && Member(gl, Slot(j).0).value.Obj?
        && GetProp(Member(gl, Slot(j).0).value, Slot(j).1) == Some(patch[j].1)
        && Member(Member(gl, Slot(j).0), Slot(j).1) == Some(patch[j].1)
    {
      Lands(cfg, patch[j].0, Slot(j).0, Slot(j).1, patch[j].1);
    }
    assert Slot(0) == ("longitudinal", "sustained_g") && Slot(1) == ("longitudinal", "burst_g");
    assert Slot(2) == ("longitudinal", "burst_duration_s") && Slot(3) == ("longitudinal", "recovery_cooldown_s");
    assert Slot(4) == ("lateral", "sustained_g") && Slot(5) == ("lateral", "burst_g");
    assert Slot(6) == ("lateral", "burst_duration_s") && Slot(7) == ("lateral", "recovery_cooldown_s");
    assert Slot(8) == ("behavior", "smoothing_tau_s");
  }

  /** Applying a known g-limit profile to every section (`scope` `all`)
      leaves the validator no g-limit error and no g-limit warning: every
      profile of the table passes the checks `validateConfig` makes. */
  lemma RecommendAllClearsGLimits(p: Platform, e: Editor)
    requires RecommendGLimits(p, e, "all").Patched?
    ensures var gl := At(After(e, RecommendGLimits(p, e, "all").patch).config, "g_limits");
      GLimitErrors(p, gl) == [] && GLimitWarnings(p, gl) == []
  {
    var key := ProfileKey(e.config).value;
    var g := GLimitPresetFor(key).value;
    GLimitPresetsSound(key);
    AllPatchLandsBlock(e.config, g);
    BlockClean(p, At(ApplyEntries(e.config, GLimitsPatch(g, "all")), "g_limits"), g);
  }
}
